=== FILE: README.md ===
# Disciplined Minds focus enforcement, modelled in Dafny

Disciplined Minds is an Android focus app. A focus session is a countdown timer.
While the timer runs, or while study mode is on, the app covers any *locked*
application with an overlay and cancels that application's notifications.
Which applications are locked is a map from package name to a boolean. The
map is stored, together with the timer fields, in the app's shared
preferences.

This project models the decisions behind that enforcement as pure functions
over immutable records, and proves what they promise:

- `Timer`: the timer service's state machine (start, stop, extend, countdown
  tick, expiry) and its `MM:SS` notification text. Live countdown tasks are
  counted, so that a task left running by a restart is visible.
- `Focus`: the persisted focus state and the blocking rule shared by the
  services: study mode, or a blocking, active timer with time left. A package
  is locked only when its map entry is exactly `true`.
- `AppBlock`: the overlay controller: the 100 ms foreground poll with its
  `previousPackage` debounce, the forced refresh on timer broadcasts, and the
  add/remove overlay actions, which keep at most one overlay held.
- `Notifications`: the current listener's cancel decision and the legacy
  study-mode-only one.
- `Boot`: recovery after a reboot.
- `Home`, `MainScreen`, `LockCounts`: what the two home screens show (the
  timer text, the status line, locked and open counts, the duration buttons),
  and the commands they send.
- `AppCatalog`, `AppList`, `AppLock`: the installed-application catalog. The
  legacy two-tab app list classifies and moves applications between tabs. The
  newer lock screen merges the stored map with the installed applications.
- `Prefs`, `PrefData`: the typed key/value store and the typed accessors on
  top of it. A read of a key that holds a value of another type is an error
  (`PrefError`), as the platform throws.
- `Schedules`, `ScheduleDialog`, `ScheduleTime`: recurring focus schedules.
  These cover list edits, the alarms armed and cancelled for each schedule,
  the editor dialog, the time picker text, the 12-hour display, and the
  receiver that turns an alarm into a timer command.
- `Permissions`: the permission gate.
- `Text`, `Numeric`, `Ordering`, `Wrappers`: Kotlin's decimal text, its
  truncating `Long` division and wrapping `toInt()`, name sorting and
  filtering, and `Option`/`Result`.

`remaining` (milliseconds left on the timer) is an input everywhere. The
accessor that computes it is not part of this model. Only the comparisons the
callers make on it are used.

## Behaviour worth knowing

- **Absent map entries.** Every enforcement check compares a package's map
  entry with `true`, so a package without an entry is *not* locked
  (`Focus.IsLocked`). The newer lock screen *writes* every new package as
  locked (`AppLock.AddMissing`), so an installed package counts as locked by
  default only once that screen has been opened.
- **Restarting the timer.** `startTimer` schedules a new countdown without
  cancelling the running one (see Findings).
- **Starting cannot fail.** `startTimer` writes the timer fields with
  fire-and-forget preference writes and reports no error.
- **Extending an idle timer.** `extendTimer` on an inactive timer does
  nothing and announces nothing.
- **The home screen's timer flag.** The home screen ignores the blocking flag
  and calls the timer active whenever it is active with time left. The
  services also require the blocking flag (`Home.ScreenAgreesWithServices`).
- **Failing store reads.** A stored value of the wrong type makes a read
  throw. The poll and the forced refresh of the overlay controller catch it
  and skip the rest of their step; `ensureOverlayVisible` and the service's
  start do not, so there it ends the process (`AppBlock.Crash`).

## Model

| member | source | states |
|---|---|---|
| Timer.StartTimerAsWritten | app/src/main/java/com/disciplined/minds/timer/service/TimerService.kt:65-75 | start, from any state, sets duration and start time, makes the timer active and blocking, and announces `timer_started`; every countdown already running stays alive beside the new one |
| Timer.StartTimer | app/src/main/java/com/disciplined/minds/timer/service/TimerService.kt:65-75 | the corrected start: the same fields and broadcast, with exactly one tracked countdown and no new orphan |
| Timer.StopTimer | app/src/main/java/com/disciplined/minds/timer/service/TimerService.kt:77-90 | stop leaves the timer neither active nor blocking, keeps duration and start time, leaves only orphaned countdowns alive, and announces `timer_stopped` |
| Timer.StopTwice | app/src/main/java/com/disciplined/minds/timer/service/TimerService.kt:77-90 | a second stop leaves the service exactly as the first one did |
| Timer.ExtendTimer | app/src/main/java/com/disciplined/minds/timer/service/TimerService.kt:92-99 | an idle timer is untouched and nothing is announced; an active one changes only its duration, by exactly the minutes asked for when the sum fits in an `Int`, and announces `timer_extended` |
| Timer.Tick | app/src/main/java/com/disciplined/minds/timer/service/TimerService.kt:101-131 | with time left the state is unchanged and the time left is announced; with none the timer stops being active and blocking, `timer_completed` is announced, and the countdown cancels itself |
| Timer.OnStartCommand | app/src/main/java/com/disciplined/minds/timer/service/TimerService.kt:48-61 | corrected (see Findings): a start without a duration runs 30 minutes; an extend without one adds 15 (with `Int` wrap-around); a stop clears the flags and the tracked countdown; any other action changes nothing; with the corrected start no command creates an orphan |
| Timer.OnStartCommandAsWritten | app/src/main/java/com/disciplined/minds/timer/service/TimerService.kt:48-75 | as written: a start without a duration runs 30 minutes, announces the start and adds one live countdown beside those running; a stop clears the flags and the tracked countdown; an extend without a duration adds 15; only a start can create an orphan |
| Timer.AsWrittenDiffersOnlyInOrphans | app/src/main/java/com/disciplined/minds/timer/service/TimerService.kt:65-75 | the command handler as written and the corrected one give the same fields and broadcasts, and differ in their countdowns exactly for a start while a countdown is tracked |
| Timer.RunKeepsOrphans | app/src/main/java/com/disciplined/minds/timer/service/TimerService.kt:48-131 | corrected (see Findings): over any sequence of commands and ticks of the tracked countdown, the corrected service never orphans a countdown |
| Timer.StopAfterAnyHistory | app/src/main/java/com/disciplined/minds/timer/service/TimerService.kt:77-90 | corrected (see Findings): from a fresh service, a stop after any history leaves no countdown alive |
| Timer.OrphanOutlivesStop | app/src/main/java/com/disciplined/minds/timer/service/TimerService.kt:65-117 | as written, start, start, stop leaves one countdown alive, and its next run announces a completion or a time left to a stopped timer |
| Timer.NotificationClock | app/src/main/java/com/disciplined/minds/timer/service/TimerService.kt:158-162 | minutes are never negative and seconds lie in 0..59; no time left shows 0:00; otherwise they are the whole minutes and seconds of the time left |
| Timer.ClockSplit | app/src/main/java/com/disciplined/minds/timer/service/TimerService.kt:160-161 | for a non-negative time, Kotlin's truncating quotient and remainder give whole minutes and whole seconds under 60 that add up to the time left, to the second |
| Timer.NotificationText | app/src/main/java/com/disciplined/minds/timer/service/TimerService.kt:158-162 | the text splits at its one colon into two digit fields, the seconds exactly two digits and the minutes at least two with no zero beyond the padding, that read back as the notification's minutes and seconds |
| Boot.RestartMinutes | app/src/main/java/com/disciplined/minds/timer/receiver/BootReceiver.kt:19 | the restart duration is `remaining/60000 + 1`, the smallest whole number of minutes that strictly exceeds the time left |
| Boot.OnReceive | app/src/main/java/com/disciplined/minds/timer/receiver/BootReceiver.kt:11-32 | any other action has no effect; an active timer with time left is restarted for the restart minutes and the block service starts; an expired one has both flags cleared and starts no timer; an idle one is untouched; the block service starts exactly when study mode is on or the timer was restarted |
| Boot.OnReceiveSettles | app/src/main/java/com/disciplinedminds/timer/receiver/BootReceiver.kt:14-27 | running the receiver a second time leaves the persisted timer as the first run left it |
| Boot.RestartCoversRemaining | app/src/main/java/com/disciplinedminds/timer/receiver/BootReceiver.kt:16-22 | the timer service, started with the restart duration, is active and blocking and runs longer than the time that was left |
| Focus.ReadFocus | app/src/main/java/com/disciplinedminds/applist/service/NotificationService.kt:12-16 | reading the focus state succeeds exactly when both the map and the study flag read back, and then carries their values |
| Focus.FreshStoreBlocksNothing | app/src/main/java/com/disciplined/minds/applist/service/AppBlockService.kt:235-238 | with nothing stored, no package is blocked, because an absent map means nothing is locked |
| Notifications.ShouldCancel | app/src/main/java/com/disciplinedminds/applist/service/NotificationService.kt:10-28 | a notification is cancelled only when both reads succeed, blocking is on, and the package's entry is present and true |
| Notifications.CancelMatchesOverlayRule | app/src/main/java/com/disciplinedminds/applist/service/NotificationService.kt:15-27 | the listener cancels exactly the notifications of the packages the overlay controller would cover; when a read fails it cancels nothing |
| Notifications.LegacyShouldCancel | app/src/main/java/com/disciplined/minds/applist/service/NotificationService.kt:19-28 | the legacy decision fails exactly when a read fails; otherwise it cancels only in study mode, for a package whose entry is present and true |
| Notifications.ListenersDiffer | app/src/main/java/com/disciplined/minds/applist/service/NotificationService.kt:23-24 | whatever the legacy listener cancels, the current one cancels too; they disagree exactly when study mode is off and the timer alone blocks a locked package |
| LockCounts.KeysPartition | app/src/main/java/com/disciplined/minds/applist/views/AppListActivity.kt:101-107 | locked and open packages are disjoint, cover the map, and their counts add up to its size |
| LockCounts.CountValues | app/src/main/java/com/disciplined/minds/applist/views/AppListActivity.kt:101-107 | the counting loop finds exactly the number of true and of false entries, which sum to the map's size |
| LockCounts.UpdateTabAppCount | app/src/main/java/com/disciplined/minds/applist/views/AppListActivity.kt:96-113 | with a stored map the tab titles show its false (open) and true (locked) counts; with none they stay as they were |
| Home.UpdateUiState | app/src/main/java/com/disciplined/minds/ui/home/HomeViewModel.kt:101-124 | the timer counts as active exactly when it is active with time left, whatever the blocking flag; blocking means study mode or that; locked and open counts are those of the map (both 0 without one); the ticker runs exactly while the timer is active |
| Home.TickerStep | app/src/main/java/com/disciplined/minds/ui/home/HomeViewModel.kt:126-145 | each tick refreshes the timer fields and keeps the rest of the state; the ticker stops once the timer has no time left |
| Home.UpdateSelectedDuration | app/src/main/java/com/disciplined/minds/ui/home/HomeViewModel.kt:42-44 | the chosen duration becomes exactly the one given; nothing else changes |
| Home.StartFocusTimer | app/src/main/java/com/disciplined/minds/ui/home/HomeViewModel.kt:46-56 | the start button sends a start command for the chosen duration, and starts the block service exactly when it is not already running |
| Home.StartRunsChosenDuration | app/src/main/java/com/disciplined/minds/ui/home/HomeViewModel.kt:46-53 | the timer service, sent the screen's start command, runs an active, blocking timer for the chosen duration from now, and announces the start |
| Home.StartedSessionBlocks | app/src/main/java/com/disciplined/minds/ui/home/HomeViewModel.kt:46-56 | after a start from the home screen the block service is running or being started, and while time is left the started timer alone blocks exactly the locked packages, with study mode on or off |
| Home.ToggleStudyMode | app/src/main/java/com/disciplined/minds/ui/home/HomeViewModel.kt:75-89 | study mode reads back as set and the map is untouched; the block service is started exactly when study mode is switched on and the service is not already running |
| Home.StudyToggleDecidesBlocking | app/src/main/java/com/disciplined/minds/ui/home/HomeViewModel.kt:75-81 | with study mode switched on, exactly the locked packages are blocked, whatever the timer; switched off, a locked package is blocked exactly while the timer blocks |
| Home.StopAndExtendButtons | app/src/main/java/com/disciplined/minds/ui/home/HomeViewModel.kt:58-73 | after STOP the timer no longer blocks; EXTEND adds 15 minutes to a running timer and leaves whether it blocks unchanged |
| Home.TotalSeconds | app/src/main/java/com/disciplined/minds/ui/home/HomeViewModel.kt:179 | the whole seconds left, never negative, and 0 when under one second is left |
| Home.TimerDisplay | app/src/main/java/com/disciplined/minds/ui/home/HomeViewModel.kt:177-183 | the display is two digit fields around a colon, zero-padded to at least two digits for the minutes (with no zero beyond that padding) and exactly two for the seconds, the second under 60, and together they read back as the whole seconds left |
| Home.BlockingStatusLabel | app/src/main/java/com/disciplined/minds/ui/home/HomeViewModel.kt:185-190 | "Timer Active" exactly when the timer runs, "Study Mode Active" exactly when only study mode is on, "Inactive" otherwise |
| Home.LabelMatchesBlocking | app/src/main/java/com/disciplined/minds/ui/home/HomeViewModel.kt:108-142 | after a refresh and after each tick, the label reads "Inactive" exactly when the screen reports no blocking |
| Home.ScreenAgreesWithServices | app/src/main/java/com/disciplined/minds/ui/home/HomeViewModel.kt:102-108 | when the blocking flag is set, the screen reports blocking exactly when the services block; it disagrees with them exactly for an active timer with time left whose blocking flag is cleared |
| MainScreen.SelectDuration | app/src/main/java/com/disciplined/minds/MainActivity.kt:175-191 | the duration becomes the one picked and exactly the buttons showing it are highlighted; nothing else changes |
| MainScreen.OneButtonHighlighted | app/src/main/java/com/disciplined/minds/MainActivity.kt:138-141 | picking one of the four duration buttons highlights that button alone |
| MainScreen.Initial | app/src/main/java/com/disciplined/minds/MainActivity.kt:32 | the screen opens on 30 minutes with the first button highlighted |
| MainScreen.StartRequestRunsSelection | app/src/main/java/com/disciplined/minds/MainActivity.kt:193-197 | START, handled as written, runs an active, blocking timer for the highlighted duration from now and announces the start; it adds one live countdown, and a countdown already tracked becomes an orphan |
| MainScreen.ExtendRequestAddsFifteen | app/src/main/java/com/disciplined/minds/MainActivity.kt:152-154 | the extend button adds exactly 15 minutes to a running timer and changes nothing else; an idle timer is untouched |
| MainScreen.DisplayText | app/src/main/java/com/disciplined/minds/MainActivity.kt:231-237 | for a non-negative time left, the text is the zero-padded whole minutes and seconds of it |
| MainScreen.UpdateTimerUI | app/src/main/java/com/disciplined/minds/MainActivity.kt:217-229 | the running-timer controls show exactly when the timer is active; an idle timer shows "00:00" |
| MainScreen.StatusLabel | app/src/main/java/com/disciplined/minds/MainActivity.kt:239-265 | "Timer Active" exactly when the timer blocks, even with study mode on; "Study Mode Active" exactly when only study mode blocks; "Inactive" exactly when nothing blocks |
| MainScreen.OnTimerBroadcast | app/src/main/java/com/disciplined/minds/MainActivity.kt:52-70 | every broadcast refreshes the status line; start, stop and completion switch the controls to the timer's state; a time-left broadcast refreshes the text only; an extension changes nothing else |
| MainScreen.LoopTick | app/src/main/java/com/disciplined/minds/MainActivity.kt:267-279 | the once-a-second loop leaves an idle screen alone, and otherwise refreshes the text and the status line |
| MainScreen.ScreensShowSameTime | app/src/main/java/com/disciplined/minds/MainActivity.kt:231-237 | for a non-negative time left, the legacy screen's text equals the home screen's display |
| MainScreen.OverdueDisplay | app/src/main/java/com/disciplined/minds/MainActivity.kt:231-237 | less than a minute overdue the home screen shows "00:00"; the legacy screen agrees under one second overdue, and from one second on it shows "00:-N" for N whole seconds overdue, so the screens differ exactly then |
| MainScreen.OverdueSeconds | app/src/main/java/com/disciplined/minds/MainActivity.kt:231-237 | less than a minute overdue, the legacy text is "00:00" under one second and otherwise "00:-N", the whole seconds overdue written unpadded after a minus sign |
| MainScreen.NoSecondsShowIdle | app/src/main/java/com/disciplined/minds/ui/home/HomeViewModel.kt:179-182 | under one second left, the home screen shows "00:00" |
| MainScreen.OverdueText | app/src/main/java/com/disciplined/minds/MainActivity.kt:233-236 | five seconds overdue, the legacy screen shows "00:-5" |
| MainScreen.StatusLinesDiffer | app/src/main/java/com/disciplined/minds/MainActivity.kt:240-245 | the two screens' status lines disagree exactly when the timer is active with time left but its blocking flag is cleared |
| AppBlock.StartService | app/src/main/java/com/disciplined/minds/applist/service/AppBlockService.kt:121-144 | when the stored map reads, the service starts running with it cached and no overlay; when that read fails, the unguarded read ends the process and nothing runs |
| AppBlock.Crash | app/src/main/java/com/disciplined/minds/applist/service/AppBlockService.kt:142 | after an exception nothing catches, the service no longer runs, no overlay is held, and the process is marked as ended |
| AppBlock.ReadShouldBlock | app/src/main/java/com/disciplined/minds/applist/service/AppBlockService.kt:233-236 | the blocking decision fails exactly when the study-mode read fails, and otherwise is study mode or a blocking timer with time left |
| AppBlock.RemoveOverlayIfPresent | app/src/main/java/com/disciplined/minds/applist/service/AppBlockService.kt:366-381 | afterwards no overlay is held and the remembered package is cleared; nothing else changes; nothing runs in an ended process |
| AppBlock.EnsureOverlayVisible | app/src/main/java/com/disciplined/minds/applist/service/AppBlockService.kt:274-364 | without permission to draw it removes the overlay; with it, a failing study-mode read, or a failing map read for a known package, ends the process; a package the fresh state does not block loses the overlay; an existing overlay is left as it is; a failed `addView` leaves none; an overlay is only ever held over a blocked package, and at most one is held |
| AppBlock.Apply | app/src/main/java/com/disciplined/minds/applist/service/AppBlockService.kt:238-253 | a posted action in a live process keeps the service running as it was and at most one overlay held; it ends the process only as an overlay request meeting a failing read; an ended process is unchanged |
| AppBlock.ApplyAll | app/src/main/java/com/disciplined/minds/applist/service/AppBlockService.kt:238-253 | any run of posted actions keeps at most one overlay held, leaves an ended process unchanged, and ends a live one only through an overlay request meeting a failing read |
| AppBlock.Poll | app/src/main/java/com/disciplined/minds/applist/service/AppBlockService.kt:225-272 | a stopped service cancels the poll and posts nothing; a failing study-mode read skips the whole step; otherwise the remembered package is updated for a known foreground package and the map reloaded when it reads (a failing reload keeps the old map and posts no removal); the overlay is requested exactly for a new foreground package that is locked in the cached map and, re-read by `validateBlockingConditions` (false when a read fails), still locked with blocking on; it is removed exactly when one is held, both reads succeed and blocking is off; at most one action is posted |
| AppBlock.Observe | app/src/main/java/com/disciplined/minds/applist/service/AppBlockService.kt:225-259 | after a poll and its posted action, a live process stays live; a running service holds an overlay only while blocking is on; a stopped service, and any service when the study-mode read fails, is unchanged; when only the map read fails, only the remembered package changes |
| AppBlock.ForceRefresh | app/src/main/java/com/disciplined/minds/applist/service/AppBlockService.kt:188-222 | a failing map reload changes nothing and posts nothing; otherwise the map is reloaded, and nothing is posted exactly when the foreground package is unknown or a read fails; otherwise the overlay request is posted exactly when the package is blocked, and a removal otherwise |
| AppBlock.OnTimerBroadcast | app/src/main/java/com/disciplined/minds/applist/service/AppBlockService.kt:56-81 | a start forces a refresh; a stop or completion removes the overlay and then refreshes; extensions and time-left broadcasts do nothing |
| AppBlock.StopMyService | app/src/main/java/com/disciplined/minds/applist/service/AppBlockService.kt:383-388 | afterwards the service is not running and no overlay is held |
| AppBlock.BlockNotification | app/src/main/java/com/disciplined/minds/applist/service/AppBlockService.kt:151-186 | the service notification shows the timer exactly when the timer blocks |
| AppBlock.OverlayActionsIdempotent | app/src/main/java/com/disciplined/minds/applist/service/AppBlockService.kt:274-381 | ensuring the overlay twice, or removing it twice, is the same as doing it once |
| AppBlock.TimerEndLiftsBlock | app/src/main/java/com/disciplined/minds/applist/service/AppBlockService.kt:64-77 | after a stop or completion broadcast is handled by a live process, an overlay remains only over a package that is still blocked, and the process stays live |
| AppBlock.StopEndsPolling | app/src/main/java/com/disciplined/minds/applist/service/AppBlockService.kt:228-231 | after the service stops, the next poll cancels itself and no overlay comes back |
| AppBlock.ReadFailureInOverlayCrashes | app/src/main/java/com/disciplined/minds/applist/service/AppBlockService.kt:283-289 | an overlay request that meets a failing read ends the process, and nothing posted after it runs; the poll never posts one while such a read fails |
| AppBlock.CrashedStaysPut | app/src/main/java/com/disciplined/minds/applist/service/AppBlockService.kt:283-289 | no action posted to an ended process changes it |
| AppBlock.NotificationsAgree | app/src/main/java/com/disciplined/minds/applist/service/AppBlockService.kt:161-165 | while the timer blocks, the block service's notification shows the same text as the timer service's |
| AppBlock.LockedLaunchAddsOneOverlay | app/src/main/java/com/disciplined/minds/applist/service/AppBlockService.kt:238-246 | in study mode, switching from an unlocked to a locked package makes the service hold one overlay, and further polls on the same package change nothing |
| AppBlock.ObserveSettles | app/src/main/java/com/disciplined/minds/applist/service/AppBlockService.kt:225-259 | on an unchanged device, the poll settles after two rounds |
| Permissions.Refresh | app/src/main/java/com/disciplinedminds/ui/permission/PermissionViewModel.kt:27-41 | usage and notification access are reported as the platform answers; below Android M drawing over apps counts as granted; the usage rationale shows exactly from Android Q on while usage access is missing |
| Permissions.GateOpensIff | app/src/main/java/com/disciplinedminds/ui/permission/PermissionViewModel.kt:65-66 | the gate opens exactly when usage access is granted and drawing is allowed; notification access never decides it |
| Permissions.RationaleOnlyWhenClosed | app/src/main/java/com/disciplinedminds/ui/permission/PermissionViewModel.kt:38 | the usage rationale is only offered while the gate is closed |
| Permissions.InitiallyClosed | app/src/main/java/com/disciplinedminds/ui/permission/PermissionViewModel.kt:59-67 | the gate starts closed, without a rationale |
| Permissions.GateAgreesWithOverlay | app/src/main/java/com/disciplinedminds/ui/permission/PermissionViewModel.kt:31-32 | the gate and the overlay controller read the overlay permission alike; where the gate reports it missing, the controller never holds an overlay |
| AppCatalog.Describe | app/src/main/java/com/disciplinedminds/utils/AppUtils.kt:24-35 | an entry carries the package's label and name, and is open exactly for a system application or a label among the default applications |
| AppCatalog.Catalog | app/src/main/java/com/disciplined/minds/pref/AppUtils.kt:18-41 | the catalog holds complete entries for exactly the packages with a launch intent other than the app itself |
| AppCatalog.CatalogInOrder | app/src/main/java/com/disciplinedminds/utils/AppUtils.kt:19-39 | the catalog is the entries of the listed packages in the package manager's order |
| AppCatalog.InstalledApplications | app/src/main/java/com/disciplinedminds/utils/AppUtils.kt:17-40 | without a package manager the list is empty; otherwise each listed package appears, and only those |
| AppCatalog.CatalogExcludesSelf | app/src/main/java/com/disciplinedminds/utils/AppUtils.kt:22-34 | the app never lists itself, and an entry is open exactly when its package is a system application or a default one |
| AppLock.FirstRunMap | app/src/main/java/com/disciplinedminds/ui/applock/AppLockViewModel.kt:30-37 | the first-run map has exactly the installed packages as keys |
| AppLock.FirstRunMapLastWins | app/src/main/java/com/disciplinedminds/ui/applock/AppLockViewModel.kt:30-37 | each package is locked exactly when its last entry's open flag is false; an entry without an open flag counts as open, so it is stored unlocked |
| AppLock.AddMissing | app/src/main/java/com/disciplinedminds/ui/applock/AppLockViewModel.kt:40-46 | installed packages missing from the map are added as locked; every existing entry, installed or not, is kept |
| AppLock.AddMissingIdempotent | app/src/main/java/com/disciplinedminds/ui/applock/AppLockViewModel.kt:40-46 | a map that already covers the installed packages is left alone, so merging twice is merging once |
| AppLock.Items | app/src/main/java/com/disciplinedminds/ui/applock/AppLockViewModel.kt:48-58 | one item per application with a name and a package, in catalog order, so the items are exactly those applications, each locked as the map says (absent counts as locked) |
| AppLock.SplitKeepsOrder | app/src/main/java/com/disciplinedminds/ui/applock/AppLockViewModel.kt:58-64 | splitting the name-sorted items keeps both parts sorted by lower-case name |
| AppLock.SplitKeepsItems | app/src/main/java/com/disciplinedminds/ui/applock/AppLockViewModel.kt:60-64 | the locked and unlocked parts are together a permutation of the items, each item in the part its flag names |
| AppLock.Screen | app/src/main/java/com/disciplinedminds/ui/applock/AppLockViewModel.kt:58-64 | the screen shows locked and unlocked items sorted by lower-cased name, partitioning the items by their flag; items with the same lower-cased name keep their catalog order in each list |
| AppLock.SplitKeepsTies | app/src/main/java/com/disciplinedminds/ui/applock/AppLockViewModel.kt:58-63 | sorting stably and then filtering by the lock flag keeps items with the same lower-cased name in their catalog order |
| AppLock.Persisted | app/src/main/java/com/disciplinedminds/ui/applock/AppLockViewModel.kt:30-46 | the stored map covers every installed package and keeps every stored entry; with nothing stored it is the first-run map |
| AppLock.LoadApplications | app/src/main/java/com/disciplinedminds/ui/applock/AppLockViewModel.kt:26-66 | loading fails exactly when the stored map cannot be read; otherwise it persists the merged map, touches no other key, and shows the items it implies |
| AppLock.LoadedListsAgree | app/src/main/java/com/disciplinedminds/ui/applock/AppLockViewModel.kt:48-64 | every shown item is locked exactly as the persisted map says |
| AppLock.LoadIdempotent | app/src/main/java/com/disciplinedminds/ui/applock/AppLockViewModel.kt:26-66 | loading again from what a load stored gives the same result |
| AppLock.ToggleLock | app/src/main/java/com/disciplinedminds/ui/applock/AppLockViewModel.kt:68-75 | the toggled package's entry becomes the opposite of the item's flag; every other stored entry is kept |
| AppLock.ToggleMovesItem | app/src/main/java/com/disciplinedminds/ui/applock/AppLockViewModel.kt:68-75 | after a toggle, the item shows in the other list |
| AppList.FirstRunPass | app/src/main/java/com/disciplined/minds/applist/views/AppListFragment.kt:68-79 | with no stored map, the open list is exactly the applications flagged open and the lock list exactly the others, in catalog order; the map's keys are exactly their packages, and each package's entry is the negated open flag of its last application |
| AppList.FirstRunAgrees | app/src/main/java/com/disciplined/minds/applist/views/AppListFragment.kt:68-79 | when no package repeats, every application's entry in the first-run map is its negated open flag, so both lists agree with the map |
| AppList.FirstRunDuplicateDisagrees | app/src/main/java/com/disciplined/minds/applist/views/AppListFragment.kt:68-79 | with a package listed twice, first open and then locked, the map locks it while the first copy stays in the open list |
| AppList.StoredPass | app/src/main/java/com/disciplined/minds/applist/views/AppListFragment.kt:80-92 | with a stored map, every listed application has its open flag rewritten to agree with its entry: true entries in the lock list, false ones in the open list; the applications come back with the same packages |
| AppList.StoredPassLists | app/src/main/java/com/disciplined/minds/applist/views/AppListFragment.kt:80-88 | every application whose package has a stored entry is listed, its open flag rewritten, in the lock list for a true entry and the open list for a false one |
| AppList.StoredPassShape | app/src/main/java/com/disciplined/minds/applist/views/AppListFragment.kt:80-92 | the stored pass returns the applications in order, with only their open flags changed |
| AppList.StoredPassMap | app/src/main/java/com/disciplined/minds/applist/views/AppListFragment.kt:80-92 | the stored pass keeps every stored entry and enters each unknown package as locked |
| AppList.StoredPassListsKnown | app/src/main/java/com/disciplined/minds/applist/views/AppListFragment.kt:89-91 | with distinct packages, a package unknown to the stored map is listed in neither tab |
| AppList.SetUp | app/src/main/java/com/disciplined/minds/applist/views/AppListFragment.kt:63-101 | set-up fails exactly when the stored map cannot be read; otherwise it persists the map it built, which covers every application, keeps every stored entry and enters new packages as locked; the applications come back in order with only their open flags rewritten; the tab shows the open list for type 1 and the lock list otherwise: on a first run the applications flagged for that tab, over a stored map every application whose entry names that tab; the list agrees with the map whenever a map was stored or no package repeats |
| AppList.SetUpOnCoveringMap | app/src/main/java/com/disciplined/minds/applist/views/AppListFragment.kt:80-95 | a stored map that already covers every application is kept as it is |
| AppList.OpenScreen | app/src/main/java/com/disciplined/minds/applist/views/AppListActivity.kt:119-142 | the screen sorts the catalog by name and builds the open tab (type 1) and the lock tab (type 2) over the same stored map; the lock tab agrees with it; when a map was stored or no package repeats, the open tab agrees with it too and every catalog application is shown in the tab its entry names |
| AppList.OpenScreenTabs | app/src/main/java/com/disciplined/minds/applist/views/AppListActivity.kt:119-142 | when a map was stored or no package repeats, the open tab agrees with the map and every catalog application is shown in the tab its entry names |
| AppList.LockTabShows | app/src/main/java/com/disciplined/minds/applist/views/AppListFragment.kt:80-88 | the lock tab, set up over the open tab's map and applications, lists every application that map locks |
| AppList.RemoveAt | app/src/main/java/com/disciplined/minds/applist/views/AppListFragment.kt:149 | removing by position drops exactly that entry |
| AppList.Receive | app/src/main/java/com/disciplined/minds/applist/views/AppListFragment.kt:170-176 | a received entry joins the list, which is then sorted by name |
| AppList.UpdateAppAsWritten | app/src/main/java/com/disciplined/minds/applist/views/AppListFragment.kt:135-152 | as written, a move stores the entry's *current* open flag in this tab's own map, persists that map, and hands the entry, unchanged, to the other tab |
| AppList.MovedBackStaysLocked | app/src/main/java/com/disciplined/minds/applist/views/AppListFragment.kt:136 | as written, locking an application and then moving it back to the open tab leaves it locked in the stored map |
| AppList.OtherTabRevertsMove | app/src/main/java/com/disciplined/minds/applist/views/AppListFragment.kt:66-95 | as written, a move made in the other tab is undone in storage by this tab's stale copy of the map |
| AppList.MoveApp | app/src/main/java/com/disciplined/minds/applist/views/AppListFragment.kt:135-152 | the corrected move records the destination tab in the shared map, flips the entry's open flag to match, and persists the map |
| AppList.MoveKeepsAgreement | app/src/main/java/com/disciplined/minds/applist/views/AppListFragment.kt:135-152 | after a corrected move, both tabs still agree with the map |
| AppList.MoveKeepsUnique | app/src/main/java/com/disciplined/minds/applist/views/AppListFragment.kt:148-149 | after a corrected move, each package still appears once across the two tabs |
| AppList.MoveKeepsConsistent | app/src/main/java/com/disciplined/minds/applist/views/AppListFragment.kt:135-152 | a corrected move keeps the tabs, the map and storage consistent |
| AppList.ApplyMoves | app/src/main/java/com/disciplined/minds/applist/views/AppListActivity.kt:87-94 | any sequence of corrected moves keeps the screen consistent and the number of entries constant |
| AppList.MoveThereAndBack | app/src/main/java/com/disciplined/minds/applist/views/AppListFragment.kt:135-152 | a corrected move and its reverse restore the map and the entry |
| Ordering.StrLeTotal | app/src/main/java/com/disciplined/minds/applist/views/AppListActivity.kt:122-124 | any two names compare one way or the other |
| Ordering.StrLeTransitive | app/src/main/java/com/disciplined/minds/applist/views/AppListActivity.kt:122-124 | the name order is transitive |
| Ordering.StrLeAntisymmetric | app/src/main/java/com/disciplined/minds/applist/views/AppListActivity.kt:122-124 | names that compare both ways are equal |
| Ordering.InsertSorted | app/src/main/java/com/disciplined/minds/applist/views/AppListFragment.kt:171-174 | inserting into a sorted list keeps it sorted |
| Ordering.SortBy | app/src/main/java/com/disciplined/minds/applist/views/AppListActivity.kt:122-124 | sorting by name yields a sorted permutation of the input |
| Ordering.SortByStable | app/src/main/java/com/disciplined/minds/applist/views/AppListActivity.kt:122-124 | sorting is stable: the elements sharing a name come out in their input order |
| Ordering.InsertFilterKey | app/src/main/java/com/disciplined/minds/applist/views/AppListFragment.kt:171-174 | an inserted element goes before every element with the same name and leaves their order alone |
| Ordering.SortByKeepsDistinct | app/src/main/java/com/disciplined/minds/applist/views/AppListActivity.kt:122-124 | sorting keeps packages distinct when they were |
| Ordering.InsertKeepsDistinct | app/src/main/java/com/disciplined/minds/applist/views/AppListFragment.kt:171-174 | inserting an element with a new package keeps packages distinct |
| Ordering.FilterSorted | app/src/main/java/com/disciplinedminds/ui/applock/AppLockViewModel.kt:62 | filtering a sorted list keeps it sorted |
| Ordering.FilterMembers | app/src/main/java/com/disciplinedminds/ui/applock/AppLockViewModel.kt:62 | a filter keeps only elements of its input |
| Ordering.FilterPartition | app/src/main/java/com/disciplinedminds/ui/applock/AppLockViewModel.kt:62-63 | `filter` and `filterNot` on the same predicate together are a permutation of the input |
| Ordering.FilterNotIsFilter | app/src/main/java/com/disciplinedminds/ui/applock/AppLockViewModel.kt:63 | `filterNot` on a predicate is `filter` on its negation |
| Ordering.FilterConcat | app/src/main/java/com/disciplinedminds/ui/applock/AppLockViewModel.kt:62 | filtering a concatenation filters each part in turn |
| Ordering.FilterNotConcat | app/src/main/java/com/disciplinedminds/ui/applock/AppLockViewModel.kt:63 | `filterNot` of a concatenation is that of each part in turn |
| Ordering.FilterCommutes | app/src/main/java/com/disciplinedminds/ui/applock/AppLockViewModel.kt:58-63 | two filters give the same result in either order |
| Ordering.FilterRoutes | app/src/main/java/com/disciplinedminds/ui/applock/AppLockViewModel.kt:62-63 | every element lands in the part its predicate names |
| Numeric.ToInt | app/src/main/java/com/disciplined/minds/timer/service/TimerService.kt:160 | narrowing to `Int` keeps values in range and otherwise wraps modulo 2^32 |
| Numeric.Quot | app/src/main/java/com/disciplined/minds/MainActivity.kt:233 | division truncates toward zero |
| Numeric.Rem | app/src/main/java/com/disciplined/minds/MainActivity.kt:234 | the remainder takes the dividend's sign and completes the truncating division |
| Numeric.QuotRemNonNegative | app/src/main/java/com/disciplined/minds/timer/service/TimerService.kt:160-161 | for non-negative operands truncation and floor agree |
| Numeric.Max | app/src/main/java/com/disciplined/minds/ui/home/HomeViewModel.kt:179 | the larger of two values |
| Text.Digits | app/src/main/java/com/disciplinedminds/ui/schedule/ScheduleScreen.kt:526 | a natural number's decimal text is all digits, one digit exactly below 10, with no leading zero |
| Text.DigitsRoundTrip | app/src/main/java/com/disciplinedminds/ui/schedule/ScheduleScreen.kt:526 | reading a number's decimal text gives the number back |
| Text.IntToString | app/src/main/java/com/disciplinedminds/ui/schedule/ScheduleScreen.kt:526 | a negative number is written with a minus sign before its magnitude |
| Text.PadStart2 | app/src/main/java/com/disciplinedminds/ui/schedule/ScheduleScreen.kt:526-527 | padding keeps the text as a suffix and adds leading zeros up to two characters |
| Text.Format02 | app/src/main/java/com/disciplined/minds/ui/home/HomeViewModel.kt:182 | `%02d` pads a non-negative number to two digits and writes a negative one unpadded |
| Text.Format02RoundTrip | app/src/main/java/com/disciplined/minds/MainActivity.kt:236 | `%02d` of a natural number is at least two digits that read back as the number |
| Text.ToIntOrNull | app/src/main/java/com/disciplinedminds/ui/schedule/ScheduleReceiver.kt:42-44 | a parse succeeds only on a run of digits, optionally after `+` or `-`, and then gives its value, negated after `-`; every digit run that fits in an `Int` parses; empty text does not |
| Text.ToIntOrNullRoundTrip | app/src/main/java/com/disciplinedminds/ui/schedule/ScheduleScreen.kt:492-494 | every `Int` reads back from its decimal text |
| Text.Split | app/src/main/java/com/disciplinedminds/ui/schedule/ScheduleScreen.kt:28 | the parts contain no separator, and text without one is a single part |
| Text.SplitJoin | app/src/main/java/com/disciplinedminds/ui/schedule/ScheduleScreen.kt:28 | joining the parts with the separator restores the text |
| Text.SplitHasSecondPart | app/src/main/java/com/disciplinedminds/ui/schedule/ScheduleScreen.kt:28-30 | there is a second part exactly when the text contains the separator |
| Text.Lowercase | app/src/main/java/com/disciplinedminds/ui/applock/AppLockViewModel.kt:58 | lower-casing maps each character on its own, ASCII letters to lower case and every other character to itself, so the length is kept |
| Text.ClockTextRoundTrip | app/src/main/java/com/disciplined/minds/timer/service/TimerService.kt:162 | a `MM:SS` text splits into two digit fields that read back as its minutes and seconds |
| Prefs.ClearPrefs | app/src/main/java/com/disciplined/minds/pref/SharedPreferenceHelper.kt:12-14 | afterwards no key is contained |
| Prefs.RemoveKey | app/src/main/java/com/disciplined/minds/pref/SharedPreferenceHelper.kt:16-20 | afterwards the key is not contained and every other key is unchanged |
| Prefs.Put | app/src/main/java/com/disciplined/minds/pref/SharedPreferenceHelper.kt:24-44 | a write stores the value under its key and changes no other key |
| Prefs.GetString | app/src/main/java/com/disciplined/minds/pref/SharedPreferenceHelper.kt:22 | an absent key gives the default; a text value is returned; a value of another type is an error |
| Prefs.SetString | app/src/main/java/com/disciplined/minds/pref/SharedPreferenceHelper.kt:24-26 | writing text stores it; writing null removes the key; other keys are unchanged |
| Prefs.GetInt | app/src/main/java/com/disciplined/minds/pref/SharedPreferenceHelper.kt:28 | an absent key gives the default; an `Int` value is returned; another type is an error |
| Prefs.SetInt | app/src/main/java/com/disciplined/minds/pref/SharedPreferenceHelper.kt:30-32 | the `Int` is stored under its key and other keys are unchanged |
| Prefs.GetLong | app/src/main/java/com/disciplined/minds/pref/SharedPreferenceHelper.kt:34 | an absent key gives the default; a `Long` value is returned; another type is an error |
| Prefs.SetLong | app/src/main/java/com/disciplined/minds/pref/SharedPreferenceHelper.kt:36-38 | the `Long` is stored under its key and other keys are unchanged |
| Prefs.GetBoolean | app/src/main/java/com/disciplined/minds/pref/SharedPreferenceHelper.kt:40 | an absent key gives the default; a boolean value is returned; another type is an error |
| Prefs.SetBoolean | app/src/main/java/com/disciplined/minds/pref/SharedPreferenceHelper.kt:42-44 | the boolean is stored under its key and other keys are unchanged |
| Prefs.GetAfterSet | app/src/main/java/com/disciplinedminds/pref/SharedPreferenceHelper.kt:23-45 | for each type, a read after a write of the same key returns the value written |
| Prefs.GetAfterRemove | app/src/main/java/com/disciplinedminds/pref/SharedPreferenceHelper.kt:13-21 | after a removal or a clear, reads of the key return the supplied default |
| Prefs.GetInstance | app/src/main/java/com/disciplined/minds/pref/SharedPreferenceHelper.kt:56-58 | the first call creates the instance and every later call returns it |
| Prefs.GetInstanceStable | app/src/main/java/com/disciplined/minds/pref/PreferenceDataHelper.kt:29-35 | a second call returns the same instance as the first |
| PrefData.SetAppList | app/src/main/java/com/disciplined/minds/pref/PreferenceDataHelper.kt:43-46 | the map is stored as its JSON text and no other key changes |
| PrefData.GetAppList | app/src/main/java/com/disciplined/minds/pref/PreferenceDataHelper.kt:48-51 | nothing stored reads as no map; a map read back is the one whose JSON is stored; a non-text value is an error |
| PrefData.AppListRoundTrip | app/src/main/java/com/disciplined/minds/pref/PreferenceDataHelper.kt:43-51 | reading the map after storing it gives it back, and study mode is unaffected |
| PrefData.IsStudyMode | app/src/main/java/com/disciplined/minds/pref/PreferenceDataHelper.kt:53-55 | study mode defaults to off, and reads as on only when on was stored |
| PrefData.SetStudyMode | app/src/main/java/com/disciplined/minds/pref/PreferenceDataHelper.kt:57-59 | study mode reads back as set, and the map is unaffected |
| PrefData.IsFocusedStudySession | app/src/main/java/com/disciplined/minds/pref/PreferenceDataHelper.kt:61-63 | the focused-session flag defaults to off |
| PrefData.SetFocusedStudySession | app/src/main/java/com/disciplined/minds/pref/PreferenceDataHelper.kt:65-67 | the focused-session flag reads back as set; study mode is unaffected |
| PrefData.IsStartInBackground | app/src/main/java/com/disciplined/minds/pref/PreferenceDataHelper.kt:69-71 | the start-in-background flag defaults to off |
| PrefData.SetStartInBackground | app/src/main/java/com/disciplined/minds/pref/PreferenceDataHelper.kt:73-75 | the start-in-background flag reads back as set; study mode is unaffected |
| PrefData.SetStudyTime | app/src/main/java/com/disciplined/minds/pref/PreferenceDataHelper.kt:77-79 | the study time reads back as set; study mode is unaffected |
| PrefData.GetStudyTime | app/src/main/java/com/disciplined/minds/pref/PreferenceDataHelper.kt:81-83 | the study time defaults to 0 |
| PrefData.SetMeditationType | app/src/main/java/com/disciplined/minds/pref/PreferenceDataHelper.kt:85-87 | the meditation type reads back as set; the map is unaffected |
| PrefData.GetMeditationType | app/src/main/java/com/disciplined/minds/pref/PreferenceDataHelper.kt:89-91 | no meditation type is stored by default |
| PrefData.SetObjectGazingType | app/src/main/java/com/disciplined/minds/pref/PreferenceDataHelper.kt:93-95 | the object-gazing type reads back as set; the map is unaffected |
| PrefData.GetObjectGazingType | app/src/main/java/com/disciplined/minds/pref/PreferenceDataHelper.kt:97-99 | no object-gazing type is stored by default |
| PrefData.FirstTimeAskingPermission | app/src/main/java/com/disciplined/minds/pref/PreferenceDataHelper.kt:101-103 | the permission's flag reads back as written; a permission name that is none of the helper's own keys leaves those keys alone |
| PrefData.IsFirstTimeAskingPermission | app/src/main/java/com/disciplined/minds/pref/PreferenceDataHelper.kt:105-107 | each permission starts out as asked for the first time |
| PrefData.PermissionKeyCollision | app/src/main/java/com/disciplined/minds/pref/PreferenceDataHelper.kt:101-107 | permission flags share the key space with the helper's own keys: a permission named like the study-mode key turns study mode on, and one named like the map key breaks the map |
| Schedules.NewSchedule | app/src/main/java/com/disciplinedminds/ui/schedule/Schedule.kt:3-10 | a new schedule is enabled and carries the fields it was given |
| Schedules.IndexOfId | app/src/main/java/com/disciplinedminds/ui/schedule/ScheduleViewModel.kt:57 | the position of the first schedule with the id; none exactly when no schedule has it |
| Schedules.Added | app/src/main/java/com/disciplinedminds/ui/schedule/ScheduleViewModel.kt:43-46 | the schedule is appended and the list before it is kept |
| Schedules.Updated | app/src/main/java/com/disciplinedminds/ui/schedule/ScheduleViewModel.kt:56-61 | the first schedule with the id is replaced and every other one kept; with no match the list is unchanged |
| Schedules.Deleted | app/src/main/java/com/disciplinedminds/ui/schedule/ScheduleViewModel.kt:74-77 | no schedule with the id remains |
| Schedules.DeletedKeepsOthers | app/src/main/java/com/disciplinedminds/ui/schedule/ScheduleViewModel.kt:74-77 | exactly the schedules with other ids remain, and together with the removed ones they are the old list |
| Schedules.DeletedKeepsOrder | app/src/main/java/com/disciplinedminds/ui/schedule/ScheduleViewModel.kt:74-77 | a deletion works schedule by schedule: a concatenation loses the schedules with the id from each part in turn, and a single schedule stays exactly when its id differs, so the kept schedules stay in order |
| Schedules.Toggled | app/src/main/java/com/disciplinedminds/ui/schedule/ScheduleViewModel.kt:86-92 | only the first schedule with the id flips its on/off state; every other field and schedule is unchanged |
| Schedules.ToggleTwice | app/src/main/java/com/disciplinedminds/ui/schedule/ScheduleViewModel.kt:86-92 | toggling twice restores the list |
| Schedules.UpdateThenFind | app/src/main/java/com/disciplinedminds/ui/schedule/ScheduleViewModel.kt:56-61 | after an update the schedule is found where the old one was |
| Schedules.CalendarDay | app/src/main/java/com/disciplinedminds/ui/schedule/ScheduleViewModel.kt:215 | valid days map to valid calendar days, Sunday (7) to the calendar's 1 |
| Schedules.CalendarDayRoundTrip | app/src/main/java/com/disciplinedminds/ui/schedule/ScheduleViewModel.kt:215 | the schedule and calendar numberings correspond one to one |
| Schedules.DaysToAdd | app/src/main/java/com/disciplinedminds/ui/schedule/ScheduleViewModel.kt:218-223 | the offset lies in 0..7 and lands on the schedule's weekday, with no earlier matching day; it is 0 exactly for today before the time, and 7 exactly for today once the time has come |
| Schedules.AlarmsOf | app/src/main/java/com/disciplinedminds/ui/schedule/ScheduleViewModel.kt:103-176 | a schedule's alarms are a start and an end alarm for each of its days, each carrying its action |
| Schedules.ScheduleAlarms | app/src/main/java/com/disciplinedminds/ui/schedule/ScheduleViewModel.kt:103-176 | when alarms may be set, the schedule's alarms are added; otherwise nothing changes |
| Schedules.CancelTargets | app/src/main/java/com/disciplinedminds/ui/schedule/ScheduleViewModel.kt:182-200 | cancellation names, for every day 1..7, the start and end intents built with the given actions |
| Schedules.CancelAlarmsAsWritten | app/src/main/java/com/disciplinedminds/ui/schedule/ScheduleViewModel.kt:178-201 | as written, cancellation only ever removes alarms |
| Schedules.CancelAsWrittenCancelsNothing | app/src/main/java/com/disciplinedminds/ui/schedule/ScheduleViewModel.kt:183-199 | as written, the cancel intents carry no action, so no armed alarm matches and none is cancelled |
| Schedules.CancelAlarms | app/src/main/java/com/disciplinedminds/ui/schedule/ScheduleViewModel.kt:178-201 | the corrected cancellation only removes alarms, and never another schedule's |
| Schedules.CancelRemovesAll | app/src/main/java/com/disciplinedminds/ui/schedule/ScheduleViewModel.kt:181-200 | on well-formed alarms, the corrected cancellation leaves none of the schedule's alarms |
| Schedules.Load | app/src/main/java/com/disciplinedminds/ui/schedule/ScheduleViewModel.kt:34-39 | the list is the saved one, or empty when nothing is saved |
| Schedules.Apply | app/src/main/java/com/disciplinedminds/ui/schedule/ScheduleViewModel.kt:41-101 | corrected (see Findings): each edit changes the list as its list operation says, and a changed list is saved |
| Schedules.ApplyAsWritten | app/src/main/java/com/disciplinedminds/ui/schedule/ScheduleViewModel.kt:41-101 | as written, each edit changes and saves the list exactly as the corrected edit does, and arms no alarm the corrected edit would not |
| Schedules.AsWrittenNeverDisarms | app/src/main/java/com/disciplinedminds/ui/schedule/ScheduleViewModel.kt:178-201 | as written, no edit disarms anything: the alarms afterwards are the old ones plus those the corrected edit leaves armed |
| Schedules.AddKeepsConsistent | app/src/main/java/com/disciplinedminds/ui/schedule/ScheduleViewModel.kt:41-52 | adding a schedule with valid days keeps every alarm owned by an enabled schedule in the list (adding cancels nothing, so this holds as written too) |
| Schedules.UpdateKeepsConsistent | app/src/main/java/com/disciplinedminds/ui/schedule/ScheduleViewModel.kt:54-70 | corrected (see Findings): updating a schedule keeps every alarm owned by an enabled schedule in the list |
| Schedules.DeleteKeepsConsistent | app/src/main/java/com/disciplinedminds/ui/schedule/ScheduleViewModel.kt:72-81 | corrected (see Findings): deleting a schedule keeps every alarm owned by an enabled schedule in the list |
| Schedules.ToggleKeepsConsistent | app/src/main/java/com/disciplinedminds/ui/schedule/ScheduleViewModel.kt:83-101 | corrected (see Findings): toggling a schedule keeps every alarm owned by an enabled schedule in the list |
| Schedules.ApplyKeepsConsistent | app/src/main/java/com/disciplinedminds/ui/schedule/ScheduleViewModel.kt:41-101 | corrected (see Findings): every edit keeps every alarm owned by an enabled schedule in the list |
| Schedules.ApplyAllKeepsConsistent | app/src/main/java/com/disciplinedminds/ui/schedule/ScheduleViewModel.kt:41-101 | corrected (see Findings): any sequence of edits does so |
| Schedules.DeleteDisarms | app/src/main/java/com/disciplinedminds/ui/schedule/ScheduleViewModel.kt:72-81 | with the corrected cancellation, a deleted schedule has no alarm left, and other schedules keep theirs |
| Schedules.ToggleOffDisarms | app/src/main/java/com/disciplinedminds/ui/schedule/ScheduleViewModel.kt:83-101 | corrected (see Findings): switching a schedule off leaves it no alarm |
| Schedules.DeletedScheduleStillFires | app/src/main/java/com/disciplinedminds/ui/schedule/ScheduleViewModel.kt:72-81 | as written, a deleted schedule's start alarm is still armed |
| ScheduleDialog.Distinct | app/src/main/java/com/disciplinedminds/ui/schedule/ScheduleScreen.kt:305 | `toSet()` keeps each element once, and the same elements |
| ScheduleDialog.Without | app/src/main/java/com/disciplinedminds/ui/schedule/ScheduleScreen.kt:381 | removing a day keeps every other day and no repeats |
| ScheduleDialog.Open | app/src/main/java/com/disciplinedminds/ui/schedule/ScheduleScreen.kt:302-305 | the dialog opens on the edited schedule's fields, or on an unnamed 09:00 to 17:00 schedule on Monday to Friday |
| ScheduleDialog.ToggleDay | app/src/main/java/com/disciplinedminds/ui/schedule/ScheduleScreen.kt:379-384 | a tap flips that day's membership and leaves the other days alone |
| ScheduleDialog.ToggleDayTwice | app/src/main/java/com/disciplinedminds/ui/schedule/ScheduleScreen.kt:380-384 | two taps on a day restore the selection |
| ScheduleDialog.ToggleKeepsWeek | app/src/main/java/com/disciplinedminds/ui/schedule/ScheduleScreen.kt:366-384 | taps on the seven buttons only ever select days 1..7 |
| ScheduleDialog.Sorted | app/src/main/java/com/disciplinedminds/ui/schedule/ScheduleScreen.kt:408 | `sorted()` yields an ascending permutation, strictly ascending for distinct days |
| ScheduleDialog.Save | app/src/main/java/com/disciplinedminds/ui/schedule/ScheduleScreen.kt:401-414 | saving is possible exactly with a non-blank name and a day selected; the schedule carries the fields, sorted days, and the edited schedule's id and on/off state, or a fresh id and on |
| ScheduleDialog.SaveThenReopen | app/src/main/java/com/disciplinedminds/ui/schedule/ScheduleScreen.kt:302-305 | reopening a saved schedule shows the fields it was saved from, its days in ascending order |
| ScheduleDialog.DistinctOfIncreasing | app/src/main/java/com/disciplinedminds/ui/schedule/ScheduleScreen.kt:305 | `toSet()` of a strictly ascending list is the list itself |
| ScheduleDialog.SavedDaysValid | app/src/main/java/com/disciplinedminds/ui/schedule/ScheduleScreen.kt:403-410 | a schedule saved from valid days has valid days |
| ScheduleDialog.Submit | app/src/main/java/com/disciplinedminds/ui/schedule/ScheduleScreen.kt:156-161 | saving while editing updates and otherwise adds the saved schedule |
| ScheduleDialog.EditReplacesInPlace | app/src/main/java/com/disciplinedminds/ui/schedule/ScheduleViewModel.kt:54-61 | saving an edit puts the new version where the old one was, with its id and on/off state |
| ScheduleTime.LeadingDigits | app/src/main/java/com/disciplinedminds/ui/schedule/ScheduleReceiver.kt:42-44 | the longest leading run of digits |
| ScheduleTime.ParseClock | app/src/main/java/com/disciplinedminds/ui/schedule/ScheduleReceiver.kt:42-44 | text without a colon does not parse; a parse gives a whole number of minutes, in milliseconds |
| ScheduleTime.MinutesBetween | app/src/main/java/com/disciplinedminds/ui/schedule/ScheduleReceiver.kt:47-54 | for two times of day, the whole minutes from start to end, through midnight when the end is earlier, always in 0..1439 |
| ScheduleTime.CalculateDuration | app/src/main/java/com/disciplinedminds/ui/schedule/ScheduleReceiver.kt:40-60 | a time that does not parse gives 0; otherwise the minutes between the parsed times |
| ScheduleTime.EqualTimesGiveZero | app/src/main/java/com/disciplinedminds/ui/schedule/ScheduleReceiver.kt:23 | equal start and end times give 0 minutes |
| ScheduleTime.PickerText | app/src/main/java/com/disciplinedminds/ui/schedule/ScheduleScreen.kt:526-528 | the picker emits five characters, two digits each side of a colon, reading back as the hour and minute |
| ScheduleTime.PickerTextParses | app/src/main/java/com/disciplinedminds/ui/schedule/ScheduleScreen.kt:526-528 | the receiver parses the picker's text to that hour and minute |
| ScheduleTime.PickedDuration | app/src/main/java/com/disciplinedminds/ui/schedule/ScheduleReceiver.kt:47-54 | for two picked times, the duration is the minutes forward from start to end through midnight |
| ScheduleTime.ParsedDuration | app/src/main/java/com/disciplinedminds/ui/schedule/ScheduleReceiver.kt:46-54 | any two texts that parse to clock times give that forward minute count |
| ScheduleTime.WholeMinutesBetween | app/src/main/java/com/disciplinedminds/ui/schedule/ScheduleReceiver.kt:47-54 | between whole minutes of the day, the duration is the forward minute difference |
| ScheduleTime.PickerInitial | app/src/main/java/com/disciplinedminds/ui/schedule/ScheduleScreen.kt:492-494 | text without a colon fails; an hour that does not read falls back to 9 and a minute to 0 |
| ScheduleTime.PickerReopens | app/src/main/java/com/disciplinedminds/ui/schedule/ScheduleScreen.kt:492-494 | the picker reopens on the time it emitted |
| ScheduleTime.TwelveHour | app/src/main/java/com/disciplinedminds/ui/schedule/ScheduleScreen.kt:32-37 | the 12-hour clock gives an hour in 1..12, afternoon exactly from hour 12, and determines the 24-hour hour |
| ScheduleTime.To12HourFormat | app/src/main/java/com/disciplinedminds/ui/schedule/ScheduleScreen.kt:27-40 | text without a colon fails; otherwise the result ends in AM or PM, and an hour that does not read shows as 12 AM with the minute text copied |
| ScheduleTime.Show12 | app/src/main/java/com/disciplinedminds/ui/schedule/ScheduleScreen.kt:32-39 | the period is PM exactly from hour 12; hour 0 shows as 12 AM |
| ScheduleTime.PickerTextIn12Hours | app/src/main/java/com/disciplinedminds/ui/schedule/ScheduleScreen.kt:27-40 | a picked time shows as its 12-hour hour, its minute text and its period |
| ScheduleTime.OnReceive | app/src/main/java/com/disciplinedminds/ui/schedule/ScheduleReceiver.kt:13-38 | a start alarm with a positive duration starts a timer of that many minutes, and with missing times does nothing; a stop alarm stops the timer; anything else does nothing |
| ScheduleTime.ScheduledStartRunsTimer | app/src/main/java/com/disciplinedminds/ui/schedule/ScheduleReceiver.kt:15-29 | a schedule with different picked start and end times starts an active, blocking timer for the 1..1439 minutes between them |
| ScheduleTime.ReceivedStart | app/src/main/java/com/disciplinedminds/ui/schedule/ScheduleReceiver.kt:21-28 | a start alarm whose times are a positive number of minutes apart starts a timer for exactly that long |

## Left out

- The timer accessors (`getRemainingTimerTime`, `isTimerActive` and the rest) are not part of this model. `remaining` is an input and only the callers' comparisons on it are used.
- `java.util.Timer`, `Handler.post`, coroutines and broadcast delivery are flattened into sequential steps. The poll and its posted action run back to back (`AppBlock.Observe`), and concurrent interleavings are not modelled.
- Failing reads of the study-mode flag and the app list are modelled where the decisions are made: `Focus.ReadFocus`, `Notifications.ShouldCancel` and `Notifications.LegacyShouldCancel`, `AppList.SetUp` and `AppList.OpenScreen`, `AppLock.LoadApplications` and `AppLock.ToggleLock`, and the overlay controller (`AppBlock.StartService`, `AppBlock.Poll`, `AppBlock.ForceRefresh`, `AppBlock.EnsureOverlayVisible`). Elsewhere the stored values are taken as read: the timer accessors everywhere, and the focus state or map given to `Home.UpdateUiState`, the `MainScreen` members, `Boot.OnReceive`, `LockCounts.UpdateTabAppCount` and `Schedules.Load`. Other exceptions the poll and the forced refresh catch (from the usage-stats query, for instance) are not modelled; they only log.
- Android services, notification building and channels, icons, `WindowManager` layout parameters, the overlay's contents and the home-screen launch are platform side effects. They appear only as the overlay flag and the emitted commands and broadcasts.
- The Kotlin `!!` operator on catalog entries is modelled as a precondition that every entry is complete. This holds for the entries `AppCatalog` produces.
- `SimpleDateFormat` leniency beyond a leading run of digits, time zones, daylight saving and `Calendar` are not modelled. Times are minutes of one day.
- `AlarmManager` delivery, trigger times and exact-alarm permission are only the `canArm` input. Request codes are modelled by schedule id, day and edge, so hash collisions of the request-code string are not modelled.
- PrefData.GetAppList: Gson is taken to round-trip a map faithfully (`AppListJson`). Any other stored text reads as no map when it is blank (`Text.IsBlank`) and as a malformed-JSON error otherwise. Gson's own behaviour on such text is not modelled: it reads texts such as `null` or `{}` without error, and it counts only space, tab, line feed and carriage return as blank, so a lone U+00A0 makes it throw where the model reads no map.
- `isServiceRunning` (the running-services query) is the `blockServiceRunning` input of `Home.ToggleStudyMode` and `Home.StartFocusTimer`. `refreshState`, `handleTimerBroadcast` and `stopTicker` have no model of their own: a refresh is `Home.UpdateUiState` and stopping the ticker only cancels the job.
- `UUID.randomUUID()` is the `freshId` input.
- Compose and XML rendering, floating point (`getFloat`/`setFloat`, the progress ring), the quotes' randomness, reflection (`isXiaomiDevice`), the dark-theme setting and `PermissionActivity` are not modelled. None of them makes an enforcement decision.
- `PreferenceDataHelper` calls `SharedPreferenceHelper.getsInstance()`, which no helper defines. The model uses the helper's `getInstance` pattern.
- The classes `com.disciplinedminds.timer.service.TimerService`, `com.disciplinedminds.applist.service.AppBlockService` and `com.disciplinedminds.pref.PreferenceDataHelper`, which the newer package's `ScheduleReceiver`, `BootReceiver`, `NotificationService`, `AppLockViewModel` and `ScheduleViewModel` import, are not part of this model. They are taken to behave as their `com.disciplined.minds` namesakes: the timer commands go to `Timer.OnStartCommandAsWritten`, and the stored keys and the app-list JSON are those of `PrefData`.
- The format locale is taken to write ASCII digits: `String.format("%02d")` with the default locale (`Text.Format02`, used by `MainScreen.DisplayText` and `Home.TimerDisplay`) writes the locale's own digits, which differ for locales such as Arabic.
- AppBlock.RemoveOverlayIfPresent: a `removeView` that throws is caught and logged, and the view reference is dropped anyway; the model takes removal to succeed. "Held" in the `AppBlock` rows means the overlay view the service references, which is then the view attached to the window.
- Timer.NotificationClock: the exact minute and second split is proved only when the minutes fit in an `Int`. Beyond that, `toInt()` wraps (`Numeric.ToInt`) and only the bounds are stated.
- AppBlock.NotificationsAgree: proved only when the minutes left fit in an `Int`, for the same reason.
- Boot.RestartCoversRemaining: proved only when `remaining/60000 + 1` fits in an `Int`. A longer time left wraps the restart duration.
- Boot.RestartMinutes: the covering bound is stated only when `remaining/60000 + 1` fits in an `Int`.
- MainScreen.ScreensShowSameTime: proved only for a non-negative time left whose minutes fit in an `Int`. Times less than a minute overdue are covered separately by `MainScreen.OverdueDisplay`. From a minute overdue on, the legacy text also has a negative minutes field ("-1:00" at exactly one minute) and no lemma states it.
- MainScreen.DisplayText: its text is stated only for a non-negative time left whose minutes fit in an `Int`.
- Text.Lowercase: lower-cases ASCII letters only and maps one character to one. Kotlin's `lowercase()` follows Unicode, so accented capitals such as "É" are lower-cased there and not here, and a few characters ("İ") become two.
- Ordering.SortBy: compares names by Unicode scalar value, one character at a time (`Ordering.StrLe`). Kotlin's `compareTo` compares UTF-16 code units, so the two orders differ for names mixing characters above U+FFFF with characters from U+E000 to U+FFFF.
- Ordering.StrLe: the same difference from UTF-16 code-unit order as `Ordering.SortBy`.
- AppLock.Screen: inherits both gaps: names with non-ASCII capitals ("Ésta" and "ébano") sort differently from the app, and so do names that differ only above U+FFFF.
- Text.ToIntOrNull: reads the ASCII digits `0`-`9` only; Kotlin's `toIntOrNull` also accepts the other Unicode decimal digits. Only the schedule times and the time picker's own text reach it, and those are ASCII.
- Text.IsWhitespace: follows the characters `Char.isWhitespace()` accepts in the Basic Multilingual Plane. It is used only on schedule names typed in the dialog and on a stored JSON text.
- AppList.FirstRunAgrees: requires distinct packages. With a repeated package the later entry wins the map and the earlier copy can sit in the wrong tab (`AppList.FirstRunDuplicateDisagrees`).
- AppList.OpenScreen: the open tab's agreement with the map, and each catalog application's place, are stated only when a map was stored or no package repeats, for the reason given for `AppList.FirstRunAgrees`.
- AppList.SetUp: on a first run, agreement with the map is stated only when no package repeats, for the same reason.
- AppList.StoredPassListsKnown: assumes distinct packages, as the package manager reports them. With a repeated unknown package, its second copy would be listed.

## Findings

| source | as written | input that shows it | evidently intended | confidence | as-written member | corrected member |
|---|---|---|---|---|---|---|
| app/src/main/java/com/disciplined/minds/timer/service/TimerService.kt:65-75 | `startTimer` schedules a new countdown task without cancelling the one already running. Only the newest is remembered, so `stopTimer` cancels only that one. | start, start, stop: the first task keeps running and later broadcasts `timer_completed` (or `remaining_time`) for a timer the user stopped | a start cancels any running countdown, so exactly one task is ever alive | not executed | Timer.StartTimerAsWritten, Timer.OnStartCommandAsWritten, Timer.OrphanOutlivesStop | Timer.StartTimer, Timer.OnStartCommand, Timer.RunKeepsOrphans, Timer.StopAfterAnyHistory |
| app/src/main/java/com/disciplined/minds/applist/views/AppListFragment.kt:136 | `updateApp` stores the entry's current `isOpen` as its map value and never flips `isOpen`. Locking an open app stores `true`, which is right. The moved entry keeps `isOpen = true`, so moving it back stores `true` again. | open tab shows Notes (no stored map); lock it, then move it back from the lock tab: the stored map still says locked | a move stores the destination tab (locked when moving to the lock tab, open otherwise) and flips `isOpen` | not executed | AppList.UpdateAppAsWritten, AppList.MovedBackStaysLocked | AppList.MoveApp, AppList.MoveThereAndBack |
| app/src/main/java/com/disciplined/minds/applist/views/AppListFragment.kt:66-95 | each tab keeps its own copy of the map, read once at set-up, and persists that whole copy on every move | Atlas open, Bingo locked; lock Atlas in the open tab, then unlock Bingo in the lock tab: the lock tab's stale copy overwrites storage and Atlas is unlocked again | both tabs share one map, so each move persists every earlier move | not executed | AppList.OtherTabRevertsMove | AppList.MoveKeepsConsistent, AppList.ApplyMoves |
| app/src/main/java/com/disciplinedminds/ui/schedule/ScheduleViewModel.kt:178-201 | `cancelScheduleAlarms` builds its pending intents without the start and stop actions the alarms were armed with | add a Monday schedule, then delete it: its start alarm is still armed and fires next Monday | cancellation rebuilds the same intents, action included, so a deleted or disabled schedule no longer fires | not executed; rests on `Intent.filterEquals` comparing the action | Schedules.CancelAlarmsAsWritten, Schedules.ApplyAsWritten, Schedules.AsWrittenNeverDisarms, Schedules.DeletedScheduleStillFires | Schedules.CancelAlarms, Schedules.Apply, Schedules.ApplyAllKeepsConsistent, Schedules.DeleteDisarms, Schedules.ToggleOffDisarms |

=== FILE: app_block.dfy ===
/** The overlay controller (`AppBlockService`).  A poll every 100 ms looks
    at the foreground package and posts overlay actions to the main thread;
    timer broadcasts force an immediate re-evaluation; the overlay itself is
    added only after every condition is checked again against fresh state.
    Posted actions are returned as values and applied by `ApplyAll`.  Every
    read of the study-mode flag or the app list can throw: the poll and the
    forced refresh catch it, the overlay action and the service start do
    not, and an exception nothing catches ends the process. */
module AppBlock {
  import opened Wrappers
  import opened Numeric
  import opened Text
  import opened Prefs
  import opened PrefData
  import opened Focus
  import Timer

  /** The service's fields: whether it holds an overlay view, the package
      seen by the last poll, whether it is running, its cached app list, and
      how many overlay windows are attached to the window manager; `crashed`
      marks a process ended by an exception nothing caught. */
  datatype Service = Service(overlay: bool, previousPackage: string, running: bool, appList: Option<LockMap>,
                             attached: nat, crashed: bool)

  /** The overlay it holds is the only window it has attached, and a crashed
      process neither runs nor holds an overlay. */
  predicate Valid(s: Service) {
    && s.attached == (if s.overlay then 1 else 0)
    && (s.crashed ==> !s.running && !s.overlay)
  }

  /** What the device reports at one moment: the preferences store, the
      persisted timer fields, the time left on the timer, the foreground
      package (`""` when unknown), whether drawing over other apps is
      permitted, and whether the window manager accepts a new view. */
  datatype World = World(store: Store, timer: TimerFields, remaining: Int64, foreground: string,
                         sdkAtLeastM: bool, canDrawOverlays: bool, addViewSucceeds: bool)

  /** The focus state the store holds, when both of its reads succeed. */
  function FocusOf(w: World): Result<FocusState, PrefError> {
    ReadFocus(w.store, w.timer)
  }

  /** `shouldBlockApps` as the service computes it.  The timer fields are
      read before the study-mode flag and are taken as read; a failing
      study-mode read is the failure of the whole decision. */
  function ReadShouldBlock(w: World): (r: Result<bool, PrefError>)
    ensures r.Ok? <==> IsStudyMode(w.store).Ok?
    ensures FocusOf(w).Ok? ==> r == Ok(ShouldBlockApps(FocusOf(w).value, w.remaining))
  {
    match IsStudyMode(w.store)
    case Err(e) => Err(e)
    case Ok(study) => Ok(study || TimerBlocking(w.timer, w.remaining))
  }

  /** The overlay permission: always granted below Android M. */
  predicate MayDraw(w: World) {
    !w.sdkAtLeastM || w.canDrawOverlays
  }

  /** The foreground package must be covered right now: the store reads
      succeed and the focus state they give blocks it. */
  predicate Blocked(w: World) {
    FocusOf(w).Ok? && ShouldBlockApp(FocusOf(w).value, w.remaining, w.foreground)
  }

  /** The reads `ensureOverlayVisible` makes once it has the permission: the
      study-mode flag always, the app list only for a known package. */
  predicate OverlayReadsFail(w: World) {
    IsStudyMode(w.store).Err? || (w.foreground != "" && GetAppList(w.store).Err?)
  }

  /** Work posted to the main thread. */
  datatype Action = EnsureVisible | RemoveIfPresent

  /** The process after an exception nothing caught: the service no longer
      runs, the window manager has dropped its overlay, and nothing posted
      afterwards runs. */
  function Crash(s: Service): (r: Service)
    ensures Valid(r) && r.crashed && !r.running && !r.overlay && r.attached == 0
  {
    s.(overlay := false, running := false, attached := 0, crashed := true)
  }

  /** `startServiceWithNotification`: running, with the stored app list
      cached and no overlay.  The app-list read there is not guarded, so a
      failing read ends the process before the poll is ever scheduled. */
  function StartService(w: World): (r: Service)
    ensures Valid(r) && !r.overlay
    ensures r.running <==> GetAppList(w.store).Ok?
    ensures r.crashed <==> GetAppList(w.store).Err?
    ensures r.running ==> r.appList == GetAppList(w.store).value
  {
    match GetAppList(w.store)
    case Err(_) => Crash(Service(false, "", false, None, 0, false))
    case Ok(list) => Service(false, "", true, list, 0, false)
  }

  /** `removeOverlayIfPresent` (also the overlay's close button): the view
      is detached and dropped and the last-seen package forgotten, so the
      next poll re-evaluates whatever is in the foreground.  Nothing runs in
      a crashed process. */
  function RemoveOverlayIfPresent(s: Service): (r: Service)
    requires Valid(s)
    ensures Valid(r) && !r.overlay
    ensures s.crashed ==> r == s
    ensures !s.crashed ==> r.previousPackage == "" && r.running == s.running && r.appList == s.appList && !r.crashed
  {
    if s.crashed then s else Service(false, "", s.running, s.appList, 0, false)
  }

  /** `ensureOverlayVisible`: without the permission, or when the fresh
      state says the foreground package is not to be blocked, any overlay is
      removed; an existing overlay is kept; otherwise one is added, unless
      the window manager refuses it.  Its store reads are not guarded: a
      failing one ends the process. */
  function EnsureOverlayVisible(s: Service, w: World): (r: Service)
    requires Valid(s)
    ensures Valid(r)
    ensures !r.crashed ==> r.running == s.running && r.appList == s.appList
    ensures s.crashed ==> r == s
    ensures r.overlay ==> MayDraw(w) && Blocked(w)
    ensures !MayDraw(w) ==> r == RemoveOverlayIfPresent(s)
    ensures !s.crashed && MayDraw(w) && OverlayReadsFail(w) ==> r == Crash(s)
    ensures MayDraw(w) && !OverlayReadsFail(w) && !Blocked(w) ==> r == RemoveOverlayIfPresent(s)
    ensures MayDraw(w) && Blocked(w) && s.overlay ==> r == s
    ensures !s.crashed && MayDraw(w) && Blocked(w) && !s.overlay ==>
      r.overlay == w.addViewSucceeds && r.previousPackage == s.previousPackage && !r.crashed
  {
    if s.crashed then s
    else if !MayDraw(w) then RemoveOverlayIfPresent(s)
    else match ReadShouldBlock(w)
      case Err(_) => Crash(s)
      case Ok(shouldBlock) =>
        if w.foreground == "" then RemoveOverlayIfPresent(s)
        else match GetAppList(w.store)
          case Err(_) => Crash(s)
          case Ok(list) =>
            if !shouldBlock || !IsLocked(list, w.foreground) then RemoveOverlayIfPresent(s)
            else if s.overlay then s
            else if !w.addViewSucceeds then s
            else s.(overlay := true, attached := s.attached + 1)
  }

  function Apply(s: Service, w: World, a: Action): (r: Service)
    requires Valid(s)
    ensures Valid(r)
    ensures s.crashed ==> r == s
    ensures !r.crashed ==> r.running == s.running && r.appList == s.appList
    ensures r.crashed && !s.crashed ==> a.EnsureVisible? && MayDraw(w) && OverlayReadsFail(w)
  {
    match a
    case EnsureVisible => EnsureOverlayVisible(s, w)
    case RemoveIfPresent => RemoveOverlayIfPresent(s)
  }

  /** Runs posted actions in order. */
  function ApplyAll(s: Service, w: World, actions: seq<Action>): (r: Service)
    requires Valid(s)
    ensures Valid(r)
    ensures s.crashed ==> r == s
    ensures !r.crashed ==> r.running == s.running && r.appList == s.appList
    ensures r.crashed && !s.crashed ==> EnsureVisible in actions && MayDraw(w) && OverlayReadsFail(w)
    decreases |actions|
  {
    if actions == [] then s else ApplyAll(Apply(s, w, actions[0]), w, actions[1..])
  }

  /** `validateBlockingConditions`: the decision re-read from fresh state; a
      read that throws makes it answer no. */
  predicate ValidateBlockingConditions(w: World, pkg: string) {
    FocusOf(w).Ok? && ShouldBlockApps(FocusOf(w).value, w.remaining) && IsLocked(FocusOf(w).value.appList, pkg)
  }

  datatype PollStep = PollStep(service: Service, posted: seq<Action>, cancelled: bool)

  /** One run of the 100 ms poll in `checkActivityState`.  A read that
      throws abandons the rest of the run: a failing study-mode read comes
      before anything is done, a failing app-list reload after the last-seen
      package has been updated (the overlay request, which needs the same
      read to succeed, is never posted then). */
  function Poll(s: Service, w: World): (r: PollStep)
    ensures r.cancelled <==> !s.running
    ensures r.cancelled ==> r.service == s && r.posted == []
    ensures s.running && IsStudyMode(w.store).Err? ==> r == PollStep(s, [], false)
    ensures s.running && IsStudyMode(w.store).Ok? ==>
      && r.service == s.(previousPackage := r.service.previousPackage, appList := r.service.appList)
      && r.service.previousPackage == (if w.foreground != "" then w.foreground else s.previousPackage)
      && r.service.appList == (if GetAppList(w.store).Ok? then GetAppList(w.store).value else s.appList)
    ensures EnsureVisible in r.posted <==>
      s.running && w.foreground != "" && w.foreground != s.previousPackage
      && IsLocked(s.appList, w.foreground) && ValidateBlockingConditions(w, w.foreground)
    ensures RemoveIfPresent in r.posted <==>
      s.running && s.overlay && FocusOf(w).Ok? && !ShouldBlockApps(FocusOf(w).value, w.remaining)
    ensures |r.posted| <= 1
  {
    if !s.running then PollStep(s, [], true)
    else match ReadShouldBlock(w)
      case Err(_) => PollStep(s, [], false)
      case Ok(shouldBlock) =>
        var pkg := w.foreground;
        var candidate := s.appList.Some? && pkg != "" && IsLocked(s.appList, pkg) && shouldBlock && s.previousPackage != pkg;
        var ensure := if candidate && ValidateBlockingConditions(w, pkg) then [EnsureVisible] else [];
        var previous := if pkg != "" then pkg else s.previousPackage;
        match GetAppList(w.store)
        case Err(_) => PollStep(s.(previousPackage := previous), ensure, false)
        case Ok(list) =>
          var remove := if s.overlay && !shouldBlock then [RemoveIfPresent] else [];
          PollStep(s.(previousPackage := previous, appList := list), ensure + remove, false)
  }

  /** A poll followed by the actions it posted, seen in the same world. */
  function Observe(s: Service, w: World): (r: Service)
    requires Valid(s)
    ensures Valid(r) && (!s.crashed ==> !r.crashed)
    ensures s.running && r.overlay && FocusOf(w).Ok? ==> ShouldBlockApps(FocusOf(w).value, w.remaining)
    ensures !s.running ==> r == s
    ensures IsStudyMode(w.store).Err? ==> r == s
    ensures s.running && IsStudyMode(w.store).Ok? && GetAppList(w.store).Err? ==>
      r == s.(previousPackage := if w.foreground != "" then w.foreground else s.previousPackage)
  {
    var p := Poll(s, w);
    ApplyAtMostOne(p.service, w, p.posted);
    ApplyAll(p.service, w, p.posted)
  }

  lemma ApplyAtMostOne(s: Service, w: World, actions: seq<Action>)
    requires Valid(s) && |actions| <= 1
    ensures ApplyAll(s, w, actions) == if actions == [] then s else Apply(s, w, actions[0])
  {
    if actions != [] {
      assert actions[1..] == [];
    }
  }

  datatype Refresh = Refresh(service: Service, posted: seq<Action>)

  /** `forceRefreshBlockingState`: reload the app list, then post the action
      the foreground package calls for now, or nothing when it is unknown.
      A read that throws is caught and ends the refresh: a failing reload
      changes nothing, a failing study-mode read posts nothing. */
  function ForceRefresh(s: Service, w: World): (r: Refresh)
    ensures GetAppList(w.store).Err? ==> r == Refresh(s, [])
    ensures GetAppList(w.store).Ok? ==> r.service == s.(appList := GetAppList(w.store).value)
    ensures r.posted == [] <==> w.foreground == "" || FocusOf(w).Err?
    ensures w.foreground != "" && FocusOf(w).Ok? ==> r.posted == [if Blocked(w) then EnsureVisible else RemoveIfPresent]
  {
    match GetAppList(w.store)
    case Err(_) => Refresh(s, [])
    case Ok(list) =>
      var s' := s.(appList := list);
      if w.foreground == "" then Refresh(s', [])
      else match ReadShouldBlock(w)
        case Err(_) => Refresh(s', [])
        case Ok(shouldBlock) =>
          if !shouldBlock then Refresh(s', [RemoveIfPresent])
          else if IsLocked(s'.appList, w.foreground) then Refresh(s', [EnsureVisible])
          else Refresh(s', [RemoveIfPresent])
  }

  /** The timer-update receiver: a start forces a refresh; a stop or a
      completion first posts a removal, then forces a refresh; an extension
      or a time-left update changes nothing here but the notification. */
  function OnTimerBroadcast(s: Service, w: World, b: Timer.Broadcast): (r: Refresh)
    ensures (b.TimerExtended? || b.RemainingTime?) ==> r == Refresh(s, [])
    ensures b.TimerStarted? ==> r == ForceRefresh(s, w)
    ensures (b.TimerStopped? || b.TimerCompleted?) ==>
      r.posted == [RemoveIfPresent] + ForceRefresh(s, w).posted && r.service == ForceRefresh(s, w).service
  {
    match b
    case TimerStarted => ForceRefresh(s, w)
    case TimerStopped | TimerCompleted =>
      var f := ForceRefresh(s, w);
      Refresh(f.service, [RemoveIfPresent] + f.posted)
    case TimerExtended => Refresh(s, [])
    case RemainingTime(_) => Refresh(s, [])
  }

  /** `stopMyService` (the stop action and `onDestroy`): overlay removed and
      the poll told to stop. */
  function StopMyService(s: Service): (r: Service)
    requires Valid(s)
    ensures Valid(r) && !r.overlay && !r.running && r.attached == 0
  {
    RemoveOverlayIfPresent(s).(running := false)
  }

  /** What the service notification says: the time left while the timer
      blocks, otherwise a reminder to stay focused. */
  datatype Notice = TimerNotice(clock: string) | StayFocusedNotice

  function BlockNotification(w: World): (r: Notice)
    ensures r.TimerNotice? <==> TimerBlocking(w.timer, w.remaining)
  {
    if TimerBlocking(w.timer, w.remaining) then
      TimerNotice(ClockText(ToInt(Quot(w.remaining, 60000)), ToInt(Quot(Rem(w.remaining, 60000), 1000))))
    else StayFocusedNotice
  }

  // ---------------------------------------------------------------- lemmas

  /** Adding and removing the overlay are idempotent. */
  lemma OverlayActionsIdempotent(s: Service, w: World)
    requires Valid(s)
    ensures EnsureOverlayVisible(EnsureOverlayVisible(s, w), w) == EnsureOverlayVisible(s, w)
    ensures RemoveOverlayIfPresent(RemoveOverlayIfPresent(s)) == RemoveOverlayIfPresent(s)
  {
  }

  /** A stopped or completed timer leaves an overlay only where study mode
      still blocks the foreground package: the posted work removes it
      otherwise, and it never ends the process. */
  lemma TimerEndLiftsBlock(s: Service, w: World, b: Timer.Broadcast)
    requires Valid(s) && !s.crashed && (b.TimerStopped? || b.TimerCompleted?)
    ensures var r := OnTimerBroadcast(s, w, b);
      var after := ApplyAll(r.service, w, r.posted);
      (after.overlay ==> Blocked(w)) && !after.crashed
  {
    var f := ForceRefresh(s, w);
    var r := OnTimerBroadcast(s, w, b);
    var s1 := RemoveOverlayIfPresent(f.service);
    assert ApplyAll(r.service, w, r.posted) == ApplyAll(s1, w, f.posted);
    if f.posted != [] {
      assert f.posted[1..] == [];
    }
  }

  /** After `stopMyService` every poll cancels itself and no overlay is
      shown, whatever the device reports. */
  lemma StopEndsPolling(s: Service, w: World)
    requires Valid(s)
    ensures Poll(StopMyService(s), w).cancelled
    ensures !Observe(StopMyService(s), w).overlay
  {
  }

  /** A posted overlay request that meets a failing read ends the process;
      the poll itself never posts one into such a world, and a crashed
      process runs no further work. */
  lemma ReadFailureInOverlayCrashes(s: Service, w: World, more: seq<Action>)
    requires Valid(s) && !s.crashed && MayDraw(w) && OverlayReadsFail(w)
    ensures ApplyAll(s, w, [EnsureVisible] + more) == Crash(s)
    ensures EnsureVisible !in Poll(s, w).posted
  {
    assert ([EnsureVisible] + more)[1..] == more;
    CrashedStaysPut(Crash(s), w, more);
  }

  /** Nothing posted to a crashed process runs. */
  lemma {:induction false} CrashedStaysPut(s: Service, w: World, actions: seq<Action>)
    requires Valid(s) && s.crashed
    ensures ApplyAll(s, w, actions) == s
    decreases |actions|
  {
    if actions != [] {
      CrashedStaysPut(Apply(s, w, actions[0]), w, actions[1..]);
    }
  }

  /** The notification of this service and that of the timer service show
      the same clock text while the timer blocks, as long as the minute count
      fits in an `Int` (beyond it only the timer service clamps the wrapped
      value at zero). */
  lemma NotificationsAgree(w: World)
    requires TimerBlocking(w.timer, w.remaining)
    requires w.remaining / 60000 <= INT_MAX
    ensures BlockNotification(w) == TimerNotice(Timer.NotificationText(w.remaining))
  {
  }

  /** Opening a locked package in study mode, after another package, adds
      the overlay exactly once; polls that see the same package again add
      nothing more. */
  lemma LockedLaunchAddsOneOverlay()
    ensures var store := SetStudyMode(SetAppList(EMPTY, map["com.a" := true]), true);
      var other := World(store, IDLE_TIMER, 0, "com.b", true, true, true);
      var locked := World(store, IDLE_TIMER, 0, "com.a", true, true, true);
      var s0 := StartService(locked);
      var s1 := Observe(s0, other);
      var s2 := Observe(s1, locked);
      var s3 := Observe(s2, locked);
      !s1.overlay && s1.attached == 0 && s2.overlay && s2.attached == 1 && s3 == s2
  {
    var store := SetStudyMode(SetAppList(EMPTY, map["com.a" := true]), true);
    AppListRoundTrip(EMPTY, map["com.a" := true]);
    assert GetAppList(store) == Ok(Some(map["com.a" := true]));
    assert IsStudyMode(store) == Ok(true);
  }

  /** Repeated polls in an unchanging world settle after two: the second
      observation is already a fixed point. */
  lemma {:induction false} ObserveSettles(s: Service, w: World)
    requires Valid(s)
    ensures Observe(Observe(Observe(s, w), w), w) == Observe(Observe(s, w), w)
  {
    var s1 := Observe(s, w);
    var p2 := Poll(s1, w);
    ApplyAtMostOne(p2.service, w, p2.posted);
    var s2 := Observe(s1, w);
    var p3 := Poll(s2, w);
    ApplyAtMostOne(p3.service, w, p3.posted);
  }
}

=== FILE: app_catalog.dfy ===
/** The installed-application catalog (`AppUtils.getInstalledApplications`,
    both copies): every launchable package except the app itself, with its
    label, marked open when it is a system package or one of the default
    everyday apps. */
module AppCatalog {
  import opened Wrappers
  import opened Ordering

  /** An application as the lists hold it; every field is nullable. */
  datatype AppInfo = AppInfo(applicationName: Option<string>, applicationPackage: Option<string>, isOpen: Option<bool>)

  /** What the package manager reports for one installed package. */
  datatype InstalledPackage = InstalledPackage(packageName: string, appLabel: string, hasLaunchIntent: bool, isSystem: bool)

  /** Labels of the applications left open by default. */
  const DEFAULT_APPS: seq<string> :=
    ["Camera", "Clock", "Contacts", "Gallery", "Gmail", "Google Play Store", "Messages", "Phone", "Settings"]

  /** A package appears in the catalog: it can be launched and is not the
      app itself. */
  predicate Listed(p: InstalledPackage, selfPackage: string) {
    p.hasLaunchIntent && p.packageName != selfPackage
  }

  /** The catalog entry of a package. */
  function Describe(p: InstalledPackage): (a: AppInfo)
    ensures a.applicationName == Some(p.appLabel) && a.applicationPackage == Some(p.packageName)
    ensures a.isOpen == Some(p.isSystem || p.appLabel in DEFAULT_APPS)
  {
    AppInfo(Some(p.appLabel), Some(p.packageName), Some(p.isSystem || p.appLabel in DEFAULT_APPS))
  }

  /** Every field is set. */
  predicate Complete(a: AppInfo) {
    a.applicationName.Some? && a.applicationPackage.Some? && a.isOpen.Some?
  }

  function Catalog(packages: seq<InstalledPackage>, selfPackage: string): (r: seq<AppInfo>)
    ensures |r| <= |packages|
    ensures forall i :: 0 <= i < |r| ==> Complete(r[i])
    ensures forall a :: a in r <==> exists p :: p in packages && Listed(p, selfPackage) && a == Describe(p)
  {
    if packages == [] then []
    else
      var rest := Catalog(packages[1..], selfPackage);
      assert forall p :: p in packages <==> p == packages[0] || p in packages[1..];
      if Listed(packages[0], selfPackage) then [Describe(packages[0])] + rest else rest
  }

  /** The test `Listed(_, selfPackage)`. */
  function IsListed(selfPackage: string): InstalledPackage -> bool {
    (p: InstalledPackage) => Listed(p, selfPackage)
  }

  /** The entries of a sequence of packages, in order. */
  function DescribeAll(packages: seq<InstalledPackage>): (r: seq<AppInfo>)
    ensures |r| == |packages|
    ensures forall i :: 0 <= i < |r| ==> r[i] == Describe(packages[i])
  {
    seq(|packages|, i requires 0 <= i < |packages| => Describe(packages[i]))
  }

  /** The catalog is the listed packages, in the package manager's order,
      each described. */
  lemma {:induction false} CatalogInOrder(packages: seq<InstalledPackage>, selfPackage: string)
    ensures Catalog(packages, selfPackage) == DescribeAll(Filter(packages, IsListed(selfPackage)))
  {
    if packages != [] {
      CatalogInOrder(packages[1..], selfPackage);
      var rest := Filter(packages[1..], IsListed(selfPackage));
      if Listed(packages[0], selfPackage) {
        assert DescribeAll([packages[0]] + rest) == [Describe(packages[0])] + DescribeAll(rest);
      } else {
        assert Filter(packages, IsListed(selfPackage)) == rest;
      }
    }
  }

  /** The packages named by the catalog entries. */
  function Packages(apps: seq<AppInfo>): set<string> {
    set a | a in apps && a.applicationPackage.Some? :: a.applicationPackage.value
  }

  /** Appending an entry adds its package, if it has one. */
  lemma PackagesSnoc(init: seq<AppInfo>, last: AppInfo)
    ensures Packages(init + [last]) ==
      Packages(init) + if last.applicationPackage.Some? then {last.applicationPackage.value} else {}
  {
    assert forall a :: a in init + [last] <==> a in init || a == last;
  }

  /** `getInstalledApplications`: empty when there is no package manager. */
  function InstalledApplications(packageManager: Option<seq<InstalledPackage>>, selfPackage: string): (r: seq<AppInfo>)
    ensures packageManager.None? ==> r == []
    ensures forall i :: 0 <= i < |r| ==> Complete(r[i])
    ensures forall a :: a in r ==> exists p :: p in packageManager.value && Listed(p, selfPackage) && a == Describe(p)
    ensures forall p :: packageManager.Some? && p in packageManager.value && Listed(p, selfPackage) ==> Describe(p) in r
  {
    match packageManager
    case None => []
    case Some(packages) => Catalog(packages, selfPackage)
  }

  /** The app never lists itself, and a non-system app is open exactly when
      its label is one of the defaults. */
  lemma CatalogExcludesSelf(packageManager: Option<seq<InstalledPackage>>, selfPackage: string, a: AppInfo)
    requires a in InstalledApplications(packageManager, selfPackage)
    ensures a.applicationPackage != Some(selfPackage)
    ensures a.isOpen == Some(true) <==> exists p :: p in packageManager.value && Listed(p, selfPackage) && a == Describe(p)
                                                    && (p.isSystem || p.appLabel in DEFAULT_APPS)
  {
  }
}

=== FILE: app_list.dfy ===
/** The legacy app-list screen (`AppListActivity` with its two
    `AppListFragment` tabs): the installed applications are split into an
    open and a locked list by the stored package→locked map, and the user
    moves an application from one tab to the other.  Each tab keeps a
    private copy of the map, read when it was set up, and persists that copy
    on every move. */
module AppList {
  import opened Wrappers
  import opened Ordering
  import opened Prefs
  import opened PrefData
  import opened AppCatalog
  import opened Focus

  /** Fragment types: 1 lists the open applications, 2 the locked ones. */
  const OPEN_TYPE: int := 1
  const LOCK_TYPE: int := 2

  /** The screen dereferences name, package and open flag with `!!`; the
      catalog always fills all three. */
  predicate AllComplete(apps: seq<AppInfo>) {
    forall a :: a in apps ==> Complete(a)
  }

  function NameOf(a: AppInfo): string {
    a.applicationName.GetOr("")
  }

  function PkgOf(a: AppInfo): string {
    a.applicationPackage.GetOr("")
  }

  /** Every entry of `s` has the open flag `isOpen` and the map agrees with
      it: an open entry is unlocked, a locked entry locked. */
  predicate ListAgrees(s: seq<AppInfo>, isOpen: bool, m: LockMap) {
    forall a :: a in s ==> Complete(a) && a.isOpen == Some(isOpen) && PkgOf(a) in m && m[PkgOf(a)] == !isOpen
  }

  /** What one pass over the installed applications produces: the open and
      the locked list, the map, and the applications with the open flags the
      pass wrote into them. */
  datatype Lists = Lists(open: seq<AppInfo>, lock: seq<AppInfo>, appList: LockMap, apps: seq<AppInfo>)

  /** The pass with no stored map: each application goes to the list its own
      open flag names, and the map records it as locked unless it is open;
      when a package repeats, the later application's entry wins. */
  function FirstRunPass(apps: seq<AppInfo>): (r: Lists)
    requires AllComplete(apps)
    ensures r.apps == apps
    ensures multiset(r.open) + multiset(r.lock) == multiset(apps)
    ensures r.open == Filter(apps, FlagIs(true)) && r.lock == Filter(apps, FlagIs(false))
    ensures r.appList.Keys == Packages(apps)
    ensures forall i :: 0 <= i < |apps| && LastOfPackage(apps, i) ==>
      PkgOf(apps[i]) in r.appList && apps[i].isOpen == Some(!r.appList[PkgOf(apps[i])])
  {
    FirstRunLoopFacts(apps);
    FirstRunLoop(apps)
  }

  /** The loop of the first-run pass, one application at a time. */
  function FirstRunLoop(apps: seq<AppInfo>): Lists
    requires AllComplete(apps)
    decreases |apps|
  {
    if apps == [] then Lists([], [], map[], [])
    else
      var init := apps[..|apps| - 1];
      var a := apps[|apps| - 1];
      assert apps == init + [a] && a in apps;
      var r := FirstRunLoop(init);
      if a.isOpen.value then Lists(r.open + [a], r.lock, r.appList[PkgOf(a) := false], r.apps + [a])
      else Lists(r.open, r.lock + [a], r.appList[PkgOf(a) := true], r.apps + [a])
  }

  lemma FirstRunLoopFacts(apps: seq<AppInfo>)
    requires AllComplete(apps)
    ensures var r := FirstRunLoop(apps);
      && r.apps == apps
      && multiset(r.open) + multiset(r.lock) == multiset(apps)
      && r.open == Filter(apps, FlagIs(true)) && r.lock == Filter(apps, FlagIs(false))
      && r.appList.Keys == Packages(apps)
      && forall i :: 0 <= i < |apps| && LastOfPackage(apps, i) ==>
        PkgOf(apps[i]) in r.appList && apps[i].isOpen == Some(!r.appList[PkgOf(apps[i])])
  {
    FirstRunLoopShape(apps);
    FirstRunLoopLists(apps);
    FirstRunLoopEntries(apps);
  }

  lemma {:induction false} FirstRunLoopShape(apps: seq<AppInfo>)
    requires AllComplete(apps)
    ensures var r := FirstRunLoop(apps);
      && r.apps == apps
      && multiset(r.open) + multiset(r.lock) == multiset(apps)
      && r.appList.Keys == Packages(apps)
    decreases |apps|
  {
    if apps != [] {
      var init := apps[..|apps| - 1];
      var a := apps[|apps| - 1];
      assert apps == init + [a];
      assert forall x :: x in init ==> x in apps;
      FirstRunLoopShape(init);
      FirstRunStep(init, a, FirstRunLoop(init));
    }
  }

  lemma {:induction false} FirstRunLoopLists(apps: seq<AppInfo>)
    requires AllComplete(apps)
    ensures FirstRunLoop(apps).open == Filter(apps, FlagIs(true))
    ensures FirstRunLoop(apps).lock == Filter(apps, FlagIs(false))
    decreases |apps|
  {
    if apps != [] {
      var init := apps[..|apps| - 1];
      var a := apps[|apps| - 1];
      assert apps == init + [a] && a in apps;
      assert forall x :: x in init ==> x in apps;
      FirstRunLoopLists(init);
      FilterConcat(init, [a], FlagIs(true));
      FilterConcat(init, [a], FlagIs(false));
      assert [a][1..] == [];
      assert Filter([a], FlagIs(true)) == if a.isOpen.value then [a] else [];
      assert Filter([a], FlagIs(false)) == if a.isOpen.value then [] else [a];
    }
  }

  lemma {:induction false} FirstRunLoopEntries(apps: seq<AppInfo>)
    requires AllComplete(apps)
    ensures var r := FirstRunLoop(apps);
      forall i :: 0 <= i < |apps| && LastOfPackage(apps, i) ==>
        PkgOf(apps[i]) in r.appList && apps[i].isOpen == Some(!r.appList[PkgOf(apps[i])])
    decreases |apps|
  {
    if apps != [] {
      var init := apps[..|apps| - 1];
      var a := apps[|apps| - 1];
      assert apps == init + [a];
      assert forall x :: x in init ==> x in apps;
      FirstRunLoopEntries(init);
      LastWriterStep(init, a, FirstRunLoop(init).appList);
    }
  }

  /** No application after the `i`-th has its package. */
  predicate LastOfPackage(apps: seq<AppInfo>, i: int)
    requires 0 <= i < |apps|
  {
    forall j :: i < j < |apps| ==> PkgOf(apps[j]) != PkgOf(apps[i])
  }

  /** The entry written for one more application is the one its package
      keeps; earlier entries survive unless that package repeats them. */
  lemma LastWriterStep(init: seq<AppInfo>, a: AppInfo, prev: LockMap)
    requires Complete(a)
    requires forall i :: 0 <= i < |init| && LastOfPackage(init, i) ==>
      PkgOf(init[i]) in prev && init[i].isOpen == Some(!prev[PkgOf(init[i])])
    ensures var next := prev[PkgOf(a) := !a.isOpen.value];
      var apps := init + [a];
      forall i :: 0 <= i < |apps| && LastOfPackage(apps, i) ==>
        PkgOf(apps[i]) in next && apps[i].isOpen == Some(!next[PkgOf(apps[i])])
  {
    var next := prev[PkgOf(a) := !a.isOpen.value];
    var apps := init + [a];
    forall i | 0 <= i < |apps| && LastOfPackage(apps, i)
      ensures PkgOf(apps[i]) in next && apps[i].isOpen == Some(!next[PkgOf(apps[i])])
    {
      if i < |init| {
        assert apps[|init|] == a;
        assert apps[i] == init[i];
        forall j | i < j < |init| ensures PkgOf(init[j]) != PkgOf(init[i]) {
          assert apps[j] == init[j];
        }
      }
    }
  }

  /** The test "the open flag is `b`". */
  function FlagIs(b: bool): AppInfo -> bool {
    (a: AppInfo) => a.isOpen == Some(b)
  }

  /** With distinct packages, both lists of the first-run pass agree with
      the map it builds. */
  lemma FirstRunAgrees(apps: seq<AppInfo>)
    requires AllComplete(apps) && DistinctPackages(apps)
    ensures forall a :: a in apps ==> PkgOf(a) in FirstRunPass(apps).appList && a.isOpen == Some(!FirstRunPass(apps).appList[PkgOf(a)])
    ensures ListAgrees(FirstRunPass(apps).open, true, FirstRunPass(apps).appList)
    ensures ListAgrees(FirstRunPass(apps).lock, false, FirstRunPass(apps).appList)
  {
    FilterMembers(apps, FlagIs(true));
    FilterMembers(apps, FlagIs(false));
  }

  /** Two entries for one package can disagree with the first-run map: the
      later entry's flag wins, and the earlier one stays in its list. */
  lemma FirstRunDuplicateDisagrees()
    ensures var first := AppInfo(Some("A"), Some("p"), Some(true));
      var second := AppInfo(Some("B"), Some("p"), Some(false));
      var r := FirstRunPass([first, second]);
      first in r.open && r.appList["p"] && !ListAgrees(r.open, true, r.appList)
  {
    var first := AppInfo(Some("A"), Some("p"), Some(true));
    var second := AppInfo(Some("B"), Some("p"), Some(false));
    assert [first, second][..1] == [first];
    assert [first][..0] == [];
  }

  /** One more application in the first-run pass lands in the list its
      flag names and enters its package into the map. */
  lemma FirstRunStep(init: seq<AppInfo>, a: AppInfo, r: Lists)
    requires Complete(a)
    requires r.apps == init && multiset(r.open) + multiset(r.lock) == multiset(init)
    requires r.appList.Keys == Packages(init)
    ensures var apps := init + [a];
      && multiset(r.open + [a]) + multiset(r.lock) == multiset(apps)
      && multiset(r.open) + multiset(r.lock + [a]) == multiset(apps)
      && r.appList[PkgOf(a) := a.isOpen.value == false].Keys == Packages(apps)
  {
    PackagesSnoc(init, a);
  }

  /** The pass over a stored map: an application whose package has an entry
      is listed as the entry says and its open flag is rewritten to match; a
      package without an entry is entered as locked and listed nowhere. */
  function StoredPass(apps: seq<AppInfo>, m: LockMap): (r: Lists)
    requires AllComplete(apps)
    ensures AllComplete(r.apps) && Packages(r.apps) == Packages(apps)
    ensures ListAgrees(r.open, true, r.appList) && ListAgrees(r.lock, false, r.appList)
    decreases |apps|
  {
    if apps == [] then Lists([], [], m, [])
    else
      var init := apps[..|apps| - 1];
      var a := apps[|apps| - 1];
      assert apps == init + [a];
      assert a in apps && forall x :: x in init ==> x in apps;
      PackagesSnoc(init, a);
      var r := StoredPass(init, m);
      var k := PkgOf(a);
      if k in r.appList then
        var shown := a.(isOpen := Some(!r.appList[k]));
        PackagesSnoc(r.apps, shown);
        CompleteSnoc(r.apps, shown);
        if r.appList[k] then
          AgreesSnoc(r.lock, shown, false, r.appList);
          Lists(r.open, r.lock + [shown], r.appList, r.apps + [shown])
        else
          AgreesSnoc(r.open, shown, true, r.appList);
          Lists(r.open + [shown], r.lock, r.appList, r.apps + [shown])
      else
        PackagesSnoc(r.apps, a);
        CompleteSnoc(r.apps, a);
        AgreesGrow(r.open, true, r.appList, k, true);
        AgreesGrow(r.lock, false, r.appList, k, true);
        Lists(r.open, r.lock, r.appList[k := true], r.apps + [a])
  }

  /** The stored pass lists every application whose package has a stored
      entry, with its open flag rewritten, in the tab the entry names. */
  lemma {:induction false} StoredPassLists(apps: seq<AppInfo>, m: LockMap)
    requires AllComplete(apps)
    ensures forall a :: a in apps && PkgOf(a) in m ==>
      a.(isOpen := Some(!m[PkgOf(a)])) in (if m[PkgOf(a)] then StoredPass(apps, m).lock else StoredPass(apps, m).open)
    decreases |apps|
  {
    if apps != [] {
      var init := apps[..|apps| - 1];
      var a := apps[|apps| - 1];
      assert apps == init + [a];
      assert forall x :: x in init ==> x in apps;
      StoredPassLists(init, m);
      StoredPassMap(init, m);
      var prev := StoredPass(init, m);
      var r := StoredPass(apps, m);
      assert forall x :: x in prev.open ==> x in r.open;
      assert forall x :: x in prev.lock ==> x in r.lock;
    }
  }

  /** The stored pass returns the applications it was given, in order,
      with only their open flags rewritten. */
  lemma {:induction false} StoredPassShape(apps: seq<AppInfo>, m: LockMap)
    requires AllComplete(apps)
    ensures |StoredPass(apps, m).apps| == |apps|
    ensures forall i :: 0 <= i < |apps| ==> StoredPass(apps, m).apps[i] == apps[i].(isOpen := StoredPass(apps, m).apps[i].isOpen)
    decreases |apps|
  {
    if apps != [] {
      var init := apps[..|apps| - 1];
      assert apps == init + [apps[|apps| - 1]];
      assert forall x :: x in init ==> x in apps;
      StoredPassShape(init, m);
    }
  }

  /** The stored pass keeps every stored entry and enters each package
      without one as locked. */
  lemma {:induction false} StoredPassMap(apps: seq<AppInfo>, m: LockMap)
    requires AllComplete(apps)
    ensures StoredPass(apps, m).appList.Keys == m.Keys + Packages(apps)
    ensures forall k :: k in StoredPass(apps, m).appList ==> StoredPass(apps, m).appList[k] == (k !in m || m[k])
    decreases |apps|
  {
    if apps != [] {
      var init := apps[..|apps| - 1];
      var a := apps[|apps| - 1];
      assert apps == init + [a];
      assert a in apps && forall x :: x in init ==> x in apps;
      PackagesSnoc(init, a);
      StoredPassMap(init, m);
      var prev := StoredPass(init, m).appList;
      var k := PkgOf(a);
      assert StoredPass(apps, m).appList == if k in prev then prev else prev[k := true];
      assert Packages(apps) == Packages(init) + {k};
      EntryAdded(prev, m, Packages(init), k);
    }
  }

  /** No two applications share a package, as the package manager reports
      them. */
  predicate DistinctPackages(apps: seq<AppInfo>) {
    DistinctBy(apps, PkgOf)
  }

  /** With distinct packages, the stored pass lists only applications the
      stored map knows: a newcomer is entered as locked but shown in neither
      tab. */
  lemma {:induction false} StoredPassListsKnown(apps: seq<AppInfo>, m: LockMap)
    requires AllComplete(apps) && DistinctPackages(apps)
    ensures forall x :: x in StoredPass(apps, m).open ==> PkgOf(x) in m
    ensures forall x :: x in StoredPass(apps, m).lock ==> PkgOf(x) in m
    decreases |apps|
  {
    if apps != [] {
      var init := apps[..|apps| - 1];
      var a := apps[|apps| - 1];
      assert apps == init + [a];
      assert forall x :: x in init ==> x in apps;
      assert DistinctPackages(init);
      StoredPassListsKnown(init, m);
      StoredPassMap(init, m);
      var k := PkgOf(a);
      forall x | x in init
        ensures PkgOf(x) != k
      {
        var i :| 0 <= i < |init| && init[i] == x;
        assert apps[i] == x;
      }
      assert k !in Packages(init);
    }
  }

  /** Entering a package as locked unless it already has an entry keeps a
      map that extends `m` with locked entries. */
  lemma EntryAdded(prev: LockMap, m: LockMap, known: set<string>, k: string)
    requires prev.Keys == m.Keys + known
    requires forall x :: x in prev ==> prev[x] == (x !in m || m[x])
    ensures var next := if k in prev then prev else prev[k := true];
      next.Keys == m.Keys + (known + {k})
      && forall x :: x in next ==> next[x] == (x !in m || m[x])
  {
  }

  lemma CompleteSnoc(s: seq<AppInfo>, a: AppInfo)
    requires AllComplete(s) && Complete(a)
    ensures AllComplete(s + [a])
  {
    assert forall x :: x in s + [a] ==> x in s || x == a;
  }

  lemma AgreesSnoc(s: seq<AppInfo>, a: AppInfo, isOpen: bool, m: LockMap)
    requires ListAgrees(s, isOpen, m) && ListAgrees([a], isOpen, m)
    ensures ListAgrees(s + [a], isOpen, m)
  {
    assert forall x :: x in s + [a] ==> x in s || x == a;
  }

  /** A new key does not disturb the entries a list agrees with. */
  lemma AgreesGrow(s: seq<AppInfo>, isOpen: bool, m: LockMap, k: string, v: bool)
    requires ListAgrees(s, isOpen, m) && k !in m
    ensures ListAgrees(s, isOpen, m[k := v])
  {
  }

  /** One tab: its type, the list it shows and its private copy of the map. */
  datatype Fragment = Fragment(appType: int, items: seq<AppInfo>, appList: LockMap)

  datatype SetUpOut = SetUpOut(fragment: Fragment, store: Store, apps: seq<AppInfo>)

  /** `setUpRecyclerView`: read the stored map, run the matching pass,
      persist the pass's map and keep the list of the tab's type.  A failing
      read throws. */
  function SetUp(st: Store, appType: int, apps: seq<AppInfo>): (r: Result<SetUpOut, PrefError>)
    requires AllComplete(apps)
    ensures r.Ok? <==> GetAppList(st).Ok?
    ensures r.Ok? ==> r.value.fragment.appType == appType
    ensures r.Ok? ==> GetAppList(r.value.store) == Ok(Some(r.value.fragment.appList))
    ensures r.Ok? ==> AllComplete(r.value.apps) && Packages(r.value.apps) == Packages(apps)
    ensures r.Ok? ==> Packages(apps) <= r.value.fragment.appList.Keys
    ensures r.Ok? ==> |r.value.apps| == |apps|
    ensures r.Ok? ==> forall i :: 0 <= i < |apps| ==> r.value.apps[i] == apps[i].(isOpen := r.value.apps[i].isOpen)
    ensures r.Ok? && (GetAppList(st).value.Some? || DistinctPackages(apps)) ==>
      ListAgrees(r.value.fragment.items, appType == OPEN_TYPE, r.value.fragment.appList)
    ensures r.Ok? && GetAppList(st).value.None? ==>
      r.value.fragment.items == Filter(apps, FlagIs(appType == OPEN_TYPE))
    ensures r.Ok? && GetAppList(st).value.Some? ==>
      var stored := GetAppList(st).value.value;
      && r.value.fragment.appList.Keys == stored.Keys + Packages(apps)
      && (forall k :: k in stored ==> r.value.fragment.appList[k] == stored[k])
      && (forall k :: k in r.value.fragment.appList && k !in stored ==> r.value.fragment.appList[k])
      && forall a :: a in apps && PkgOf(a) in stored && stored[PkgOf(a)] == (appType != OPEN_TYPE) ==>
        a.(isOpen := Some(appType == OPEN_TYPE)) in r.value.fragment.items
  {
    match GetAppList(st)
    case Err(e) => Err(e)
    case Ok(stored) =>
      var lists := if stored.None? then FirstRunPass(apps) else StoredPass(apps, stored.value);
      var items := if appType == OPEN_TYPE then lists.open else lists.lock;
      StoredPassMap(apps, stored.GetOr(map[]));
      StoredPassLists(apps, stored.GetOr(map[]));
      StoredPassShape(apps, stored.GetOr(map[]));
      assert DistinctPackages(apps) ==>
        (ListAgrees(FirstRunPass(apps).open, true, FirstRunPass(apps).appList)
         && ListAgrees(FirstRunPass(apps).lock, false, FirstRunPass(apps).appList)) by {
        if DistinctPackages(apps) { FirstRunAgrees(apps); }
      }
      AppListRoundTrip(st, lists.appList);
      Ok(SetUpOut(Fragment(appType, items, lists.appList), SetAppList(st, lists.appList), lists.apps))
  }

  /** A tab set up over a stored map that already covers every package
      keeps that map as it is. */
  lemma SetUpOnCoveringMap(st: Store, appType: int, apps: seq<AppInfo>, m: LockMap)
    requires AllComplete(apps) && GetAppList(st) == Ok(Some(m)) && Packages(apps) <= m.Keys
    ensures SetUp(st, appType, apps).Ok?
    ensures SetUp(st, appType, apps).value.fragment.appList == m
  {
    var f := SetUp(st, appType, apps).value.fragment;
    assert f.appList.Keys == m.Keys;
  }

  lemma SortKeepsComplete(catalog: seq<AppInfo>)
    requires AllComplete(catalog)
    ensures AllComplete(SortBy(catalog, NameOf))
  {
    var apps := SortBy(catalog, NameOf);
    assert forall a :: a in apps ==> a in multiset(catalog);
  }

  /** Both tabs and the store. */
  datatype AppListScreen = AppListScreen(open: Fragment, lock: Fragment, store: Store)

  /** Opening the screen: the catalog sorted by name, then the open tab set
      up, then the locked tab, which reads the map the open tab persisted and
      the open flags it rewrote.  Both tabs start with the same map, the
      locked tab's list agrees with it, and every catalog application is
      shown in the tab its entry names (on a first run, as long as no
      package repeats). */
  function OpenScreen(st: Store, catalog: seq<AppInfo>): (r: Result<AppListScreen, PrefError>)
    requires AllComplete(catalog)
    ensures r.Ok? <==> GetAppList(st).Ok?
    ensures r.Ok? ==> r.value.open.appType == OPEN_TYPE && r.value.lock.appType == LOCK_TYPE
    ensures r.Ok? ==> r.value.open.appList == r.value.lock.appList
    ensures r.Ok? ==> GetAppList(r.value.store) == Ok(Some(r.value.lock.appList))
    ensures r.Ok? ==> ListAgrees(r.value.lock.items, false, r.value.lock.appList)
    ensures r.Ok? && (GetAppList(st).value.Some? || DistinctPackages(catalog)) ==>
      ListAgrees(r.value.open.items, true, r.value.open.appList)
    ensures r.Ok? && (GetAppList(st).value.Some? || DistinctPackages(catalog)) ==>
      forall a :: a in catalog ==> ShownAsEntry(a, r.value)
  {
    var apps := SortBy(catalog, NameOf);
    SortKeepsComplete(catalog);
    match SetUp(st, OPEN_TYPE, apps)
    case Err(e) => Err(e)
    case Ok(o) =>
      SetUpOnCoveringMap(o.store, LOCK_TYPE, o.apps, o.fragment.appList);
      var l := SetUp(o.store, LOCK_TYPE, o.apps).value;
      var screen := AppListScreen(o.fragment, l.fragment, l.store);
      assert GetAppList(st).value.Some? || DistinctPackages(catalog) ==>
        (ListAgrees(screen.open.items, true, screen.open.appList)
         && forall a :: a in catalog ==> ShownAsEntry(a, screen)) by {
        if GetAppList(st).value.Some? || DistinctPackages(catalog) {
          OpenScreenTabs(st, catalog);
        }
      }
      Ok(screen)
  }

  /** The application is listed, with its open flag rewritten, in the tab
      its entry in the open tab's map names. */
  predicate ShownAsEntry(a: AppInfo, s: AppListScreen) {
    PkgOf(a) in s.open.appList
    && if s.open.appList[PkgOf(a)] then a.(isOpen := Some(false)) in s.lock.items
       else a.(isOpen := Some(true)) in s.open.items
  }

  /** The two tabs of `OpenScreen` between them show every catalog
      application where its entry says. */
  lemma OpenScreenTabs(st: Store, catalog: seq<AppInfo>)
    requires AllComplete(catalog) && GetAppList(st).Ok?
    requires GetAppList(st).value.Some? || DistinctPackages(catalog)
    ensures var apps := SortBy(catalog, NameOf);
      AllComplete(apps)
      && var o := SetUp(st, OPEN_TYPE, apps).value;
      var l := SetUp(o.store, LOCK_TYPE, o.apps).value;
      && ListAgrees(o.fragment.items, true, o.fragment.appList)
      && forall a :: a in catalog ==> ShownAsEntry(a, AppListScreen(o.fragment, l.fragment, l.store))
  {
    var apps := SortBy(catalog, NameOf);
    SortKeepsComplete(catalog);
    if GetAppList(st).value.None? {
      SortByKeepsDistinct(catalog, NameOf, PkgOf);
      FirstRunAgrees(apps);
      FilterRoutes(apps, FlagIs(true));
    }
    var o := SetUp(st, OPEN_TYPE, apps).value;
    var m := o.fragment.appList;
    SetUpOnCoveringMap(o.store, LOCK_TYPE, o.apps, m);
    var l := SetUp(o.store, LOCK_TYPE, o.apps).value;
    var screen := AppListScreen(o.fragment, l.fragment, l.store);
    forall a | a in catalog
      ensures ShownAsEntry(a, screen)
    {
      assert a in multiset(apps);
      assert a in apps;
      if m[PkgOf(a)] {
        LockTabShows(apps, o.apps, m, l.fragment.items, a);
      } else if GetAppList(st).value.None? {
        assert a.(isOpen := Some(true)) == a;
      }
    }
  }

  /** The locked tab, set up over the open tab's map and applications,
      shows every application the map locks. */
  lemma LockTabShows(apps: seq<AppInfo>, shown: seq<AppInfo>, m: LockMap, items: seq<AppInfo>, a: AppInfo)
    requires a in apps && PkgOf(a) in m && m[PkgOf(a)]
    requires |shown| == |apps| && forall i :: 0 <= i < |apps| ==> shown[i] == apps[i].(isOpen := shown[i].isOpen)
    requires forall x :: x in shown && PkgOf(x) in m && m[PkgOf(x)] == (LOCK_TYPE != OPEN_TYPE) ==>
      x.(isOpen := Some(LOCK_TYPE == OPEN_TYPE)) in items
    ensures a.(isOpen := Some(false)) in items
  {
    var i :| 0 <= i < |apps| && apps[i] == a;
    var x := shown[i];
    assert x in shown && PkgOf(x) == PkgOf(a);
    assert x.(isOpen := Some(false)) == a.(isOpen := Some(false));
  }

  /** The tab a move starts from, and the tab it goes to. */
  function Source(s: AppListScreen, fromOpen: bool): Fragment {
    if fromOpen then s.open else s.lock
  }

  function Target(s: AppListScreen, fromOpen: bool): Fragment {
    if fromOpen then s.lock else s.open
  }

  /** The list without the entry at `pos`. */
  function RemoveAt(s: seq<AppInfo>, pos: nat): (r: seq<AppInfo>)
    requires pos < |s|
    ensures |r| == |s| - 1
    ensures multiset(r) == multiset(s) - multiset{s[pos]}
  {
    assert s == s[..pos] + [s[pos]] + s[pos + 1..];
    s[..pos] + s[pos + 1..]
  }

  /** `updateAppList` on the receiving tab: the entry is appended and the
      list sorted by name again. */
  function Receive(items: seq<AppInfo>, a: AppInfo): (r: seq<AppInfo>)
    ensures multiset(r) == multiset(items) + multiset{a}
    ensures a in r
    ensures SortedBy(r, NameOf)
  {
    var r := SortBy(items + [a], NameOf);
    assert a in multiset(items + [a]);
    r
  }

  /** `updateApp` as written: the tab writes the moved entry's own open flag,
      which nothing has updated since the lists were built, into its private
      copy of the map and persists that copy; the entry, flag unchanged,
      joins the other tab and leaves this one.  The other tab's copy of the
      map is not touched. */
  function UpdateAppAsWritten(s: AppListScreen, fromOpen: bool, pos: nat): (r: AppListScreen)
    requires pos < |Source(s, fromOpen).items| && Complete(Source(s, fromOpen).items[pos])
    ensures var item := Source(s, fromOpen).items[pos];
      && Source(r, fromOpen).appList == Source(s, fromOpen).appList[PkgOf(item) := item.isOpen.value]
      && GetAppList(r.store) == Ok(Some(Source(r, fromOpen).appList))
      && Target(r, fromOpen).appList == Target(s, fromOpen).appList
      && item in Target(r, fromOpen).items
      && multiset(Source(r, fromOpen).items) == multiset(Source(s, fromOpen).items) - multiset{item}
  {
    var src := Source(s, fromOpen);
    var dst := Target(s, fromOpen);
    var item := src.items[pos];
    var m := src.appList[PkgOf(item) := item.isOpen.value];
    var src' := src.(items := RemoveAt(src.items, pos), appList := m);
    var dst' := dst.(items := Receive(dst.items, item));
    var st := SetAppList(s.store, m);
    AppListRoundTrip(s.store, m);
    if fromOpen then AppListScreen(src', dst', st) else AppListScreen(dst', src', st)
  }

  /** A default application, open on first run. */
  const NOTES: AppInfo := AppInfo(Some("Notes"), Some("com.notes"), Some(true))

  /** As written, moving an open application to the locked tab and straight
      back leaves it listed as open while the stored map still locks it, so
      the blocking service keeps covering it. */
  lemma MovedBackStaysLocked(s0: AppListScreen)
    requires OpenScreen(EMPTY, [NOTES]) == Ok(s0)
    ensures s0.open.items == [NOTES] && s0.lock.items == []
    ensures var s1 := UpdateAppAsWritten(s0, true, 0);
      && s1.lock.items == [NOTES]
      && var s2 := UpdateAppAsWritten(s1, false, 0);
      && s2.open.items == [NOTES]
      && GetAppList(s2.store) == Ok(Some(map["com.notes" := true]))
      && IsLocked(GetAppList(s2.store).value, "com.notes")
  {
    NotesOpened(s0);
    var s1 := UpdateAppAsWritten(s0, true, 0);
    NotesLocked(s0);
    NotesMovedBack(s1);
  }

  /** The first-run map of Notes alone. */
  const NOTES_MAP: LockMap := map["com.notes" := false]

  /** The open tab over Notes on an empty store. */
  lemma NotesOpenTab()
    ensures SetUp(EMPTY, OPEN_TYPE, [NOTES]).Ok?
    ensures var o := SetUp(EMPTY, OPEN_TYPE, [NOTES]).value;
      && o.fragment == Fragment(OPEN_TYPE, [NOTES], NOTES_MAP)
      && o.apps == [NOTES]
      && GetAppList(o.store) == Ok(Some(NOTES_MAP))
  {
    NotesFirstRun();
  }

  /** The first-run pass over Notes alone. */
  lemma NotesFirstRun()
    ensures FirstRunPass([NOTES]) == Lists([NOTES], [], NOTES_MAP, [NOTES])
  {
    assert [NOTES][..0] == [];
    assert FirstRunPass([]) == Lists([], [], map[], []);
    assert map[][PkgOf(NOTES) := false] == NOTES_MAP;
    assert [] + [NOTES] == [NOTES];
  }

  /** The locked tab set up after it: empty, with the same map. */
  lemma NotesLockTab(st: Store)
    requires GetAppList(st) == Ok(Some(NOTES_MAP))
    ensures SetUp(st, LOCK_TYPE, [NOTES]).Ok?
    ensures SetUp(st, LOCK_TYPE, [NOTES]).value.fragment == Fragment(LOCK_TYPE, [], NOTES_MAP)
  {
    assert [NOTES][..0] == [];
    assert StoredPass([], NOTES_MAP) == Lists([], [], NOTES_MAP, []);
    assert StoredPass([NOTES], NOTES_MAP).lock == [];
    SetUpOnCoveringMap(st, LOCK_TYPE, [NOTES], NOTES_MAP);
  }

  /** Opening the screen on an empty store with Notes. */
  lemma NotesOpened(s0: AppListScreen)
    requires OpenScreen(EMPTY, [NOTES]) == Ok(s0)
    ensures s0.open == Fragment(OPEN_TYPE, [NOTES], NOTES_MAP)
    ensures s0.lock == Fragment(LOCK_TYPE, [], NOTES_MAP)
  {
    assert SortBy([NOTES], NameOf) == [NOTES];
    NotesOpenTab();
    NotesLockTab(SetUp(EMPTY, OPEN_TYPE, [NOTES]).value.store);
  }

  /** Locking Notes in the open tab: the locked tab lists it and keeps the
      map it was set up with. */
  lemma NotesLocked(s0: AppListScreen)
    requires s0.open == Fragment(OPEN_TYPE, [NOTES], NOTES_MAP)
    requires s0.lock == Fragment(LOCK_TYPE, [], NOTES_MAP)
    ensures UpdateAppAsWritten(s0, true, 0).open.items == []
    ensures UpdateAppAsWritten(s0, true, 0).lock == Fragment(LOCK_TYPE, [NOTES], NOTES_MAP)
  {
    assert SortBy([NOTES], NameOf) == [NOTES];
  }

  /** Moving Notes back from the locked tab: that tab writes the entry's
      stale open flag, which locks it. */
  lemma NotesMovedBack(s1: AppListScreen)
    requires s1.open.items == []
    requires s1.lock == Fragment(LOCK_TYPE, [NOTES], NOTES_MAP)
    ensures UpdateAppAsWritten(s1, false, 0).open.items == [NOTES]
    ensures GetAppList(UpdateAppAsWritten(s1, false, 0).store) == Ok(Some(map["com.notes" := true]))
  {
    ReceiveIntoEmpty(NOTES);
    assert PkgOf(NOTES) == "com.notes" && NOTES.isOpen.value;
    assert NOTES_MAP["com.notes" := true] == map["com.notes" := true];
  }

  /** An entry received by an empty tab is all it lists. */
  lemma ReceiveIntoEmpty(a: AppInfo)
    ensures Receive([], a) == [a]
  {
    assert [] + [a] == [a];
    assert SortBy([a], NameOf) == [a];
  }

  /** Two applications, one open and one locked on first run. */
  const ATLAS: AppInfo := AppInfo(Some("Atlas"), Some("com.atlas"), Some(true))
  const BINGO: AppInfo := AppInfo(Some("Bingo"), Some("com.bingo"), Some(false))

  /** The first-run map of Atlas and Bingo. */
  const ATLAS_BINGO_MAP: LockMap := map["com.atlas" := false, "com.bingo" := true]

  /** Atlas sorts before Bingo whichever order they come in. */
  lemma AtlasBingoSorted()
    ensures SortBy([ATLAS, BINGO], NameOf) == [ATLAS, BINGO]
    ensures SortBy([BINGO, ATLAS], NameOf) == [ATLAS, BINGO]
  {
    assert StrLe("Atlas", "Bingo");
    assert !StrLe("Bingo", "Atlas");
    assert SortBy([BINGO], NameOf) == [BINGO];
    assert SortBy([ATLAS], NameOf) == [ATLAS];
    assert [ATLAS, BINGO][1..] == [BINGO];
    assert [BINGO, ATLAS][1..] == [ATLAS];
  }

  /** The first-run pass over Atlas and Bingo. */
  lemma AtlasBingoFirstRun()
    ensures FirstRunPass([ATLAS, BINGO]) == Lists([ATLAS], [BINGO], ATLAS_BINGO_MAP, [ATLAS, BINGO])
  {
    assert [ATLAS, BINGO][..1] == [ATLAS];
    assert [ATLAS][..0] == [];
    assert FirstRunLoop([ATLAS]) == Lists([ATLAS], [], map["com.atlas" := false], [ATLAS]);
    assert FirstRunLoop([ATLAS, BINGO]) == Lists([ATLAS], [BINGO], ATLAS_BINGO_MAP, [ATLAS, BINGO]);
  }

  /** The stored pass over Atlas and Bingo with their first-run map. */
  lemma AtlasBingoStored()
    ensures StoredPass([ATLAS, BINGO], ATLAS_BINGO_MAP).lock == [BINGO]
  {
    var m0 := ATLAS_BINGO_MAP;
    assert [ATLAS, BINGO][..1] == [ATLAS];
    assert [ATLAS][..0] == [];
    assert StoredPass([], m0) == Lists([], [], m0, []);
    assert StoredPass([ATLAS], m0).lock == [];
  }

  /** Opening the screen on an empty store with Atlas and Bingo. */
  lemma AtlasBingoOpened(s0: AppListScreen)
    requires OpenScreen(EMPTY, [ATLAS, BINGO]) == Ok(s0)
    ensures s0.open == Fragment(OPEN_TYPE, [ATLAS], ATLAS_BINGO_MAP)
    ensures s0.lock == Fragment(LOCK_TYPE, [BINGO], ATLAS_BINGO_MAP)
  {
    AtlasBingoSorted();
    AtlasBingoOpenTab();
    var o := SetUp(EMPTY, OPEN_TYPE, [ATLAS, BINGO]).value;
    AtlasBingoLockTab(o.store);
  }

  /** The open tab over Atlas and Bingo on an empty store. */
  lemma AtlasBingoOpenTab()
    ensures SetUp(EMPTY, OPEN_TYPE, [ATLAS, BINGO]).Ok?
    ensures var o := SetUp(EMPTY, OPEN_TYPE, [ATLAS, BINGO]).value;
      && o.fragment == Fragment(OPEN_TYPE, [ATLAS], ATLAS_BINGO_MAP)
      && o.apps == [ATLAS, BINGO]
      && GetAppList(o.store) == Ok(Some(ATLAS_BINGO_MAP))
  {
    AtlasBingoFirstRun();
  }

  /** The locked tab set up after it, over the map the open tab stored. */
  lemma AtlasBingoLockTab(st: Store)
    requires GetAppList(st) == Ok(Some(ATLAS_BINGO_MAP))
    ensures SetUp(st, LOCK_TYPE, [ATLAS, BINGO]).Ok?
    ensures SetUp(st, LOCK_TYPE, [ATLAS, BINGO]).value.fragment == Fragment(LOCK_TYPE, [BINGO], ATLAS_BINGO_MAP)
  {
    AtlasBingoStored();
    SetUpOnCoveringMap(st, LOCK_TYPE, [ATLAS, BINGO], ATLAS_BINGO_MAP);
  }

  /** Locking Atlas in the open tab: the stored map has Atlas locked, the
      locked tab lists Atlas and Bingo, and its copy of the map is the one it
      was set up with. */
  lemma AtlasLockedInOpenTab(s0: AppListScreen)
    requires s0.open == Fragment(OPEN_TYPE, [ATLAS], ATLAS_BINGO_MAP)
    requires s0.lock == Fragment(LOCK_TYPE, [BINGO], ATLAS_BINGO_MAP)
    ensures UpdateAppAsWritten(s0, true, 0).lock == Fragment(LOCK_TYPE, [ATLAS, BINGO], ATLAS_BINGO_MAP)
    ensures GetAppList(UpdateAppAsWritten(s0, true, 0).store) == Ok(Some(ATLAS_BINGO_MAP["com.atlas" := true]))
    ensures IsLocked(GetAppList(UpdateAppAsWritten(s0, true, 0).store).value, "com.atlas")
  {
    AtlasBingoSorted();
    assert Receive([BINGO], ATLAS) == [ATLAS, BINGO];
  }

  /** Unlocking Bingo, second in the locked tab: that tab persists its own
      copy of the map with Bingo's entry changed. */
  lemma BingoUnlockedInLockTab(s1: AppListScreen)
    requires s1.lock == Fragment(LOCK_TYPE, [ATLAS, BINGO], ATLAS_BINGO_MAP)
    ensures UpdateAppAsWritten(s1, false, 1).lock.items == [ATLAS]
    ensures GetAppList(UpdateAppAsWritten(s1, false, 1).store) == Ok(Some(ATLAS_BINGO_MAP["com.bingo" := false]))
    ensures !IsLocked(GetAppList(UpdateAppAsWritten(s1, false, 1).store).value, "com.atlas")
  {
    assert RemoveAt([ATLAS, BINGO], 1) == [ATLAS];
    assert PkgOf(BINGO) == "com.bingo" && !BINGO.isOpen.value;
    assert !ATLAS_BINGO_MAP["com.bingo" := false]["com.atlas"];
  }

  /** As written, a move in one tab is undone by the next move in the other:
      after locking Atlas in the open tab and then unlocking Bingo in the
      locked tab, the locked tab still lists Atlas but the stored map, written
      from the locked tab's stale copy, has Atlas unlocked again. */
  lemma OtherTabRevertsMove(s0: AppListScreen)
    requires OpenScreen(EMPTY, [ATLAS, BINGO]) == Ok(s0)
    ensures s0.open.items == [ATLAS] && s0.lock.items == [BINGO]
    ensures UpdateAppAsWritten(s0, true, 0).lock.items == [ATLAS, BINGO]
    ensures IsLocked(GetAppList(UpdateAppAsWritten(s0, true, 0).store).value, "com.atlas")
    ensures UpdateAppAsWritten(UpdateAppAsWritten(s0, true, 0), false, 1).lock.items == [ATLAS]
    ensures !IsLocked(GetAppList(UpdateAppAsWritten(UpdateAppAsWritten(s0, true, 0), false, 1).store).value, "com.atlas")
  {
    AtlasBingoOpened(s0);
    AtlasLockedInOpenTab(s0);
    var s1 := UpdateAppAsWritten(s0, true, 0);
    BingoUnlockedInLockTab(s1);
  }

  // ----- the corrected screen: one map shared by both tabs -----

  /** Both lists, the one map both tabs use, and the store. */
  datatype Board = Board(open: seq<AppInfo>, lock: seq<AppInfo>, appList: LockMap, store: Store)

  /** No entry is listed twice, and no two entries share a package. */
  predicate UniquePackages(ms: multiset<AppInfo>) {
    && (forall a :: a in ms ==> ms[a] == 1)
    && (forall a, b :: a in ms && b in ms && PkgOf(a) == PkgOf(b) ==> a == b)
  }

  /** What the tabs show agrees with the map entry by entry, and the map is
      the one stored. */
  predicate Consistent(b: Board) {
    && ListAgrees(b.open, true, b.appList)
    && ListAgrees(b.lock, false, b.appList)
    && UniquePackages(multiset(b.open) + multiset(b.lock))
    && GetAppList(b.store) == Ok(Some(b.appList))
  }

  /** The corrected move: the map entry records the tab the entry goes to,
      the entry's open flag is flipped to match, and the shared map is
      persisted. */
  function MoveApp(b: Board, fromOpen: bool, pos: nat): (r: Board)
    requires pos < |if fromOpen then b.open else b.lock|
    ensures var item := (if fromOpen then b.open else b.lock)[pos];
      var moved := item.(isOpen := Some(!fromOpen));
      && r.appList == b.appList[PkgOf(item) := fromOpen]
      && GetAppList(r.store) == Ok(Some(r.appList))
      && moved in (if fromOpen then r.lock else r.open)
      && multiset(if fromOpen then r.open else r.lock) == multiset(if fromOpen then b.open else b.lock) - multiset{item}
      && multiset(if fromOpen then r.lock else r.open) == multiset(if fromOpen then b.lock else b.open) + multiset{moved}
  {
    var src := if fromOpen then b.open else b.lock;
    var dst := if fromOpen then b.lock else b.open;
    var item := src[pos];
    var moved := item.(isOpen := Some(!fromOpen));
    var m := b.appList[PkgOf(item) := fromOpen];
    AppListRoundTrip(b.store, m);
    var src' := RemoveAt(src, pos);
    var dst' := Receive(dst, moved);
    if fromOpen then Board(src', dst', m, SetAppList(b.store, m))
    else Board(dst', src', m, SetAppList(b.store, m))
  }

  /** Taking one entry out of a multiset with unique packages and putting in
      another with the same package keeps the packages unique. */
  lemma SwapKeepsUnique(all: multiset<AppInfo>, item: AppInfo, moved: AppInfo)
    requires UniquePackages(all) && item in all && moved != item && PkgOf(moved) == PkgOf(item)
    ensures moved !in all
    ensures UniquePackages(all - multiset{item} + multiset{moved})
  {
    var all' := all - multiset{item} + multiset{moved};
    assert all[item] == 1;
    assert item !in all';
    forall a, c | a in all' && c in all' && PkgOf(a) == PkgOf(c)
      ensures a == c
    {
      assert a == moved || a in all;
      assert c == moved || c in all;
    }
  }

  /** The tab a move leaves still agrees with the map once the moved
      entry's package is changed: no entry left behind shares it. */
  lemma LeftBehindAgree(src: seq<AppInfo>, src': seq<AppInfo>, item: AppInfo, isOpen: bool,
                        m: LockMap, v: bool, all: multiset<AppInfo>)
    requires ListAgrees(src, isOpen, m)
    requires multiset(src') == multiset(src) - multiset{item}
    requires multiset(src) <= all && UniquePackages(all) && item in all
    ensures ListAgrees(src', isOpen, m[PkgOf(item) := v])
  {
    forall a | a in src'
      ensures a in src && PkgOf(a) != PkgOf(item)
    {
      assert a in multiset(src');
      assert a != item;
    }
  }

  /** The tab a move reaches agrees with the changed map: the moved entry
      has the flag the new entry records, and no other entry there shares its
      package. */
  lemma ReachedAgree(dst: seq<AppInfo>, dst': seq<AppInfo>, item: AppInfo, moved: AppInfo, isOpen: bool,
                     m: LockMap, all: multiset<AppInfo>)
    requires ListAgrees(dst, isOpen, m)
    requires multiset(dst') == multiset(dst) + multiset{moved}
    requires multiset(dst) <= all && UniquePackages(all) && item in all
    requires Complete(moved) && moved.isOpen == Some(isOpen) && item.isOpen == Some(!isOpen) && PkgOf(moved) == PkgOf(item)
    ensures ListAgrees(dst', isOpen, m[PkgOf(item) := !isOpen])
  {
    forall a | a in dst'
      ensures a == moved || (a in dst && PkgOf(a) != PkgOf(item))
    {
      assert a in multiset(dst');
    }
  }

  /** After a move each tab's entries agree with the changed map. */
  lemma MoveKeepsAgreement(b: Board, fromOpen: bool, pos: nat)
    requires Consistent(b) && pos < |if fromOpen then b.open else b.lock|
    ensures ListAgrees(MoveApp(b, fromOpen, pos).open, true, MoveApp(b, fromOpen, pos).appList)
    ensures ListAgrees(MoveApp(b, fromOpen, pos).lock, false, MoveApp(b, fromOpen, pos).appList)
  {
    var all := multiset(b.open) + multiset(b.lock);
    var r := MoveApp(b, fromOpen, pos);
    if fromOpen {
      var item := b.open[pos];
      assert item in multiset(b.open);
      LeftBehindAgree(b.open, r.open, item, true, b.appList, true, all);
      ReachedAgree(b.lock, r.lock, item, item.(isOpen := Some(false)), false, b.appList, all);
    } else {
      var item := b.lock[pos];
      assert item in multiset(b.lock);
      LeftBehindAgree(b.lock, r.lock, item, false, b.appList, false, all);
      ReachedAgree(b.open, r.open, item, item.(isOpen := Some(true)), true, b.appList, all);
    }
  }

  /** Moving one entry between two lists, changed into another entry with
      the same package, keeps the packages of both lists unique. */
  lemma UniqueAfterMove(src: seq<AppInfo>, dst: seq<AppInfo>, src': seq<AppInfo>, dst': seq<AppInfo>,
                        item: AppInfo, moved: AppInfo)
    requires UniquePackages(multiset(src) + multiset(dst)) && item in multiset(src)
    requires moved != item && PkgOf(moved) == PkgOf(item)
    requires multiset(src') == multiset(src) - multiset{item}
    requires multiset(dst') == multiset(dst) + multiset{moved}
    ensures UniquePackages(multiset(src') + multiset(dst'))
    ensures UniquePackages(multiset(dst') + multiset(src'))
  {
    var all := multiset(src) + multiset(dst);
    SwapKeepsUnique(all, item, moved);
    assert multiset(src') + multiset(dst') == all - multiset{item} + multiset{moved};
    assert multiset(dst') + multiset(src') == multiset(src') + multiset(dst');
  }

  /** After a move no entry is listed twice and no package is shared. */
  lemma MoveKeepsUnique(b: Board, fromOpen: bool, pos: nat)
    requires Consistent(b) && pos < |if fromOpen then b.open else b.lock|
    ensures UniquePackages(multiset(MoveApp(b, fromOpen, pos).open) + multiset(MoveApp(b, fromOpen, pos).lock))
  {
    if fromOpen {
      LockingKeepsUnique(b, pos);
    } else {
      OpeningKeepsUnique(b, pos);
    }
  }

  lemma LockingKeepsUnique(b: Board, pos: nat)
    requires Consistent(b) && pos < |b.open|
    ensures UniquePackages(multiset(MoveApp(b, true, pos).open) + multiset(MoveApp(b, true, pos).lock))
  {
    var r := MoveApp(b, true, pos);
    var item := b.open[pos];
    assert item in multiset(b.open);
    UniqueAfterMove(b.open, b.lock, r.open, r.lock, item, item.(isOpen := Some(false)));
  }

  lemma OpeningKeepsUnique(b: Board, pos: nat)
    requires Consistent(b) && pos < |b.lock|
    ensures UniquePackages(multiset(MoveApp(b, false, pos).open) + multiset(MoveApp(b, false, pos).lock))
  {
    var r := MoveApp(b, false, pos);
    var item := b.lock[pos];
    assert item in multiset(b.lock);
    assert multiset(b.lock) + multiset(b.open) == multiset(b.open) + multiset(b.lock);
    UniqueAfterMove(b.lock, b.open, r.lock, r.open, item, item.(isOpen := Some(true)));
  }

  /** A move keeps what the tabs show in agreement with the stored map. */
  lemma MoveKeepsConsistent(b: Board, fromOpen: bool, pos: nat)
    requires Consistent(b) && pos < |if fromOpen then b.open else b.lock|
    ensures Consistent(MoveApp(b, fromOpen, pos))
  {
    MoveKeepsAgreement(b, fromOpen, pos);
    MoveKeepsUnique(b, fromOpen, pos);
  }

  /** A user's move: the tab and the position tapped. */
  datatype Move = Move(fromOpen: bool, pos: nat)

  /** A sequence of moves; a tap outside the list does nothing. */
  function ApplyMoves(b: Board, moves: seq<Move>): (r: Board)
    requires Consistent(b)
    ensures Consistent(r)
    ensures |r.open| + |r.lock| == |b.open| + |b.lock|
    decreases |moves|
  {
    if moves == [] then b
    else
      var mv := moves[0];
      if mv.pos < |if mv.fromOpen then b.open else b.lock| then
        MoveKeepsConsistent(b, mv.fromOpen, mv.pos);
        ApplyMoves(MoveApp(b, mv.fromOpen, mv.pos), moves[1..])
      else ApplyMoves(b, moves[1..])
  }

  /** Changing an entry and changing it back leaves the map as it was. */
  lemma RestoreEntry(m: LockMap, k: string, v: bool)
    requires k in m && m[k] == !v
    ensures m[k := v][k := !v] == m
  {
  }

  /** Moving an entry to the other tab and back restores the map it started
      with and lists the entry where it was, flag and all. */
  lemma MoveThereAndBack(b: Board, fromOpen: bool, pos: nat, back: nat)
    requires pos < |if fromOpen then b.open else b.lock|
    requires ListAgrees(if fromOpen then b.open else b.lock, fromOpen, b.appList)
    requires var r := MoveApp(b, fromOpen, pos);
      back < |if fromOpen then r.lock else r.open|
      && (if fromOpen then r.lock else r.open)[back] == (if fromOpen then b.open else b.lock)[pos].(isOpen := Some(!fromOpen))
    ensures var r2 := MoveApp(MoveApp(b, fromOpen, pos), !fromOpen, back);
      && r2.appList == b.appList
      && (if fromOpen then b.open else b.lock)[pos] in (if fromOpen then r2.open else r2.lock)
  {
    var item := (if fromOpen then b.open else b.lock)[pos];
    var k := PkgOf(item);
    assert item in (if fromOpen then b.open else b.lock);
    assert item.isOpen == Some(fromOpen) && k in b.appList && b.appList[k] == !fromOpen;
    var r := MoveApp(b, fromOpen, pos);
    assert r.appList == b.appList[k := fromOpen];
    var moved := item.(isOpen := Some(!fromOpen));
    assert PkgOf(moved) == k && moved.(isOpen := Some(fromOpen)) == item;
    var r2 := MoveApp(r, !fromOpen, back);
    assert r2.appList == r.appList[k := !fromOpen];
    RestoreEntry(b.appList, k, fromOpen);
  }
}

=== FILE: app_lock.dfy ===
/** The app-lock screen's state holder (`AppLockViewModel`): it loads the
    installed applications, completes and persists the package→locked map,
    and shows the applications in a locked and an unlocked list, each
    sorted by lower-cased name; toggling an application flips its entry and
    loads again. */
module AppLock {
  import opened Wrappers
  import opened Text
  import opened Ordering
  import opened Prefs
  import opened PrefData
  import opened AppCatalog

  datatype AppLockItem = AppLockItem(appName: string, packageName: string, isLocked: bool)

  datatype AppLockUiState = AppLockUiState(isLoading: bool, locked: seq<AppLockItem>, unlocked: seq<AppLockItem>)

  /** The state before the first load finishes. */
  const LOADING: AppLockUiState := AppLockUiState(true, [], [])

  /** No later entry names the same package as entry `i`. */
  predicate LastWithPackage(apps: seq<AppInfo>, i: int)
    requires 0 <= i < |apps|
  {
    forall j :: i < j < |apps| ==> apps[j].applicationPackage != apps[i].applicationPackage
  }

  /** The map built on the first run: each application with a package is
      locked unless it is marked open, a missing mark counting as open. */
  function FirstRunMap(apps: seq<AppInfo>): (m: LockMap)
    ensures m.Keys == Packages(apps)
    decreases |apps|
  {
    if apps == [] then map[]
    else
      var init := apps[..|apps| - 1];
      var last := apps[|apps| - 1];
      PackagesSnoc(init, last);
      assert apps == init + [last];
      var m := FirstRunMap(init);
      if last.applicationPackage.Some? then m[last.applicationPackage.value := !last.isOpen.GetOr(true)] else m
  }

  /** For a package listed more than once, the later entry decides. */
  lemma {:induction false} FirstRunMapLastWins(apps: seq<AppInfo>, i: nat)
    requires i < |apps| && apps[i].applicationPackage.Some? && LastWithPackage(apps, i)
    ensures apps[i].applicationPackage.value in FirstRunMap(apps)
    ensures FirstRunMap(apps)[apps[i].applicationPackage.value] == !apps[i].isOpen.GetOr(true)
    decreases |apps|
  {
    var init := apps[..|apps| - 1];
    if i < |apps| - 1 {
      assert init[i] == apps[i];
      assert LastWithPackage(init, i) by {
        forall j | i < j < |init|
          ensures init[j].applicationPackage != init[i].applicationPackage
        {
          assert init[j] == apps[j];
        }
      }
      FirstRunMapLastWins(init, i);
      assert apps[|apps| - 1].applicationPackage != apps[i].applicationPackage;
    }
  }

  /** `preferenceMap[pkg] ?: true`: a package without an entry counts as
      locked. */
  predicate LockedIn(m: LockMap, pkg: string) {
    pkg !in m || m[pkg]
  }

  /** New applications default to locked; every existing entry stays. */
  function AddMissing(m: LockMap, apps: seq<AppInfo>): (r: LockMap)
    ensures r.Keys == m.Keys + Packages(apps)
    ensures forall k :: k in m ==> r[k] == m[k]
    ensures forall k :: k in r ==> r[k] == LockedIn(m, k)
  {
    map k | k in m.Keys + Packages(apps) :: if k in m then m[k] else true
  }

  /** Completing a map that already covers every package changes nothing,
      so completing twice is completing once. */
  lemma AddMissingIdempotent(m: LockMap, apps: seq<AppInfo>)
    ensures Packages(apps) <= m.Keys ==> AddMissing(m, apps) == m
    ensures AddMissing(AddMissing(m, apps), apps) == AddMissing(m, apps)
  {
  }

  /** Only entries with both a package and a name are shown. */
  predicate Shown(a: AppInfo) {
    a.applicationPackage.Some? && a.applicationName.Some?
  }

  function ItemOf(a: AppInfo, m: LockMap): AppLockItem
    requires Shown(a)
  {
    AppLockItem(a.applicationName.value, a.applicationPackage.value, LockedIn(m, a.applicationPackage.value))
  }

  /** `mapNotNull` over the catalog: one item per shown entry, in catalog
      order, locked as the map says. */
  function Items(apps: seq<AppInfo>, m: LockMap): (r: seq<AppLockItem>)
    ensures |r| <= |apps|
    ensures |r| == |Filter(apps, Shown)|
    ensures forall i :: 0 <= i < |r| ==> r[i] == ItemOf(Filter(apps, Shown)[i], m)
    ensures forall it :: it in r <==> exists a :: a in apps && Shown(a) && it == ItemOf(a, m)
    ensures forall it :: it in r ==> it.packageName in Packages(apps) && it.isLocked == LockedIn(m, it.packageName)
  {
    var r := ItemsOfShown(apps, m);
    ImageMembers(apps, m, r);
    r
  }

  /** The items of the shown entries, one by one. */
  function ItemsOfShown(apps: seq<AppInfo>, m: LockMap): (r: seq<AppLockItem>)
    ensures |r| == |Filter(apps, Shown)|
    ensures forall i :: 0 <= i < |r| ==> r[i] == ItemOf(Filter(apps, Shown)[i], m)
  {
    if apps == [] then []
    else
      var rest := ItemsOfShown(apps[1..], m);
      if Shown(apps[0]) then
        assert Filter(apps, Shown) == [apps[0]] + Filter(apps[1..], Shown);
        [ItemOf(apps[0], m)] + rest
      else
        assert Filter(apps, Shown) == Filter(apps[1..], Shown);
        rest
  }

  /** The image of the shown entries holds exactly their items. */
  lemma ImageMembers(apps: seq<AppInfo>, m: LockMap, r: seq<AppLockItem>)
    requires |r| == |Filter(apps, Shown)|
    requires forall i :: 0 <= i < |r| ==> r[i] == ItemOf(Filter(apps, Shown)[i], m)
    ensures forall it :: it in r <==> exists a :: a in apps && Shown(a) && it == ItemOf(a, m)
    ensures forall it :: it in r ==> it.packageName in Packages(apps) && it.isLocked == LockedIn(m, it.packageName)
  {
    var f := Filter(apps, Shown);
    FilterMembers(apps, Shown);
    FilterRoutes(apps, Shown);
    forall it | it in r
      ensures exists a :: a in apps && Shown(a) && it == ItemOf(a, m)
      ensures it.packageName in Packages(apps) && it.isLocked == LockedIn(m, it.packageName)
    {
      var i :| 0 <= i < |r| && r[i] == it;
      assert f[i] in f;
    }
    forall a | a in apps && Shown(a)
      ensures ItemOf(a, m) in r
    {
      assert a in f;
      var j :| 0 <= j < |f| && f[j] == a;
      assert r[j] == ItemOf(a, m);
    }
  }

  /** The sort key: the lower-cased name. */
  function NameKey(it: AppLockItem): string {
    Lowercase(it.appName)
  }

  function IsLockedItem(it: AppLockItem): bool {
    it.isLocked
  }

  function IsOpenItem(it: AppLockItem): bool {
    !it.isLocked
  }

  /** Splitting a name-sorted sequence by the lock flag leaves both parts
      sorted. */
  lemma SplitKeepsOrder(sorted: seq<AppLockItem>)
    requires SortedBy(sorted, NameKey)
    ensures SortedBy(Filter(sorted, IsLockedItem), NameKey)
    ensures SortedBy(FilterNot(sorted, IsLockedItem), NameKey)
  {
    FilterSorted(sorted, IsLockedItem, NameKey);
    FilterNotIsFilter(sorted, IsLockedItem, IsOpenItem);
    FilterSorted(sorted, IsOpenItem, NameKey);
  }

  /** Splitting a permutation of `items` by the lock flag puts every item in
      the part for its flag, and nothing else in either part. */
  lemma SplitKeepsItems(items: seq<AppLockItem>, sorted: seq<AppLockItem>)
    requires multiset(sorted) == multiset(items)
    ensures multiset(Filter(sorted, IsLockedItem)) + multiset(FilterNot(sorted, IsLockedItem)) == multiset(items)
    ensures forall it :: it in Filter(sorted, IsLockedItem) || it in FilterNot(sorted, IsLockedItem) ==> it in items
    ensures forall it :: it in items && it.isLocked ==> it in Filter(sorted, IsLockedItem)
    ensures forall it :: it in items && !it.isLocked ==> it in FilterNot(sorted, IsLockedItem)
  {
    FilterPartition(sorted, IsLockedItem);
    FilterRoutes(sorted, IsLockedItem);
    forall it | it in items
      ensures it in sorted
    {
      assert it in multiset(items);
    }
    forall it | it in Filter(sorted, IsLockedItem) || it in FilterNot(sorted, IsLockedItem)
      ensures it in items
    {
      assert it in multiset(Filter(sorted, IsLockedItem)) + multiset(FilterNot(sorted, IsLockedItem));
    }
  }

  /** Items with the same lower-case name keep their catalog order in
      each part, since the sort is stable and the split only filters. */
  lemma SplitKeepsTies(items: seq<AppLockItem>)
    ensures forall k :: Filter(Filter(SortBy(items, NameKey), IsLockedItem), KeyIs(NameKey, k))
                     == Filter(Filter(items, IsLockedItem), KeyIs(NameKey, k))
    ensures forall k :: Filter(FilterNot(SortBy(items, NameKey), IsLockedItem), KeyIs(NameKey, k))
                     == Filter(FilterNot(items, IsLockedItem), KeyIs(NameKey, k))
  {
    var sorted := SortBy(items, NameKey);
    FilterNotIsFilter(sorted, IsLockedItem, IsOpenItem);
    FilterNotIsFilter(items, IsLockedItem, IsOpenItem);
    forall k: string
      ensures Filter(Filter(sorted, IsLockedItem), KeyIs(NameKey, k)) == Filter(Filter(items, IsLockedItem), KeyIs(NameKey, k))
      ensures Filter(Filter(sorted, IsOpenItem), KeyIs(NameKey, k)) == Filter(Filter(items, IsOpenItem), KeyIs(NameKey, k))
    {
      SortByStable(items, NameKey, k);
      FilterCommutes(sorted, IsLockedItem, KeyIs(NameKey, k));
      FilterCommutes(items, IsLockedItem, KeyIs(NameKey, k));
      FilterCommutes(sorted, IsOpenItem, KeyIs(NameKey, k));
      FilterCommutes(items, IsOpenItem, KeyIs(NameKey, k));
    }
  }

  /** The loaded screen: the items sorted by name, then split by their lock
      flag.  Each list is sorted, each holds only its kind, and together
      they hold exactly the items. */
  function Screen(items: seq<AppLockItem>): (r: AppLockUiState)
    ensures !r.isLoading
    ensures SortedBy(r.locked, NameKey) && SortedBy(r.unlocked, NameKey)
    ensures forall i :: 0 <= i < |r.locked| ==> r.locked[i].isLocked
    ensures forall i :: 0 <= i < |r.unlocked| ==> !r.unlocked[i].isLocked
    ensures multiset(r.locked) + multiset(r.unlocked) == multiset(items)
    ensures forall it :: it in r.locked || it in r.unlocked ==> it in items
    ensures forall it :: it in items && it.isLocked ==> it in r.locked
    ensures forall it :: it in items && !it.isLocked ==> it in r.unlocked
    ensures forall k :: Filter(r.locked, KeyIs(NameKey, k)) == Filter(Filter(items, IsLockedItem), KeyIs(NameKey, k))
    ensures forall k :: Filter(r.unlocked, KeyIs(NameKey, k)) == Filter(FilterNot(items, IsLockedItem), KeyIs(NameKey, k))
  {
    var sorted := SortBy(items, NameKey);
    SplitKeepsOrder(sorted);
    SplitKeepsItems(items, sorted);
    SplitKeepsTies(items);
    AppLockUiState(false, Filter(sorted, IsLockedItem), FilterNot(sorted, IsLockedItem))
  }

  /** The outcome of a load: the store written, the map persisted and the
      screen shown. */
  datatype Loaded = Loaded(store: Store, persisted: LockMap, ui: AppLockUiState)

  /** The map a load persists: the stored map, or the first-run map when
      none is stored, completed with new applications as locked.  Stored
      entries are kept and every installed package gets one. */
  function Persisted(stored: Option<LockMap>, apps: seq<AppInfo>): (m: LockMap)
    ensures Packages(apps) <= m.Keys
    ensures stored.Some? ==> forall k :: k in stored.value ==> k in m && m[k] == stored.value[k]
    ensures stored.None? ==> m == FirstRunMap(apps)
  {
    var base := stored.GetOr(FirstRunMap(apps));
    AddMissingIdempotent(base, apps);
    AddMissing(base, apps)
  }

  /** `loadApplications`: with no stored map the first-run map is persisted
      first; the map is completed and persisted again, and the screen is
      built from it.  A failing read of the stored map aborts the load. */
  function LoadApplications(st: Store, apps: seq<AppInfo>): (r: Result<Loaded, PrefError>)
    ensures r.Ok? <==> GetAppList(st).Ok?
    ensures r.Ok? ==> r.value.persisted == Persisted(GetAppList(st).value, apps)
    ensures r.Ok? ==> GetAppList(r.value.store) == Ok(Some(r.value.persisted))
    ensures r.Ok? ==> forall k :: k != APP_LIST ==> Lookup(r.value.store, k) == Lookup(st, k)
    ensures r.Ok? ==> r.value.ui == Screen(Items(apps, r.value.persisted))
  {
    match GetAppList(st)
    case Err(e) => Err(e)
    case Ok(stored) =>
      var persisted := Persisted(stored, apps);
      var st1 := if stored.None? then SetAppList(st, FirstRunMap(apps)) else st;
      Ok(Loaded(SetAppList(st1, persisted), persisted, Screen(Items(apps, persisted))))
  }

  /** Every application a load shows is listed as locked exactly when the
      persisted map locks it. */
  lemma LoadedListsAgree(st: Store, apps: seq<AppInfo>)
    requires LoadApplications(st, apps).Ok?
    ensures var l := LoadApplications(st, apps).value;
      forall it :: it in l.ui.locked || it in l.ui.unlocked ==>
        it.packageName in l.persisted && it.isLocked == l.persisted[it.packageName]
  {
  }

  /** Loading again straight after a load persists the same map and shows
      the same screen. */
  lemma LoadIdempotent(st: Store, apps: seq<AppInfo>)
    requires LoadApplications(st, apps).Ok?
    ensures LoadApplications(LoadApplications(st, apps).value.store, apps) == LoadApplications(st, apps)
  {
    var l := LoadApplications(st, apps).value;
    AddMissingIdempotent(l.persisted, apps);
    assert l.store.entries[APP_LIST := StrV(AppListJson(l.persisted))] == l.store.entries;
  }

  /** `toggleLock`: the item's entry becomes the opposite of the flag it was
      shown with (the stored map, or an empty one, is updated), and the
      screen loads again. */
  function ToggleLock(st: Store, apps: seq<AppInfo>, item: AppLockItem): (r: Result<Loaded, PrefError>)
    ensures r.Ok? <==> GetAppList(st).Ok?
    ensures r.Ok? ==> item.packageName in r.value.persisted && r.value.persisted[item.packageName] == !item.isLocked
    ensures r.Ok? && GetAppList(st).value.Some? ==>
      forall k :: k in GetAppList(st).value.value && k != item.packageName ==>
        k in r.value.persisted && r.value.persisted[k] == GetAppList(st).value.value[k]
  {
    match GetAppList(st)
    case Err(e) => Err(e)
    case Ok(stored) =>
      var m := stored.GetOr(map[]);
      var st1 := SetAppList(st, m[item.packageName := !item.isLocked]);
      AppListRoundTrip(st, m[item.packageName := !item.isLocked]);
      LoadApplications(st1, apps)
  }

  /** After a toggle, the application shows in the other list: locked when
      it had been shown unlocked and the other way round. */
  lemma ToggleMovesItem(st: Store, apps: seq<AppInfo>, item: AppLockItem, a: AppInfo)
    requires GetAppList(st).Ok?
    requires a in apps && Shown(a) && a.applicationPackage.value == item.packageName
    ensures ToggleLock(st, apps, item).Ok?
    ensures var ui := ToggleLock(st, apps, item).value.ui;
            var moved := AppLockItem(a.applicationName.value, item.packageName, !item.isLocked);
            if item.isLocked then moved in ui.unlocked else moved in ui.locked
  {
    var l := ToggleLock(st, apps, item).value;
    assert ItemOf(a, l.persisted) in Items(apps, l.persisted);
  }
}

=== FILE: boot.dfy ===
/** The boot receiver: after a reboot a timer that still has time left is
    restarted, rounded up to whole minutes, and the blocking service comes
    back; a timer whose time ran out while the phone was off is cleared;
    study mode brings the blocking service back on its own. */
module Boot {
  import opened Wrappers
  import opened Numeric
  import opened Focus
  import Timer

  const ACTION_BOOT_COMPLETED: string := "android.intent.action.BOOT_COMPLETED"

  /** A service the receiver starts. */
  datatype Effect = StartTimerService(minutes: Int32) | StartBlockService

  datatype BootOutcome = BootOutcome(timer: TimerFields, effects: seq<Effect>)

  /** `(remainingTime / 60000).toInt() + 1`: the minutes the restarted timer
      runs, with `Int` wrap-around on both the narrowing and the addition. */
  function RestartMinutes(remaining: Int64): (m: Int32)
    requires remaining > 0
    ensures remaining / 60000 < INT_MAX ==> m == remaining / 60000 + 1
    ensures remaining / 60000 < INT_MAX ==> (m - 1) * 60000 <= remaining < m * 60000
  {
    ToInt(ToInt(Quot(remaining, 60000)) + 1)
  }

  /** `onReceive`. */
  function OnReceive(action: string, s: FocusState, remaining: Int64): (r: BootOutcome)
    ensures action != ACTION_BOOT_COMPLETED ==> r == BootOutcome(s.timer, [])
    ensures action == ACTION_BOOT_COMPLETED && s.timer.active && remaining > 0 ==>
      r.timer == s.timer && |r.effects| >= 2
      && r.effects[0] == StartTimerService(RestartMinutes(remaining)) && r.effects[1] == StartBlockService
    ensures action == ACTION_BOOT_COMPLETED && s.timer.active && remaining <= 0 ==>
      r.timer == s.timer.(active := false, blockingEnabled := false)
    ensures !s.timer.active ==> r.timer == s.timer
    ensures StartBlockService in r.effects <==>
      action == ACTION_BOOT_COMPLETED && (s.studyMode || (s.timer.active && remaining > 0))
    ensures forall e :: e in r.effects && e.StartTimerService? ==> s.timer.active && remaining > 0
  {
    if action != ACTION_BOOT_COMPLETED then BootOutcome(s.timer, [])
    else
      var timerPart :=
        if !s.timer.active then BootOutcome(s.timer, [])
        else if remaining > 0 then BootOutcome(s.timer, [StartTimerService(RestartMinutes(remaining)), StartBlockService])
        else BootOutcome(s.timer.(active := false, blockingEnabled := false), []);
      BootOutcome(timerPart.timer, timerPart.effects + if s.studyMode then [StartBlockService] else [])
  }

  /** Handling a second boot broadcast with the same time left changes the
      persisted timer no further. */
  lemma OnReceiveSettles(action: string, s: FocusState, remaining: Int64)
    ensures var once := OnReceive(action, s, remaining).timer;
      OnReceive(action, s.(timer := once), remaining).timer == once
  {
  }

  /** The timer the receiver restarts blocks for at least as long as was
      left before the reboot, as long as the minute count fits in an `Int`. */
  lemma RestartCoversRemaining(s: FocusState, remaining: Int64, svc: Timer.Service, nowMs: Int64)
    requires s.timer.active && remaining > 0 && remaining / 60000 < INT_MAX
    ensures var e := OnReceive(ACTION_BOOT_COMPLETED, s, remaining).effects[0];
      var t := Timer.OnStartCommandAsWritten(svc, Timer.StartCommand(Some(e.minutes)), nowMs).service.fields;
      t.active && t.blockingEnabled && t.startTimeMs == nowMs && t.durationMinutes * 60000 > remaining
  {
  }
}

=== FILE: focus.dfy ===
/** The focus state every component reads: the persisted timer fields, the
    study-mode flag and the package→locked map, and the one rule that turns
    them into "block this application now". */
module Focus {
  import opened Wrappers
  import opened Numeric
  import opened Prefs
  import opened PrefData

  /** The persisted focus-timer fields (their accessors live with the
      preferences helper). */
  datatype TimerFields = TimerFields(durationMinutes: Int32, startTimeMs: Int64, active: bool, blockingEnabled: bool)

  /** No timer has ever run. */
  const IDLE_TIMER: TimerFields := TimerFields(0, 0, false, false)

  datatype FocusState = FocusState(timer: TimerFields, studyMode: bool, appList: Option<LockMap>)

  /** The timer blocks while it is enabled for blocking, active, and has
      time left.  `remaining` is the milliseconds-left figure read from the
      preferences at the same moment. */
  predicate TimerBlocking(t: TimerFields, remaining: int) {
    t.blockingEnabled && t.active && remaining > 0
  }

  /** Blocking is in force in study mode or while the timer blocks. */
  predicate ShouldBlockApps(s: FocusState, remaining: int) {
    s.studyMode || TimerBlocking(s.timer, remaining)
  }

  /** `appList?.get(pkg) == true`: a missing map or a missing key is "not
      locked". */
  predicate IsLocked(list: Option<LockMap>, pkg: string) {
    list.Some? && pkg in list.value && list.value[pkg]
  }

  /** The package in the foreground must be covered. */
  predicate ShouldBlockApp(s: FocusState, remaining: int, pkg: string) {
    ShouldBlockApps(s, remaining) && pkg != "" && IsLocked(s.appList, pkg)
  }

  /** Reads the focus state from the store: the app list and the study-mode
      flag, either of which may throw. */
  function ReadFocus(st: Store, t: TimerFields): (r: Result<FocusState, PrefError>)
    ensures r.Ok? <==> GetAppList(st).Ok? && IsStudyMode(st).Ok?
    ensures r.Ok? ==> r.value == FocusState(t, IsStudyMode(st).value, GetAppList(st).value)
  {
    match GetAppList(st)
    case Err(e) => Err(e)
    case Ok(list) =>
      match IsStudyMode(st)
      case Err(e) => Err(e)
      case Ok(study) => Ok(FocusState(t, study, list))
  }

  /** With no timer running and study mode off, and with no app list
      stored, no application is ever blocked. */
  lemma FreshStoreBlocksNothing(t: TimerFields, remaining: int, pkg: string)
    ensures ReadFocus(EMPTY, t).Ok?
    ensures !ShouldBlockApp(ReadFocus(EMPTY, t).value, remaining, pkg)
  {
  }
}

=== FILE: home.dfy ===
/** The home screen's view model (`HomeViewModel`): a snapshot of the focus
    state for display, a once-a-second ticker that runs while the timer has
    time left, and the timer commands the screen's buttons send. */
module Home {
  import opened Wrappers
  import opened Numeric
  import opened Text
  import opened Prefs
  import opened PrefData
  import opened Focus
  import opened LockCounts
  import Timer

  datatype HomeUiState = HomeUiState(isTimerActive: bool, remainingTimeMillis: Int64, isBlocking: bool,
                                     isStudyMode: bool, lockedApps: nat, unlockedApps: nat)

  const DEFAULT_UI: HomeUiState := HomeUiState(false, 0, false, false, 0, 0)

  /** The view model: the duration chosen on screen, the published state,
      and whether the ticker job is running. */
  datatype HomeModel = HomeModel(selectedDuration: Int32, ui: HomeUiState, tickerRunning: bool)

  const INITIAL_DURATION: Int32 := 30
  const EXTEND_MINUTES: Int32 := 15

  /** The view model before its first refresh. */
  const INITIAL: HomeModel := HomeModel(INITIAL_DURATION, DEFAULT_UI, false)

  /** The screen's notion of a running timer: active with time left.  It
      does not look at the blocking flag. */
  predicate ScreenTimerActive(t: TimerFields, remaining: int) {
    t.active && remaining > 0
  }

  /** `updateUiState`: a fresh snapshot, then the ticker started while the
      timer runs and stopped otherwise. */
  function UpdateUiState(h: HomeModel, s: FocusState, remaining: Int64): (r: HomeModel)
    ensures r.ui.isTimerActive <==> ScreenTimerActive(s.timer, remaining)
    ensures r.ui.isBlocking <==> s.studyMode || ScreenTimerActive(s.timer, remaining)
    ensures r.ui.isStudyMode == s.studyMode && r.ui.remainingTimeMillis == remaining
    ensures s.appList.None? ==> r.ui.lockedApps == 0 && r.ui.unlockedApps == 0
    ensures s.appList.Some? ==>
      r.ui.lockedApps == |LockedKeys(s.appList.value)| && r.ui.lockedApps + r.ui.unlockedApps == |s.appList.value|
    ensures r.tickerRunning <==> r.ui.isTimerActive
    ensures r.selectedDuration == h.selectedDuration
  {
    var active := ScreenTimerActive(s.timer, remaining);
    var (locked, unlocked) := (match s.appList
      case None => (0, 0)
      case Some(m) => KeysPartition(m); (|LockedKeys(m)|, |OpenKeys(m)|));
    HomeModel(h.selectedDuration, HomeUiState(active, remaining, s.studyMode || active, s.studyMode, locked, unlocked), active)
  }

  /** One run of the ticker loop: the timer fields of the published state
      are refreshed, the rest is kept; the ticker stops once the timer has
      no time left. */
  function TickerStep(h: HomeModel, s: FocusState, remaining: Int64): (r: HomeModel)
    requires h.tickerRunning
    ensures r.ui.isTimerActive <==> ScreenTimerActive(s.timer, remaining)
    ensures r.ui.isBlocking <==> s.studyMode || ScreenTimerActive(s.timer, remaining)
    ensures r.ui.remainingTimeMillis == remaining
    ensures r.ui.isStudyMode == h.ui.isStudyMode
    ensures r.ui.lockedApps == h.ui.lockedApps && r.ui.unlockedApps == h.ui.unlockedApps
    ensures r.tickerRunning <==> r.ui.isTimerActive
    ensures r.selectedDuration == h.selectedDuration
  {
    var active := ScreenTimerActive(s.timer, remaining);
    h.(ui := h.ui.(isTimerActive := active, remainingTimeMillis := remaining, isBlocking := s.studyMode || active),
       tickerRunning := active)
  }

  /** `updateSelectedDuration`. */
  function UpdateSelectedDuration(h: HomeModel, minutes: Int32): (r: HomeModel)
    ensures r.selectedDuration == minutes && r.ui == h.ui && r.tickerRunning == h.tickerRunning
  {
    h.(selectedDuration := minutes)
  }

  /** What the start button sends: the timer command, and whether the
      block service is started too (`ensureAppBlockServiceRunning`). */
  datatype StartRequest = StartRequest(command: Timer.Command, startBlockService: bool)

  /** `startFocusTimer`: start the timer for the chosen duration and make
      sure the block service runs, starting it unless it already does. */
  function StartFocusTimer(h: HomeModel, blockServiceRunning: bool): (r: StartRequest)
    ensures r.command.StartCommand? && r.command.duration == Some(h.selectedDuration)
    ensures r.startBlockService <==> !blockServiceRunning
  {
    StartRequest(Timer.StartCommand(Some(h.selectedDuration)), !blockServiceRunning)
  }

  /** The timer service, sent the start command, runs an active, blocking
      timer for the duration chosen on the screen, from now. */
  lemma StartRunsChosenDuration(h: HomeModel, running: bool, s: Timer.Service, nowMs: Int64)
    ensures var r := Timer.OnStartCommandAsWritten(s, StartFocusTimer(h, running).command, nowMs);
      r.service.fields == TimerFields(h.selectedDuration, nowMs, true, true)
      && r.broadcasts == [Timer.TimerStarted]
  {
  }

  /** A session started from the home screen is enforced without study
      mode: afterwards the block service runs, having been started if it
      did not, and while time is left it blocks exactly the locked
      packages. */
  lemma StartedSessionBlocks(h: HomeModel, running: bool, s: Timer.Service, nowMs: Int64,
                             st: Store, remaining: int, pkg: string)
    requires GetAppList(st).Ok? && IsStudyMode(st).Ok? && remaining > 0
    ensures running || StartFocusTimer(h, running).startBlockService
    ensures var t := Timer.OnStartCommandAsWritten(s, StartFocusTimer(h, running).command, nowMs).service.fields;
      ReadFocus(st, t).Ok?
      && (ShouldBlockApp(ReadFocus(st, t).value, remaining, pkg) <==> pkg != "" && IsLocked(GetAppList(st).value, pkg))
  {
  }

  /** The store after `toggleStudyMode`, and whether it starts the block
      service. */
  datatype StudyToggle = StudyToggle(store: Store, startBlockService: bool)

  /** `toggleStudyMode`: the flag is stored, and switching it on starts the
      block service unless that already runs (`ensureAppBlockServiceRunning`). */
  function ToggleStudyMode(st: Store, enabled: bool, blockServiceRunning: bool): (r: StudyToggle)
    ensures IsStudyMode(r.store) == Ok(enabled)
    ensures GetAppList(r.store) == GetAppList(st)
    ensures r.startBlockService <==> enabled && !blockServiceRunning
  {
    StudyToggle(SetStudyMode(st, enabled), enabled && !blockServiceRunning)
  }

  /** Once study mode is switched on, every locked package is blocked,
      whatever the timer; switched off, only the timer can block. */
  lemma StudyToggleDecidesBlocking(st: Store, enabled: bool, running: bool, t: TimerFields, remaining: int, pkg: string)
    requires GetAppList(st).Ok?
    ensures var f := ReadFocus(ToggleStudyMode(st, enabled, running).store, t);
      f.Ok?
      && (enabled ==> (ShouldBlockApp(f.value, remaining, pkg) <==> pkg != "" && IsLocked(GetAppList(st).value, pkg)))
      && (!enabled ==> (ShouldBlockApp(f.value, remaining, pkg) <==> TimerBlocking(t, remaining) && pkg != "" && IsLocked(GetAppList(st).value, pkg)))
  {
  }

  const STOP_FOCUS_TIMER: Timer.Command := Timer.StopCommand
  const EXTEND_FOCUS_TIMER: Timer.Command := Timer.ExtendCommand(Some(EXTEND_MINUTES))

  /** STOP ends timer blocking whatever time is left; EXTEND lengthens a
      running timer by fifteen minutes and leaves its blocking as it was. */
  lemma StopAndExtendButtons(s: Timer.Service, nowMs: Int64, remaining: int)
    ensures !TimerBlocking(Timer.OnStartCommandAsWritten(s, STOP_FOCUS_TIMER, nowMs).service.fields, remaining)
    ensures var e := Timer.OnStartCommandAsWritten(s, EXTEND_FOCUS_TIMER, nowMs).service.fields;
      (TimerBlocking(e, remaining) <==> TimerBlocking(s.fields, remaining))
      && (s.fields.active ==> e.durationMinutes == ToInt(s.fields.durationMinutes + 15))
  {
  }

  /** Whole seconds left, never negative. */
  function TotalSeconds(ui: HomeUiState): (n: nat)
    ensures ui.remainingTimeMillis >= 0 ==> n * 1000 <= ui.remainingTimeMillis < n * 1000 + 1000
    ensures ui.remainingTimeMillis < 1000 ==> n == 0
  {
    Max(0, Quot(ui.remainingTimeMillis, 1000))
  }

  /** `timerDisplay`: `MM:SS` of the whole seconds left, minutes unbounded. */
  function TimerDisplay(ui: HomeUiState): (text: string)
    ensures |Split(text, ':')| == 2
    ensures AllDigits(Split(text, ':')[0]) && AllDigits(Split(text, ':')[1])
    ensures NumeralValue(Split(text, ':')[1]) < 60
    ensures |Split(text, ':')[0]| >= 2 && |Split(text, ':')[1]| == 2
    ensures |Split(text, ':')[0]| == 2 || Split(text, ':')[0][0] != '0'
    ensures NumeralValue(Split(text, ':')[0]) * 60 + NumeralValue(Split(text, ':')[1]) == TotalSeconds(ui)
  {
    var total := TotalSeconds(ui);
    ClockTextRoundTrip(total / 60, total % 60);
    ClockText(total / 60, total % 60)
  }

  const TIMER_ACTIVE_LABEL: string := "Timer Active"
  const STUDY_MODE_LABEL: string := "Study Mode Active"
  const INACTIVE_LABEL: string := "Inactive"

  /** `blockingStatusLabel`: the timer takes precedence over study mode. */
  function BlockingStatusLabel(ui: HomeUiState): (shown: string)
    ensures shown == TIMER_ACTIVE_LABEL <==> ui.isTimerActive
    ensures shown == STUDY_MODE_LABEL <==> !ui.isTimerActive && ui.isStudyMode
    ensures shown == INACTIVE_LABEL <==> !ui.isTimerActive && !ui.isStudyMode
  {
    if ui.isTimerActive then TIMER_ACTIVE_LABEL
    else if ui.isStudyMode then STUDY_MODE_LABEL
    else INACTIVE_LABEL
  }

  /** After a refresh the label says "Inactive" exactly when the screen
      shows no blocking, and a ticker started by a refresh keeps the
      label's precedence on every tick. */
  lemma LabelMatchesBlocking(h: HomeModel, s: FocusState, remaining: Int64, later: Int64)
    ensures var r := UpdateUiState(h, s, remaining);
      (BlockingStatusLabel(r.ui) == INACTIVE_LABEL <==> !r.ui.isBlocking)
      && (r.tickerRunning ==> (BlockingStatusLabel(TickerStep(r, s, later).ui) == INACTIVE_LABEL <==> !TickerStep(r, s, later).ui.isBlocking))
  {
  }

  /** The screen reports blocking exactly as the blocking services decide
      it whenever the timer's blocking flag is set; with the flag clear it
      can report a timer that blocks nothing. */
  lemma ScreenAgreesWithServices(h: HomeModel, s: FocusState, remaining: Int64)
    ensures s.timer.blockingEnabled ==> (UpdateUiState(h, s, remaining).ui.isBlocking <==> ShouldBlockApps(s, remaining))
    ensures UpdateUiState(h, s, remaining).ui.isBlocking != ShouldBlockApps(s, remaining) <==>
      !s.studyMode && s.timer.active && remaining > 0 && !s.timer.blockingEnabled
  {
  }
}

=== FILE: lock_counts.dfy ===
/** Counting the entries of a package→locked map by value, as the home
    screen's summary and the app-list tab titles do. */
module LockCounts {
  import opened Wrappers
  import opened PrefData

  /** The packages marked locked. */
  function LockedKeys(m: LockMap): (r: set<string>)
    ensures forall k :: k in r <==> k in m && m[k]
  {
    set k | k in m && m[k]
  }

  /** The packages marked open. */
  function OpenKeys(m: LockMap): (r: set<string>)
    ensures forall k :: k in r <==> k in m && !m[k]
  {
    set k | k in m && !m[k]
  }

  /** Every package is exactly one of locked and open. */
  lemma KeysPartition(m: LockMap)
    ensures LockedKeys(m) + OpenKeys(m) == m.Keys
    ensures LockedKeys(m) !! OpenKeys(m)
    ensures |LockedKeys(m)| + |OpenKeys(m)| == |m|
  {
    assert LockedKeys(m) + OpenKeys(m) == m.Keys;
    assert |m.Keys| == |m|;
  }

  /** Taking one more key off the unvisited ones adds it to the count of
      the set holding it. */
  lemma SetStep(keys: set<string>, rest: set<string>, k: string)
    requires k in rest
    ensures |keys - (rest - {k})| == |keys - rest| + if k in keys then 1 else 0
  {
    if k in keys {
      assert keys - (rest - {k}) == (keys - rest) + {k};
    } else {
      assert keys - (rest - {k}) == keys - rest;
    }
  }

  /** Visiting one more package adds one to the counter its value names. */
  lemma CountStep(m: LockMap, rest: set<string>, k: string)
    requires k in rest && rest <= m.Keys
    ensures |LockedKeys(m) - (rest - {k})| == |LockedKeys(m) - rest| + (if m[k] then 1 else 0)
    ensures |OpenKeys(m) - (rest - {k})| == |OpenKeys(m) - rest| + (if m[k] then 0 else 1)
  {
    SetStep(LockedKeys(m), rest, k);
    SetStep(OpenKeys(m), rest, k);
  }

  /** Once every package is visited the counters hold the two set sizes. */
  lemma CountDone(m: LockMap)
    ensures |LockedKeys(m) - {}| == |LockedKeys(m)| && |OpenKeys(m) - {}| == |OpenKeys(m)|
    ensures |LockedKeys(m)| + |OpenKeys(m)| == |m|
  {
    assert LockedKeys(m) - {} == LockedKeys(m);
    assert OpenKeys(m) - {} == OpenKeys(m);
    KeysPartition(m);
  }

  /** The loop over the map's values: one counter for `true`, one for
      `false`. */
  method CountValues(m: LockMap) returns (locked: nat, open: nat)
    ensures locked == |LockedKeys(m)| && open == |OpenKeys(m)|
    ensures locked + open == |m|
  {
    locked, open := 0, 0;
    var rest := m.Keys;
    while rest != {}
      invariant rest <= m.Keys
      invariant locked == |LockedKeys(m) - rest|
      invariant open == |OpenKeys(m) - rest|
      decreases |rest|
    {
      var k :| k in rest;
      CountStep(m, rest, k);
      if m[k] {
        locked := locked + 1;
      } else {
        open := open + 1;
      }
      rest := rest - {k};
    }
    CountDone(m);
  }

  /** The open and locked counts shown in the two tab titles. */
  datatype TabCounts = TabCounts(open: nat, locked: nat)

  /** `updateTabAppCount`: with a stored map the titles show its false and
      true entries; with none they keep what they showed. */
  method UpdateTabAppCount(shown: TabCounts, appList: Option<LockMap>) returns (r: TabCounts)
    ensures appList.None? ==> r == shown
    ensures appList.Some? ==> r.open == |OpenKeys(appList.value)| && r.locked == |LockedKeys(appList.value)|
    ensures appList.Some? ==> r.open + r.locked == |appList.value|
  {
    match appList
    case None => r := shown;
    case Some(m) =>
      var locked, open := CountValues(m);
      r := TabCounts(open, locked);
  }
}

=== FILE: main_screen.dfy ===
/** The legacy main screen (`MainActivity`): duration buttons, the timer
    text, the blocking-status line, and how timer broadcasts and a
    once-a-second loop refresh them. */
module MainScreen {
  import opened Wrappers
  import opened Numeric
  import opened Text
  import opened Focus
  import Timer
  import Home

  const DURATION_CHOICES: seq<Int32> := [30, 60, 90, 120]
  const DEFAULT_DURATION: Int32 := 30
  const EXTEND_MINUTES: Int32 := 15
  const IDLE_TEXT: string := "00:00"

  /** What the screen shows: the chosen duration with its highlighted
      button, the timer text, whether the running-timer controls are shown
      instead of the duration picker, and the status line. */
  datatype MainView = MainView(selectedDuration: Int32, highlighted: seq<bool>, timerText: string,
                               activeControls: bool, status: string)

  /** `updateTimerDurationButtons`: exactly the buttons whose duration is
      the chosen one are highlighted. */
  function SelectDuration(v: MainView, minutes: Int32): (r: MainView)
    ensures r.selectedDuration == minutes
    ensures |r.highlighted| == |DURATION_CHOICES|
    ensures forall i :: 0 <= i < |DURATION_CHOICES| ==> (r.highlighted[i] <==> DURATION_CHOICES[i] == minutes)
    ensures r.timerText == v.timerText && r.status == v.status && r.activeControls == v.activeControls
  {
    v.(selectedDuration := minutes, highlighted := seq(|DURATION_CHOICES|, i requires 0 <= i < |DURATION_CHOICES| => DURATION_CHOICES[i] == minutes))
  }

  /** Choosing one of the four offered durations highlights exactly one
      button. */
  lemma OneButtonHighlighted(v: MainView, i: nat)
    requires i < |DURATION_CHOICES|
    ensures var r := SelectDuration(v, DURATION_CHOICES[i]);
      r.highlighted[i] && forall j :: 0 <= j < |DURATION_CHOICES| && j != i ==> !r.highlighted[j]
  {
  }

  /** The screen as the views are initialised. */
  function Initial(): (v: MainView)
    ensures v.selectedDuration == DEFAULT_DURATION && v.highlighted == [true, false, false, false]
  {
    var v := SelectDuration(MainView(0, [], "", false, ""), DEFAULT_DURATION);
    assert v.highlighted == [true, false, false, false];
    v
  }

  /** The commands the buttons send. */
  function StartRequest(v: MainView): Timer.Command {
    Timer.StartCommand(Some(v.selectedDuration))
  }

  /** START runs an active, blocking timer for the highlighted duration,
      from now; the service as written adds a countdown to those already
      alive, so a START while one runs leaves it orphaned. */
  lemma StartRequestRunsSelection(v: MainView, s: Timer.Service, nowMs: Int64)
    ensures var r := Timer.OnStartCommandAsWritten(s, StartRequest(v), nowMs);
      r.service.fields == TimerFields(v.selectedDuration, nowMs, true, true)
      && r.broadcasts == [Timer.TimerStarted]
      && r.service.countdowns.tracked
      && Timer.Live(r.service.countdowns) == Timer.Live(s.countdowns) + 1
      && (s.countdowns.tracked ==> r.service.countdowns.orphans == s.countdowns.orphans + 1)
  {
  }

  const EXTEND_REQUEST: Timer.Command := Timer.ExtendCommand(Some(EXTEND_MINUTES))

  /** The extend button always asks for fifteen more minutes: a running
      timer's duration grows by exactly that (with `Int` wrap-around) and
      nothing else changes; an idle timer is left alone. */
  lemma ExtendRequestAddsFifteen(s: Timer.Service, nowMs: Int64)
    ensures var r := Timer.OnStartCommandAsWritten(s, EXTEND_REQUEST, nowMs);
      && (s.fields.active ==> r.service == s.(fields := s.fields.(durationMinutes := ToInt(s.fields.durationMinutes + 15))))
      && (s.fields.active ==> r.broadcasts == [Timer.TimerExtended])
      && (!s.fields.active ==> r == Timer.Step(s, []))
  {
  }

  /** `updateTimerDisplay`: minutes and seconds truncated and narrowed to
      `Int`, with no clamping. */
  function DisplayText(remaining: Int64): (text: string)
    ensures 0 <= remaining && remaining / 60000 <= INT_MAX ==>
      text == ClockText(remaining / 60000, (remaining % 60000) / 1000)
  {
    var shown := ClockText(ToInt(Quot(remaining, 60000)), ToInt(Quot(Rem(remaining, 60000), 1000)));
    if 0 <= remaining then
      QuotRemNonNegative(remaining, 60000);
      QuotRemNonNegative(remaining % 60000, 1000);
      shown
    else shown
  }

  /** `updateTimerUI`: the running-timer controls and the time left while
      the timer is active, the picker and `00:00` otherwise. */
  function UpdateTimerUI(v: MainView, active: bool, remaining: Int64): (r: MainView)
    ensures r.activeControls == active
    ensures r.timerText == if active then DisplayText(remaining) else IDLE_TEXT
    ensures r.status == v.status && r.selectedDuration == v.selectedDuration
  {
    v.(activeControls := active, timerText := if active then DisplayText(remaining) else IDLE_TEXT)
  }

  /** `updateBlockingStatus`: unlike the home screen this one requires the
      timer's blocking flag. */
  function StatusLabel(s: FocusState, remaining: Int64): (shown: string)
    ensures shown == Home.TIMER_ACTIVE_LABEL <==> TimerBlocking(s.timer, remaining)
    ensures shown == Home.STUDY_MODE_LABEL <==> !TimerBlocking(s.timer, remaining) && s.studyMode
    ensures shown == Home.INACTIVE_LABEL <==> !ShouldBlockApps(s, remaining)
  {
    if ShouldBlockApps(s, remaining) then
      if TimerBlocking(s.timer, remaining) then Home.TIMER_ACTIVE_LABEL else Home.STUDY_MODE_LABEL
    else Home.INACTIVE_LABEL
  }

  /** The timer-update receiver: a start, stop or completion redraws the
      timer part, a time-left update redraws the text; the status line is
      redrawn after every broadcast. */
  function OnTimerBroadcast(v: MainView, b: Timer.Broadcast, s: FocusState, remaining: Int64): (r: MainView)
    ensures r.status == StatusLabel(s, remaining)
    ensures (b.TimerStarted? || b.TimerStopped? || b.TimerCompleted?) ==> r.activeControls == s.timer.active
    ensures b.RemainingTime? ==> r.timerText == DisplayText(remaining) && r.activeControls == v.activeControls
    ensures b.TimerExtended? ==> r == v.(status := r.status)
    ensures r.selectedDuration == v.selectedDuration
  {
    var redrawn := match b
      case TimerStarted | TimerStopped | TimerCompleted => UpdateTimerUI(v, s.timer.active, remaining)
      case RemainingTime(_) => v.(timerText := DisplayText(remaining))
      case TimerExtended => v;
    redrawn.(status := StatusLabel(s, remaining))
  }

  /** One run of the once-a-second update loop: only an active timer
      redraws anything. */
  function LoopTick(v: MainView, s: FocusState, remaining: Int64): (r: MainView)
    ensures !s.timer.active ==> r == v
    ensures s.timer.active ==> r.timerText == DisplayText(remaining) && r.status == StatusLabel(s, remaining)
  {
    if s.timer.active then v.(timerText := DisplayText(remaining), status := StatusLabel(s, remaining)) else v
  }

  /** The two screens show the same time while the timer runs, as long as
      the minute count fits in an `Int`. */
  lemma ScreensShowSameTime(h: Home.HomeModel, s: FocusState, remaining: Int64)
    requires 0 <= remaining && remaining / 60000 <= INT_MAX
    ensures DisplayText(remaining) == Home.TimerDisplay(Home.UpdateUiState(h, s, remaining).ui)
  {
    var total := remaining / 1000;
    assert Home.TotalSeconds(Home.UpdateUiState(h, s, remaining).ui) == total;
    assert total / 60 == remaining / 60000;
    assert total % 60 == (remaining % 60000) / 1000;
  }

  /** Up to a minute past due with the timer still marked active, this
      screen writes the whole seconds overdue as a negative seconds field,
      while the home screen shows zero; under one second overdue both show
      `00:00`. */
  lemma OverdueDisplay(h: Home.HomeModel, s: FocusState, remaining: Int64)
    requires -60000 < remaining < 0
    ensures remaining <= -1000 ==> DisplayText(remaining) == "00:-" + Digits(-remaining / 1000)
    ensures -1000 < remaining ==> DisplayText(remaining) == IDLE_TEXT
    ensures Home.TimerDisplay(Home.UpdateUiState(h, s, remaining).ui) == IDLE_TEXT
    ensures DisplayText(remaining) == Home.TimerDisplay(Home.UpdateUiState(h, s, remaining).ui) <==> -1000 < remaining
  {
    OverdueSeconds(remaining);
    var ui := Home.UpdateUiState(h, s, remaining).ui;
    assert ui.remainingTimeMillis == remaining;
    NoSecondsShowIdle(ui);
  }

  /** Less than a minute overdue, the minutes field is `00` and the seconds
      field is minus the whole seconds overdue, unpadded. */
  lemma OverdueSeconds(remaining: Int64)
    requires -60000 < remaining < 0
    ensures remaining <= -1000 ==> DisplayText(remaining) == "00:-" + Digits(-remaining / 1000)
    ensures -1000 < remaining ==> DisplayText(remaining) == IDLE_TEXT
    ensures remaining <= -1000 ==> DisplayText(remaining)[3] == '-'
  {
    var k := -remaining / 1000;
    assert Quot(remaining, 60000) == 0;
    assert Rem(remaining, 60000) == remaining;
    assert Quot(remaining, 1000) == -k;
    assert 0 <= k < 60;
    assert DisplayText(remaining) == ClockText(0, -k);
    assert Format02(0) == "00";
    if k > 0 {
      assert Format02(-k) == "-" + Digits(k);
    }
  }

  /** The home screen shows `00:00` once no whole second is left. */
  lemma NoSecondsShowIdle(ui: Home.HomeUiState)
    requires ui.remainingTimeMillis < 1000
    ensures Home.TimerDisplay(ui) == IDLE_TEXT
  {
    assert Home.TotalSeconds(ui) == 0;
    assert Format02(0) == "00";
  }

  /** Five seconds past due, this screen's text shows minus five seconds. */
  lemma OverdueText()
    ensures DisplayText(-5000) == "00:-5"
  {
    assert Quot(-5000, 60000) == 0 && Rem(-5000, 60000) == -5000 && Quot(-5000, 1000) == -5;
    assert Format02(0) == "00" && Format02(-5) == "-5";
  }

  /** The two status lines differ exactly when the timer runs with its
      blocking flag clear. */
  lemma StatusLinesDiffer(h: Home.HomeModel, s: FocusState, remaining: Int64)
    ensures Home.BlockingStatusLabel(Home.UpdateUiState(h, s, remaining).ui) != StatusLabel(s, remaining) <==>
      s.timer.active && remaining > 0 && !s.timer.blockingEnabled
  {
  }
}

=== FILE: notifications.dfy ===
/** The notification listener: a notification posted by a locked
    application is cancelled while blocking is in force.  The current
    listener reads the state inside a try and lets everything through when a
    read throws; the legacy listener consults study mode only and lets a
    failed read escape. */
module Notifications {
  import opened Wrappers
  import opened Numeric
  import opened Prefs
  import opened PrefData
  import opened Focus

  /** `onNotificationPosted` of the current listener: cancel the
      notification of `pkg`? */
  function ShouldCancel(st: Store, t: TimerFields, remaining: Int64, pkg: string): (cancel: bool)
    ensures cancel ==> GetAppList(st).Ok? && IsStudyMode(st).Ok?
    ensures cancel ==> ShouldBlockApps(ReadFocus(st, t).value, remaining)
    ensures cancel ==> GetAppList(st).value.Some? && pkg in GetAppList(st).value.value && GetAppList(st).value.value[pkg]
  {
    match ReadFocus(st, t)
    case Err(_) => false
    case Ok(focus) => ShouldBlockApps(focus, remaining) && IsLocked(focus.appList, pkg)
  }

  /** `onNotificationPosted` of the legacy listener: only study mode counts;
      a read that throws is not caught. */
  function LegacyShouldCancel(st: Store, pkg: string): (r: Result<bool, PrefError>)
    ensures r.Err? <==> GetAppList(st).Err? || IsStudyMode(st).Err?
    ensures r.Ok? ==> (r.value <==> IsStudyMode(st).value && IsLocked(GetAppList(st).value, pkg))
  {
    match GetAppList(st)
    case Err(e) => Err(e)
    case Ok(list) =>
      match IsStudyMode(st)
      case Err(e) => Err(e)
      case Ok(study) => Ok(study && list.Some? && pkg in list.value && list.value[pkg])
  }

  /** The current listener cancels exactly the notifications of the
      packages the overlay controller would cover, and fails open. */
  lemma CancelMatchesOverlayRule(st: Store, t: TimerFields, remaining: Int64, pkg: string)
    requires pkg != ""
    ensures ShouldCancel(st, t, remaining, pkg) <==> ReadFocus(st, t).Ok? && ShouldBlockApp(ReadFocus(st, t).value, remaining, pkg)
    ensures ReadFocus(st, t).Err? ==> !ShouldCancel(st, t, remaining, pkg)
  {
  }

  /** When both listeners read the store successfully they disagree exactly
      when the timer alone blocks a locked package: the legacy listener
      lets its notifications through. */
  lemma ListenersDiffer(st: Store, t: TimerFields, remaining: Int64, pkg: string)
    requires ReadFocus(st, t).Ok?
    ensures LegacyShouldCancel(st, pkg).Ok?
    ensures LegacyShouldCancel(st, pkg).value ==> ShouldCancel(st, t, remaining, pkg)
    ensures ShouldCancel(st, t, remaining, pkg) != LegacyShouldCancel(st, pkg).value <==>
      !IsStudyMode(st).value && TimerBlocking(t, remaining) && IsLocked(GetAppList(st).value, pkg)
  {
  }
}

=== FILE: numeric.dfy ===
/** The JVM integer semantics the Kotlin sources rely on: 32- and 64-bit
    ranges, `Long.toInt()` wrap-around, and `/` and `%` that truncate toward
    zero (Dafny's own `/` and `%` are Euclidean). */
module Numeric {

  const INT_MIN: int := -0x8000_0000
  const INT_MAX: int := 0x7fff_ffff
  const LONG_MIN: int := -0x8000_0000_0000_0000
  const LONG_MAX: int := 0x7fff_ffff_ffff_ffff
  const TWO_32: int := 0x1_0000_0000

  /** Kotlin `Int`. */
  type Int32 = x: int | -0x8000_0000 <= x <= 0x7fff_ffff

  /** Kotlin `Long`. */
  type Int64 = x: int | -0x8000_0000_0000_0000 <= x <= 0x7fff_ffff_ffff_ffff

  /** `toInt()` on a `Long`, and the wrap-around of `Int` addition: keep the
      low 32 bits and read them as two's complement. */
  function ToInt(x: int): (r: Int32)
    ensures INT_MIN <= x <= INT_MAX ==> r == x
    ensures (x - r) % TWO_32 == 0
  {
    var m := x % TWO_32;
    if m > INT_MAX then m - TWO_32 else m
  }

  /** Kotlin `a / b` for a positive divisor: the quotient truncated toward zero. */
  function Quot(a: int, b: int): (q: int)
    requires b > 0
    ensures a >= 0 ==> 0 <= a - b * q < b
    ensures a < 0 ==> -b < a - b * q <= 0
  {
    if a >= 0 then a / b else -((-a) / b)
  }

  /** Kotlin `a % b` for a positive divisor: the remainder takes the sign of
      the dividend. */
  function Rem(a: int, b: int): (r: int)
    requires b > 0
    ensures a >= 0 ==> 0 <= r < b
    ensures a < 0 ==> -b < r <= 0
    ensures a - r == b * Quot(a, b)
  {
    a - b * Quot(a, b)
  }

  /** On a non-negative dividend truncation and Euclidean division agree. */
  lemma QuotRemNonNegative(a: int, b: int)
    requires a >= 0 && b > 0
    ensures Quot(a, b) == a / b && Rem(a, b) == a % b
  {
  }

  /** `kotlin.math.max` on `Int`. */
  function Max(a: int, b: int): (r: int)
    ensures r >= a && r >= b
    ensures r == a || r == b
  {
    if a >= b then a else b
  }
}

=== FILE: ordering.dfy ===
/** String order and sorting by a string key: Kotlin `String.compareTo`
    (lexicographic on characters, a proper prefix first) and the
    `sortedBy` / `sortWith` calls that order applications by name. */
module Ordering {

  /** `a.compareTo(b) <= 0`. */
  predicate StrLe(a: string, b: string)
    decreases |a|
  {
    if a == [] then true
    else if b == [] then false
    else if a[0] != b[0] then a[0] < b[0]
    else StrLe(a[1..], b[1..])
  }

  lemma {:induction false} StrLeTotal(a: string, b: string)
    ensures StrLe(a, b) || StrLe(b, a)
    decreases |a|
  {
    if a != [] && b != [] && a[0] == b[0] {
      StrLeTotal(a[1..], b[1..]);
    }
  }

  lemma {:induction false} StrLeTransitive(a: string, b: string, c: string)
    requires StrLe(a, b) && StrLe(b, c)
    ensures StrLe(a, c)
    decreases |a|
  {
    if a != [] && b != [] && c != [] && a[0] == b[0] && b[0] == c[0] {
      StrLeTransitive(a[1..], b[1..], c[1..]);
    }
  }

  lemma {:induction false} StrLeAntisymmetric(a: string, b: string)
    requires StrLe(a, b) && StrLe(b, a)
    ensures a == b
    decreases |a|
  {
    if a != [] && b != [] {
      StrLeAntisymmetric(a[1..], b[1..]);
      assert a == [a[0]] + a[1..];
      assert b == [b[0]] + b[1..];
    }
  }

  /** The elements of `s` are in non-decreasing order of `key`. */
  ghost predicate SortedBy<T>(s: seq<T>, key: T -> string) {
    forall i, j :: 0 <= i < j < |s| ==> StrLe(key(s[i]), key(s[j]))
  }

  /** Every element of `s` has a key at least that of `x`. */
  ghost predicate AllAtLeast<T>(x: T, s: seq<T>, key: T -> string) {
    forall i :: 0 <= i < |s| ==> StrLe(key(x), key(s[i]))
  }

  /** Inserts `x` before the first element whose key is not smaller. */
  function Insert<T(==)>(x: T, s: seq<T>, key: T -> string): (r: seq<T>)
    ensures multiset(r) == multiset(s) + multiset{x}
    ensures |r| == |s| + 1
  {
    if s == [] then [x]
    else if StrLe(key(x), key(s[0])) then [x] + s
    else
      assert s == [s[0]] + s[1..];
      [s[0]] + Insert(x, s[1..], key)
  }

  lemma {:induction false} InsertSorted<T>(x: T, s: seq<T>, key: T -> string)
    requires SortedBy(s, key)
    ensures SortedBy(Insert(x, s, key), key)
  {
    if s != [] {
      if StrLe(key(x), key(s[0])) {
        var r := [x] + s;
        forall j | 1 <= j < |r|
          ensures StrLe(key(x), key(r[j]))
        {
          if j > 1 {
            StrLeTransitive(key(x), key(s[0]), key(s[j - 1]));
          }
        }
      } else {
        StrLeTotal(key(x), key(s[0]));
        var tail := Insert(x, s[1..], key);
        InsertSorted(x, s[1..], key);
        var r := [s[0]] + tail;
        assert multiset(tail) == multiset(s[1..]) + multiset{x};
        forall j | 0 <= j < |tail|
          ensures StrLe(key(s[0]), key(tail[j]))
        {
          assert tail[j] in multiset(tail);
          if tail[j] != x {
            assert tail[j] in multiset(s[1..]);
            var k :| 0 <= k < |s[1..]| && s[1..][k] == tail[j];
            assert s[k + 1] == tail[j];
          }
        }
        assert r == Insert(x, s, key);
      }
    }
  }

  /** Insertion sort by `key`: the result is a sorted permutation of `s`. */
  function SortBy<T(==)>(s: seq<T>, key: T -> string): (r: seq<T>)
    ensures multiset(r) == multiset(s)
    ensures |r| == |s|
    ensures SortedBy(r, key)
  {
    if s == [] then []
    else
      var rest := SortBy(s[1..], key);
      SortStep(s, rest, key);
      Insert(s[0], rest, key)
  }

  /** Inserting the head into the sorted tail sorts the whole sequence. */
  lemma SortStep<T>(s: seq<T>, rest: seq<T>, key: T -> string)
    requires s != [] && multiset(rest) == multiset(s[1..]) && SortedBy(rest, key)
    ensures multiset(Insert(s[0], rest, key)) == multiset(s)
    ensures SortedBy(Insert(s[0], rest, key), key)
  {
    InsertSorted(s[0], rest, key);
    assert s == [s[0]] + s[1..];
  }

  /** The test "has key `k`". */
  function KeyIs<T>(key: T -> string, k: string): T -> bool {
    (x: T) => key(x) == k
  }

  /** Inserting `x` puts it before every element with the same key, and
      leaves those elements in their order. */
  lemma {:induction false} InsertFilterKey<T>(x: T, s: seq<T>, key: T -> string, k: string)
    ensures Filter(Insert(x, s, key), KeyIs(key, k)) == (if key(x) == k then [x] else []) + Filter(s, KeyIs(key, k))
  {
    if s != [] {
      if StrLe(key(x), key(s[0])) {
        assert ([x] + s)[1..] == s;
      } else {
        StrLeTotal(key(x), key(x));
        InsertFilterKey(x, s[1..], key, k);
        assert ([s[0]] + Insert(x, s[1..], key))[1..] == Insert(x, s[1..], key);
      }
    }
  }

  /** `SortBy` is stable: the elements sharing a key come out in the order
      they went in. */
  lemma {:induction false} SortByStable<T>(s: seq<T>, key: T -> string, k: string)
    ensures Filter(SortBy(s, key), KeyIs(key, k)) == Filter(s, KeyIs(key, k))
  {
    if s != [] {
      SortByStable(s[1..], key, k);
      InsertFilterKey(s[0], SortBy(s[1..], key), key, k);
    }
  }

  /** No two elements of `s` share an `f` value. */
  predicate DistinctBy<T>(s: seq<T>, f: T -> string) {
    forall i, j :: 0 <= i < j < |s| ==> f(s[i]) != f(s[j])
  }

  /** Inserting an element whose `f` value is new keeps the values
      distinct. */
  lemma {:induction false} InsertKeepsDistinct<T>(x: T, s: seq<T>, key: T -> string, f: T -> string)
    requires DistinctBy(s, f) && forall i :: 0 <= i < |s| ==> f(s[i]) != f(x)
    ensures DistinctBy(Insert(x, s, key), f)
  {
    if s != [] && !StrLe(key(x), key(s[0])) {
      var t := Insert(x, s[1..], key);
      InsertKeepsDistinct(x, s[1..], key, f);
      forall j | 0 <= j < |t|
        ensures f(s[0]) != f(t[j])
      {
        assert t[j] in multiset(t);
        if t[j] != x {
          assert t[j] in multiset(s[1..]);
          var k :| 0 <= k < |s[1..]| && s[1..][k] == t[j];
          assert s[k + 1] == t[j];
        }
      }
      assert Insert(x, s, key) == [s[0]] + t;
    }
  }

  /** Sorting keeps the `f` values distinct. */
  lemma {:induction false} SortByKeepsDistinct<T>(s: seq<T>, key: T -> string, f: T -> string)
    requires DistinctBy(s, f)
    ensures DistinctBy(SortBy(s, key), f)
  {
    if s != [] {
      var rest := SortBy(s[1..], key);
      assert DistinctBy(s[1..], f) by {
        forall i, j | 0 <= i < j < |s[1..]| ensures f(s[1..][i]) != f(s[1..][j]) {
          assert s[1..][i] == s[i + 1] && s[1..][j] == s[j + 1];
        }
      }
      SortByKeepsDistinct(s[1..], key, f);
      forall i | 0 <= i < |rest|
        ensures f(rest[i]) != f(s[0])
      {
        assert rest[i] in multiset(s[1..]);
        var k :| 0 <= k < |s[1..]| && s[1..][k] == rest[i];
        assert s[k + 1] == rest[i];
      }
      InsertKeepsDistinct(s[0], rest, key, f);
    }
  }

  /** Keeping only some elements of a sorted sequence keeps it sorted. */
  lemma {:induction false} FilterSorted<T>(s: seq<T>, keep: T -> bool, key: T -> string)
    requires SortedBy(s, key)
    ensures SortedBy(Filter(s, keep), key)
  {
    if s != [] {
      FilterSorted(s[1..], keep, key);
      var tail := Filter(s[1..], keep);
      FilterMembers(s[1..], keep);
      if keep(s[0]) {
        var r := [s[0]] + tail;
        forall j | 0 <= j < |tail|
          ensures StrLe(key(s[0]), key(tail[j]))
        {
          assert tail[j] in s[1..];
          var k :| 0 <= k < |s[1..]| && s[1..][k] == tail[j];
          assert s[k + 1] == tail[j];
        }
        assert r == Filter(s, keep);
      }
    }
  }

  /** `filter`: the elements satisfying `keep`, in their original order. */
  function Filter<T>(s: seq<T>, keep: T -> bool): (r: seq<T>)
    ensures |r| <= |s|
    ensures forall i :: 0 <= i < |r| ==> keep(r[i])
  {
    if s == [] then [] else (if keep(s[0]) then [s[0]] else []) + Filter(s[1..], keep)
  }

  /** Every element of a filtered sequence stands in the original. */
  lemma {:induction false} FilterMembers<T>(s: seq<T>, keep: T -> bool)
    ensures forall x :: x in Filter(s, keep) ==> x in s
  {
    if s != [] {
      FilterMembers(s[1..], keep);
    }
  }

  /** `filterNot`: the elements not satisfying `drop`, in their original order. */
  function FilterNot<T>(s: seq<T>, drop: T -> bool): (r: seq<T>)
    ensures |r| <= |s|
    ensures forall i :: 0 <= i < |r| ==> !drop(r[i])
  {
    if s == [] then [] else (if drop(s[0]) then [] else [s[0]]) + FilterNot(s[1..], drop)
  }

  /** `filter` works element by element: it distributes over
      concatenation, keeping the order of what it keeps. */
  lemma {:induction false} FilterConcat<T>(a: seq<T>, b: seq<T>, keep: T -> bool)
    ensures Filter(a + b, keep) == Filter(a, keep) + Filter(b, keep)
  {
    if a == [] {
      assert a + b == b;
    } else {
      FilterConcat(a[1..], b, keep);
      var head := if keep(a[0]) then [a[0]] else [];
      assert (a + b)[0] == a[0] && (a + b)[1..] == a[1..] + b;
      calc {
        Filter(a + b, keep);
        head + Filter(a[1..] + b, keep);
        head + (Filter(a[1..], keep) + Filter(b, keep));
        (head + Filter(a[1..], keep)) + Filter(b, keep);
        Filter(a, keep) + Filter(b, keep);
      }
    }
  }

  /** `filterNot` works element by element: it distributes over
      concatenation, keeping the order of what it keeps. */
  lemma {:induction false} FilterNotConcat<T>(a: seq<T>, b: seq<T>, drop: T -> bool)
    ensures FilterNot(a + b, drop) == FilterNot(a, drop) + FilterNot(b, drop)
  {
    if a == [] {
      assert a + b == b;
    } else {
      FilterNotConcat(a[1..], b, drop);
      var head := if drop(a[0]) then [] else [a[0]];
      assert (a + b)[0] == a[0] && (a + b)[1..] == a[1..] + b;
      calc {
        FilterNot(a + b, drop);
        head + FilterNot(a[1..] + b, drop);
        head + (FilterNot(a[1..], drop) + FilterNot(b, drop));
        (head + FilterNot(a[1..], drop)) + FilterNot(b, drop);
        FilterNot(a, drop) + FilterNot(b, drop);
      }
    }
  }

  /** Two filters can be applied in either order. */
  lemma {:induction false} FilterCommutes<T>(s: seq<T>, p: T -> bool, q: T -> bool)
    ensures Filter(Filter(s, p), q) == Filter(Filter(s, q), p)
  {
    if s != [] {
      var x := s[0];
      FilterCommutes(s[1..], p, q);
      var hp := if p(x) then [x] else [];
      var hq := if q(x) then [x] else [];
      assert [x][1..] == [];
      FilterConcat(hp, Filter(s[1..], p), q);
      FilterConcat(hq, Filter(s[1..], q), p);
      assert Filter(hp, q) == Filter(hq, p);
    }
  }

  /** `filter` and `filterNot` by the same predicate split a sequence:
      together they hold every element exactly as often as it occurs. */
  lemma {:induction false} FilterPartition<T>(s: seq<T>, p: T -> bool)
    ensures multiset(Filter(s, p)) + multiset(FilterNot(s, p)) == multiset(s)
  {
    if s != [] {
      var t := s[1..];
      FilterPartition(t, p);
      assert multiset(s) == multiset{s[0]} + multiset(t) by {
        assert s == [s[0]] + t;
      }
      if p(s[0]) {
        assert multiset(Filter(s, p)) == multiset{s[0]} + multiset(Filter(t, p));
      } else {
        assert multiset(FilterNot(s, p)) == multiset{s[0]} + multiset(FilterNot(t, p));
      }
    }
  }

  /** `filterNot` by `drop` is `filter` by its negation. */
  lemma {:induction false} FilterNotIsFilter<T>(s: seq<T>, drop: T -> bool, keep: T -> bool)
    requires forall x :: keep(x) == !drop(x)
    ensures FilterNot(s, drop) == Filter(s, keep)
  {
    if s != [] {
      FilterNotIsFilter(s[1..], drop, keep);
    }
  }

  /** Every element of `s` lands in `filter` when it satisfies the
      predicate and in `filterNot` when it does not. */
  lemma FilterRoutes<T>(s: seq<T>, p: T -> bool)
    ensures forall x :: x in s && p(x) ==> x in Filter(s, p)
    ensures forall x :: x in s && !p(x) ==> x in FilterNot(s, p)
  {
    FilterPartition(s, p);
    forall x | x in s
      ensures x in multiset(Filter(s, p)) + multiset(FilterNot(s, p))
    {
      assert x in multiset(s);
    }
  }
}

=== FILE: permissions.dfy ===
/** The permission gate (`PermissionViewModel`, `PermissionState`): what the
    app reports about its three special permissions, and whether it may
    proceed past the permission screen. */
module Permissions {
  import AppBlock

  /** Android API levels the gate tests against. */
  const SDK_M: int := 23
  const SDK_Q: int := 29

  /** The gate's state; every flag starts false. */
  datatype PermissionState = PermissionState(
    hasUsageAccess: bool,
    hasOverlay: bool,
    hasNotificationAccess: bool,
    shouldShowUsageRationale: bool)

  const INITIAL: PermissionState := PermissionState(false, false, false, false)

  /** Usage access and drawing over other apps are both granted; the
      notification listener is optional. */
  predicate AllGranted(p: PermissionState) {
    p.hasUsageAccess && p.hasOverlay
  }

  /** `refreshPermissions`, given the device's API level and the three
      platform answers (usage-stats access, `canDrawOverlays`, the enabled
      notification listeners). */
  function Refresh(sdk: int, usageAccess: bool, canDrawOverlays: bool, notificationAccess: bool): (p: PermissionState)
    ensures p.hasUsageAccess == usageAccess && p.hasNotificationAccess == notificationAccess
    ensures sdk < SDK_M ==> p.hasOverlay
    ensures sdk >= SDK_M ==> (p.hasOverlay <==> canDrawOverlays)
    ensures p.shouldShowUsageRationale <==> sdk >= SDK_Q && !usageAccess
  {
    var overlay := if sdk >= SDK_M then canDrawOverlays else true;
    PermissionState(usageAccess, overlay, notificationAccess, sdk >= SDK_Q && !usageAccess)
  }

  /** The gate opens exactly when usage access is granted and the overlay
      may be drawn; the notification listener never decides it. */
  lemma GateOpensIff(sdk: int, usage: bool, draw: bool, notification: bool)
    ensures AllGranted(Refresh(sdk, usage, draw, notification)) <==> usage && (sdk < SDK_M || draw)
    ensures AllGranted(Refresh(sdk, usage, draw, notification)) == AllGranted(Refresh(sdk, usage, draw, !notification))
  {
  }

  /** The usage rationale is offered only while the gate is closed. */
  lemma RationaleOnlyWhenClosed(sdk: int, usage: bool, draw: bool, notification: bool)
    ensures Refresh(sdk, usage, draw, notification).shouldShowUsageRationale ==> !AllGranted(Refresh(sdk, usage, draw, notification))
  {
  }

  /** The gate starts closed. */
  lemma InitiallyClosed()
    ensures !AllGranted(INITIAL) && !INITIAL.shouldShowUsageRationale
  {
  }

  /** The gate and the overlay controller read the overlay permission the
      same way, so where the gate reports it missing the controller never
      holds an overlay after it has been asked for one. */
  lemma GateAgreesWithOverlay(s: AppBlock.Service, w: AppBlock.World, sdk: int, usage: bool, notification: bool)
    requires AppBlock.Valid(s)
    requires w.sdkAtLeastM <==> sdk >= SDK_M
    ensures Refresh(sdk, usage, w.canDrawOverlays, notification).hasOverlay == AppBlock.MayDraw(w)
    ensures !Refresh(sdk, usage, w.canDrawOverlays, notification).hasOverlay ==>
      !AppBlock.EnsureOverlayVisible(s, w).overlay
  {
  }
}

=== FILE: pref_data.dfy ===
/** The named settings the app persists (`PreferenceDataHelper`): the
    package→locked map, the study-mode flag and a few user choices, each
    under its own key of the preferences store. */
module PrefData {
  import opened Wrappers
  import opened Numeric
  import opened Text
  import opened Prefs

  /** Package name → whether the application is locked. */
  type LockMap = map<string, bool>

  const APP_LIST: string := "app_list"
  const IS_STUDY_MODE: string := "is_study_mode"
  const IS_FOCUSED_STUDY_SESSION: string := "is_focused_study_session"
  const IS_START_IN_BACKGROUND: string := "is_start_in_background"
  const STUDY_TIME: string := "study_time"
  const MEDITATION_TYPE: string := "meditation_type"
  const OBJECT_GAZING_TYPE: string := "object_gazing_type"

  /** The keys the helper owns. */
  const OWN_KEYS: set<string> := {APP_LIST, IS_STUDY_MODE, IS_FOCUSED_STUDY_SESSION,
    IS_START_IN_BACKGROUND, STUDY_TIME, MEDITATION_TYPE, OBJECT_GAZING_TYPE}

  /** `setAppList`: the map is written as its JSON text under `app_list`. */
  function SetAppList(st: Store, m: LockMap): (r: Store)
    ensures Lookup(r, APP_LIST) == Some(StrV(AppListJson(m)))
    ensures forall k :: k != APP_LIST ==> Lookup(r, k) == Lookup(st, k)
  {
    SetString(st, APP_LIST, Some(AppListJson(m)))
  }

  /** `getAppList`: `null` when nothing was stored (Gson turns a missing or
      blank text into `null`); a text that is not an app-list JSON, or a
      value of another type under the key, makes the read throw. */
  function GetAppList(st: Store): (r: Result<Option<LockMap>, PrefError>)
    ensures !ContainsKey(st, APP_LIST) ==> r == Ok(None)
    ensures r.Ok? && r.value.Some? ==> Lookup(st, APP_LIST) == Some(StrV(AppListJson(r.value.value)))
    ensures ContainsKey(st, APP_LIST) && !st.entries[APP_LIST].StrV? ==> r.Err?
  {
    match GetString(st, APP_LIST, None)
    case Err(e) => Err(e)
    case Ok(None) => Ok(None)
    case Ok(Some(AppListJson(m))) => Ok(Some(m))
    case Ok(Some(Raw(chars))) => if IsBlank(chars) then Ok(None) else Err(MalformedJson)
  }

  /** The map written by `setAppList` is the map `getAppList` reads back, and
      writing it leaves the study-mode flag as it was. */
  lemma AppListRoundTrip(st: Store, m: LockMap)
    ensures GetAppList(SetAppList(st, m)) == Ok(Some(m))
    ensures IsStudyMode(SetAppList(st, m)) == IsStudyMode(st)
  {
  }

  function IsStudyMode(st: Store): (r: Result<bool, PrefError>)
    ensures !ContainsKey(st, IS_STUDY_MODE) ==> r == Ok(false)
    ensures r == Ok(true) ==> Lookup(st, IS_STUDY_MODE) == Some(BoolV(true))
  {
    GetBoolean(st, IS_STUDY_MODE, false)
  }

  function SetStudyMode(st: Store, on: bool): (r: Store)
    ensures IsStudyMode(r) == Ok(on)
    ensures GetAppList(r) == GetAppList(st)
  {
    SetBoolean(st, IS_STUDY_MODE, on)
  }

  function IsFocusedStudySession(st: Store): (r: Result<bool, PrefError>)
    ensures !ContainsKey(st, IS_FOCUSED_STUDY_SESSION) ==> r == Ok(false)
  {
    GetBoolean(st, IS_FOCUSED_STUDY_SESSION, false)
  }

  function SetFocusedStudySession(st: Store, on: bool): (r: Store)
    ensures IsFocusedStudySession(r) == Ok(on)
    ensures IsStudyMode(r) == IsStudyMode(st)
  {
    SetBoolean(st, IS_FOCUSED_STUDY_SESSION, on)
  }

  function IsStartInBackground(st: Store): (r: Result<bool, PrefError>)
    ensures !ContainsKey(st, IS_START_IN_BACKGROUND) ==> r == Ok(false)
  {
    GetBoolean(st, IS_START_IN_BACKGROUND, false)
  }

  function SetStartInBackground(st: Store, on: bool): (r: Store)
    ensures IsStartInBackground(r) == Ok(on)
    ensures IsStudyMode(r) == IsStudyMode(st)
  {
    SetBoolean(st, IS_START_IN_BACKGROUND, on)
  }

  /** `getStudyTime`: zero when never set. */
  function GetStudyTime(st: Store): (r: Result<Int32, PrefError>)
    ensures !ContainsKey(st, STUDY_TIME) ==> r == Ok(0)
  {
    GetInt(st, STUDY_TIME, 0)
  }

  function SetStudyTime(st: Store, minutes: Int32): (r: Store)
    ensures GetStudyTime(r) == Ok(minutes)
    ensures IsStudyMode(r) == IsStudyMode(st)
  {
    SetInt(st, STUDY_TIME, minutes)
  }

  function GetMeditationType(st: Store): (r: Result<Option<StoredText>, PrefError>)
    ensures !ContainsKey(st, MEDITATION_TYPE) ==> r == Ok(None)
  {
    GetString(st, MEDITATION_TYPE, None)
  }

  function SetMeditationType(st: Store, kind: string): (r: Store)
    ensures GetMeditationType(r) == Ok(Some(Raw(kind)))
    ensures GetAppList(r) == GetAppList(st)
  {
    SetString(st, MEDITATION_TYPE, Some(Raw(kind)))
  }

  function GetObjectGazingType(st: Store): (r: Result<Option<StoredText>, PrefError>)
    ensures !ContainsKey(st, OBJECT_GAZING_TYPE) ==> r == Ok(None)
  {
    GetString(st, OBJECT_GAZING_TYPE, None)
  }

  function SetObjectGazingType(st: Store, kind: string): (r: Store)
    ensures GetObjectGazingType(r) == Ok(Some(Raw(kind)))
    ensures GetAppList(r) == GetAppList(st)
  {
    SetString(st, OBJECT_GAZING_TYPE, Some(Raw(kind)))
  }

  /** `isFirstTimeAskingPermission`: the flag is stored under the permission
      name itself and reads `true` until something is written there. */
  function IsFirstTimeAskingPermission(st: Store, permission: string): (r: Result<bool, PrefError>)
    ensures !ContainsKey(st, permission) ==> r == Ok(true)
  {
    GetBoolean(st, permission, true)
  }

  function FirstTimeAskingPermission(st: Store, permission: string, first: bool): (r: Store)
    ensures IsFirstTimeAskingPermission(r, permission) == Ok(first)
    ensures permission !in OWN_KEYS ==> forall k :: k in OWN_KEYS ==> Lookup(r, k) == Lookup(st, k)
  {
    SetBoolean(st, permission, first)
  }

  /** Permission flags share the key space with the helper's own settings:
      a permission named `is_study_mode` overwrites the study-mode flag. */
  lemma PermissionKeyCollision(st: Store)
    ensures IsStudyMode(FirstTimeAskingPermission(st, IS_STUDY_MODE, true)) == Ok(true)
    ensures GetAppList(FirstTimeAskingPermission(st, APP_LIST, true)).Err?
  {
  }
}

=== FILE: prefs.dfy ===
/** The typed key/value store behind every persisted flag (the two identical
    `SharedPreferenceHelper` classes): one value per key, read back with a
    caller-supplied default, written, removed, cleared.  Reading a key as the
    wrong type throws, as Android's `SharedPreferences` does. */
module Prefs {
  import opened Wrappers
  import opened Numeric

  /** A stored string.  `AppListJson(m)` stands for the JSON text Gson writes
      for the map `m`; Gson is treated as a faithful codec for it. */
  datatype StoredText = Raw(chars: string) | AppListJson(entries: map<string, bool>)

  datatype PrefValue =
    | StrV(text: StoredText)
    | IntV(i: Int32)
    | LongV(l: Int64)
    | BoolV(b: bool)

  datatype PrefError =
    | ClassCast(key: string)   // the key holds a value of another type
    | MalformedJson            // the stored text is not an app-list JSON

  datatype Store = Store(entries: map<string, PrefValue>)

  /** An empty preferences file. */
  const EMPTY: Store := Store(map[])

  predicate ContainsKey(st: Store, key: string) {
    key in st.entries
  }

  /** The value under `key`, if any. */
  function Lookup(st: Store, key: string): Option<PrefValue> {
    if key in st.entries then Some(st.entries[key]) else None
  }

  /** `clearPrefs`: after it no key is contained. */
  function ClearPrefs(st: Store): (r: Store)
    ensures forall key :: !ContainsKey(r, key)
  {
    EMPTY
  }

  /** `removeKey`: the key is gone and every other key keeps its value. */
  function RemoveKey(st: Store, key: string): (r: Store)
    ensures !ContainsKey(r, key)
    ensures forall other :: other != key ==> Lookup(r, other) == Lookup(st, other)
  {
    Store(st.entries - {key})
  }

  /** Writes `v` under `key`, leaving every other key as it was. */
  function Put(st: Store, key: string, v: PrefValue): (r: Store)
    ensures Lookup(r, key) == Some(v)
    ensures forall other :: other != key ==> Lookup(r, other) == Lookup(st, other)
  {
    Store(st.entries[key := v])
  }

  function GetString(st: Store, key: string, default: Option<StoredText>): (r: Result<Option<StoredText>, PrefError>)
    ensures !ContainsKey(st, key) ==> r == Ok(default)
    ensures r.Ok? && ContainsKey(st, key) ==> r.value.Some? && st.entries[key] == StrV(r.value.value)
    ensures r.Err? ==> ContainsKey(st, key) && !st.entries[key].StrV?
  {
    match Lookup(st, key)
    case None => Ok(default)
    case Some(StrV(t)) => Ok(Some(t))
    case Some(_) => Err(ClassCast(key))
  }

  /** `setString`: a `null` value removes the key, as `putString(key, null)`
      does on Android. */
  function SetString(st: Store, key: string, value: Option<StoredText>): (r: Store)
    ensures value.Some? ==> Lookup(r, key) == Some(StrV(value.value))
    ensures value.None? ==> !ContainsKey(r, key)
    ensures forall other :: other != key ==> Lookup(r, other) == Lookup(st, other)
  {
    match value
    case Some(t) => Put(st, key, StrV(t))
    case None => RemoveKey(st, key)
  }

  function GetInt(st: Store, key: string, default: Int32): (r: Result<Int32, PrefError>)
    ensures !ContainsKey(st, key) ==> r == Ok(default)
    ensures r.Ok? && ContainsKey(st, key) ==> st.entries[key] == IntV(r.value)
    ensures r.Err? ==> ContainsKey(st, key) && !st.entries[key].IntV?
  {
    match Lookup(st, key)
    case None => Ok(default)
    case Some(IntV(i)) => Ok(i)
    case Some(_) => Err(ClassCast(key))
  }

  function SetInt(st: Store, key: string, value: Int32): (r: Store)
    ensures Lookup(r, key) == Some(IntV(value))
    ensures forall other :: other != key ==> Lookup(r, other) == Lookup(st, other)
  {
    Put(st, key, IntV(value))
  }

  function GetLong(st: Store, key: string, default: Int64): (r: Result<Int64, PrefError>)
    ensures !ContainsKey(st, key) ==> r == Ok(default)
    ensures r.Ok? && ContainsKey(st, key) ==> st.entries[key] == LongV(r.value)
    ensures r.Err? ==> ContainsKey(st, key) && !st.entries[key].LongV?
  {
    match Lookup(st, key)
    case None => Ok(default)
    case Some(LongV(l)) => Ok(l)
    case Some(_) => Err(ClassCast(key))
  }

  function SetLong(st: Store, key: string, value: Int64): (r: Store)
    ensures Lookup(r, key) == Some(LongV(value))
    ensures forall other :: other != key ==> Lookup(r, other) == Lookup(st, other)
  {
    Put(st, key, LongV(value))
  }

  function GetBoolean(st: Store, key: string, default: bool): (r: Result<bool, PrefError>)
    ensures !ContainsKey(st, key) ==> r == Ok(default)
    ensures r.Ok? && ContainsKey(st, key) ==> st.entries[key] == BoolV(r.value)
    ensures r.Err? ==> ContainsKey(st, key) && !st.entries[key].BoolV?
  {
    match Lookup(st, key)
    case None => Ok(default)
    case Some(BoolV(b)) => Ok(b)
    case Some(_) => Err(ClassCast(key))
  }

  function SetBoolean(st: Store, key: string, value: bool): (r: Store)
    ensures Lookup(r, key) == Some(BoolV(value))
    ensures forall other :: other != key ==> Lookup(r, other) == Lookup(st, other)
  {
    Put(st, key, BoolV(value))
  }

  /** For each type, a get after a set on the same key returns the value
      set, whatever default the get supplies. */
  lemma GetAfterSet(st: Store, key: string, t: StoredText, i: Int32, l: Int64, b: bool,
                    dt: Option<StoredText>, di: Int32, dl: Int64, db: bool)
    ensures GetString(SetString(st, key, Some(t)), key, dt) == Ok(Some(t))
    ensures GetInt(SetInt(st, key, i), key, di) == Ok(i)
    ensures GetLong(SetLong(st, key, l), key, dl) == Ok(l)
    ensures GetBoolean(SetBoolean(st, key, b), key, db) == Ok(b)
  {
  }

  /** After `removeKey(k)`, or after `clearPrefs`, every get on `k` returns
      the supplied default. */
  lemma GetAfterRemove(st: Store, key: string, dt: Option<StoredText>, di: Int32, dl: Int64, db: bool)
    ensures GetString(RemoveKey(st, key), key, dt) == Ok(dt)
    ensures GetInt(RemoveKey(st, key), key, di) == Ok(di)
    ensures GetLong(RemoveKey(st, key), key, dl) == Ok(dl)
    ensures GetBoolean(RemoveKey(st, key), key, db) == Ok(db)
    ensures GetBoolean(ClearPrefs(st), key, db) == Ok(db)
    ensures GetInt(ClearPrefs(st), key, di) == Ok(di)
  {
  }

  /** The process-wide instance slot behind `getInstance`. */
  datatype Registry<H> = Registry(instance: Option<H>)

  /** `getInstance`: the first call stores `created`; every call returns the
      stored instance. */
  function GetInstance<H>(reg: Registry<H>, created: H): (r: (Registry<H>, H))
    ensures r.0.instance == Some(r.1)
    ensures reg.instance.Some? ==> r.1 == reg.instance.value && r.0 == reg
    ensures reg.instance.None? ==> r.1 == created
  {
    match reg.instance
    case Some(h) => (reg, h)
    case None => (Registry(Some(created)), created)
  }

  /** Two successive calls return the same instance, whatever the second
      call would have created. */
  lemma GetInstanceStable<H>(reg: Registry<H>, c1: H, c2: H)
    ensures GetInstance(GetInstance(reg, c1).0, c2).1 == GetInstance(reg, c1).1
  {
  }
}

=== FILE: schedule_dialog.dfy ===
/** The schedule editor dialog (`ScheduleDialog` in `ScheduleScreen`): the
    fields it opens with, the weekday buttons, and the schedule its SAVE
    button hands to the view model. */
module ScheduleDialog {
  import opened Wrappers
  import opened Text
  import opened Schedules

  /** The dialog's editable fields.  The selected days are a Kotlin
      `Set<Int>`, which keeps its elements in insertion order: a sequence
      without repetitions. */
  datatype Fields = Fields(name: string, startTime: string, endTime: string, selectedDays: seq<int>)

  const DEFAULT_START: string := "09:00"
  const DEFAULT_END: string := "17:00"
  const WEEKDAYS: seq<int> := [1, 2, 3, 4, 5]

  predicate NoRepeats(s: seq<int>) {
    forall i, j :: 0 <= i < j < |s| ==> s[i] != s[j]
  }

  /** `toSet()` of a list: each element once, at its first occurrence. */
  function Distinct(s: seq<int>): (r: seq<int>)
    ensures NoRepeats(r)
    ensures forall x :: x in r <==> x in s
  {
    if s == [] then []
    else
      var rest := Distinct(s[..|s| - 1]);
      var last := s[|s| - 1];
      assert forall x :: x in s <==> x in s[..|s| - 1] || x == last by {
        assert s == s[..|s| - 1] + [last];
      }
      if last in rest then rest else rest + [last]
  }

  lemma DistinctCons(x: int, t: seq<int>)
    requires NoRepeats(t) && x !in t
    ensures NoRepeats([x] + t)
  {
    var r := [x] + t;
    assert forall j :: 0 < j < |r| ==> r[j] == t[j - 1];
  }

  /** `set - element`. */
  function Without(s: seq<int>, x: int): (r: seq<int>)
    ensures forall y :: y in r <==> y in s && y != x
    ensures NoRepeats(s) ==> NoRepeats(r)
  {
    if s == [] then []
    else
      var rest := Without(s[1..], x);
      assert forall y :: y in s <==> y == s[0] || y in s[1..] by {
        assert s == [s[0]] + s[1..];
      }
      assert NoRepeats(s) ==> NoRepeats(s[1..]) && s[0] !in s[1..];
      if s[0] == x then rest
      else
        assert NoRepeats(s) ==> NoRepeats([s[0]] + rest) by {
          if NoRepeats(s) { DistinctCons(s[0], rest); }
        }
        [s[0]] + rest
  }

  /** The fields the dialog opens with: those of the schedule being edited,
      or an unnamed 09:00–17:00 schedule on Monday to Friday. */
  function Open(editing: Option<Schedule>): (f: Fields)
    ensures editing.None? ==> f == Fields("", DEFAULT_START, DEFAULT_END, WEEKDAYS)
    ensures editing.Some? ==> (f.name == editing.value.name
      && f.startTime == editing.value.startTime && f.endTime == editing.value.endTime
      && forall d :: d in f.selectedDays <==> d in editing.value.daysOfWeek)
    ensures NoRepeats(f.selectedDays)
  {
    match editing
    case None => Fields("", DEFAULT_START, DEFAULT_END, WEEKDAYS)
    case Some(s) => Fields(s.name, s.startTime, s.endTime, Distinct(s.daysOfWeek))
  }

  /** A tap on a weekday button: a selected day is deselected, any other
      day selected. */
  function ToggleDay(days: seq<int>, day: int): (r: seq<int>)
    ensures day in r <==> day !in days
    ensures forall d :: d != day ==> (d in r <==> d in days)
    ensures NoRepeats(days) ==> NoRepeats(r)
  {
    if day in days then Without(days, day) else days + [day]
  }

  /** Two taps on the same button restore the selection (its order may
      change, which saving erases by sorting). */
  lemma ToggleDayTwice(days: seq<int>, day: int)
    ensures forall d :: d in ToggleDay(ToggleDay(days, day), day) <==> d in days
  {
  }

  /** The buttons are numbered 1 to 7, so from a valid selection taps only
      ever select valid days. */
  lemma ToggleKeepsWeek(days: seq<int>, index: int)
    requires forall d :: d in days ==> ValidDay(d)
    requires 0 <= index < 7
    ensures forall d :: d in ToggleDay(days, index + 1) ==> ValidDay(d)
  {
  }

  /** SAVE is enabled only for a non-blank name and at least one day. */
  predicate CanSave(f: Fields) {
    !IsBlank(f.name) && f.selectedDays != []
  }

  predicate Ascending(s: seq<int>) {
    forall i, j :: 0 <= i < j < |s| ==> s[i] <= s[j]
  }

  predicate Increasing(s: seq<int>) {
    forall i, j :: 0 <= i < j < |s| ==> s[i] < s[j]
  }

  /** A first element below all the others keeps the order. */
  lemma OrderedCons(x: int, t: seq<int>)
    requires forall y :: y in t ==> x <= y
    ensures Ascending(t) ==> Ascending([x] + t)
    ensures Increasing(t) && x !in t ==> Increasing([x] + t)
  {
    var r := [x] + t;
    assert forall j :: 0 < j < |r| ==> r[j] == t[j - 1] && r[j] in t;
  }

  function Insert(x: int, s: seq<int>): (r: seq<int>)
    requires Ascending(s)
    ensures Ascending(r)
    ensures multiset(r) == multiset(s) + multiset{x}
    ensures forall y :: y in r <==> y in s || y == x
    ensures Increasing(s) && x !in s ==> Increasing(r)
  {
    if s == [] then [x]
    else if x <= s[0] then
      assert forall y :: y in s ==> s[0] <= y by {
        assert forall j :: 0 <= j < |s| ==> s[0] <= s[j];
      }
      OrderedCons(x, s);
      [x] + s
    else
      var rest := Insert(x, s[1..]);
      InsertedBehind(x, s, rest);
      [s[0]] + rest
  }

  /** Inserting behind the head of an ascending sequence keeps the head in
      front. */
  lemma InsertedBehind(x: int, s: seq<int>, rest: seq<int>)
    requires Ascending(s) && s != [] && s[0] < x
    requires Ascending(rest) && multiset(rest) == multiset(s[1..]) + multiset{x}
    requires forall y :: y in rest <==> y in s[1..] || y == x
    requires Increasing(s[1..]) && x !in s[1..] ==> Increasing(rest)
    ensures Ascending([s[0]] + rest)
    ensures multiset([s[0]] + rest) == multiset(s) + multiset{x}
    ensures forall y :: y in [s[0]] + rest <==> y in s || y == x
    ensures Increasing(s) && x !in s ==> Increasing([s[0]] + rest)
  {
    assert s == [s[0]] + s[1..];
    assert forall y :: y in s[1..] ==> s[0] <= y by {
      assert forall j :: 1 <= j < |s| ==> s[0] <= s[j];
    }
    OrderedCons(s[0], rest);
  }

  /** `sorted()`: the same elements in ascending order. */
  function Sorted(s: seq<int>): (r: seq<int>)
    ensures Ascending(r)
    ensures multiset(r) == multiset(s)
    ensures forall y :: y in r <==> y in s
    ensures NoRepeats(s) ==> Increasing(r)
  {
    if s == [] then []
    else
      assert s == [s[0]] + s[1..];
      assert NoRepeats(s) ==> NoRepeats(s[1..]) && s[0] !in s[1..];
      Insert(s[0], Sorted(s[1..]))
  }

  /** The schedule SAVE hands over, if it is enabled: an edited schedule
      keeps its id and on/off state, a new one gets `freshId` (a random
      UUID) and is on. */
  function Save(f: Fields, editing: Option<Schedule>, freshId: string): (r: Option<Schedule>)
    ensures r.Some? <==> CanSave(f)
    ensures r.Some? ==> (r.value.name == f.name
      && r.value.startTime == f.startTime && r.value.endTime == f.endTime
      && (forall d :: d in r.value.daysOfWeek <==> d in f.selectedDays)
      && (NoRepeats(f.selectedDays) ==> Increasing(r.value.daysOfWeek)))
    ensures r.Some? && editing.Some? ==> r.value.id == editing.value.id && r.value.isEnabled == editing.value.isEnabled
    ensures r.Some? && editing.None? ==> r.value.id == freshId && r.value.isEnabled
  {
    if !CanSave(f) then None
    else
      var id := match editing case Some(s) => s.id case None => freshId;
      var enabled := match editing case Some(s) => s.isEnabled case None => true;
      var days := Sorted(f.selectedDays);
      Some(Schedule(id, f.name, f.startTime, f.endTime, days, enabled))
  }

  /** Re-opening a saved schedule shows the fields it was saved from, the
      days in ascending order. */
  lemma SaveThenReopen(f: Fields, editing: Option<Schedule>, freshId: string)
    requires CanSave(f) && NoRepeats(f.selectedDays)
    ensures var g := Open(Save(f, editing, freshId));
      g.name == f.name && g.startTime == f.startTime && g.endTime == f.endTime
      && g.selectedDays == Save(f, editing, freshId).value.daysOfWeek
      && forall d :: d in g.selectedDays <==> d in f.selectedDays
  {
    var s := Save(f, editing, freshId).value;
    DistinctOfIncreasing(s.daysOfWeek);
  }

  /** `toSet()` of a strictly increasing list is the list itself. */
  lemma {:induction false} DistinctOfIncreasing(s: seq<int>)
    requires Increasing(s)
    ensures Distinct(s) == s
  {
    if s != [] {
      var init := s[..|s| - 1];
      DistinctOfIncreasing(init);
      assert s[|s| - 1] !in init;
      assert s == init + [s[|s| - 1]];
    }
  }

  /** A schedule saved from the weekday buttons has valid days. */
  lemma SavedDaysValid(f: Fields, editing: Option<Schedule>, freshId: string)
    requires CanSave(f)
    requires forall d :: d in f.selectedDays ==> ValidDay(d)
    ensures ValidDays(Save(f, editing, freshId).value)
  {
    var s := Save(f, editing, freshId).value;
    assert forall i :: 0 <= i < |s.daysOfWeek| ==> s.daysOfWeek[i] in f.selectedDays;
  }

  /** The view-model call behind `onSave`: an update while editing, an add
      otherwise. */
  function Submit(f: Fields, editing: Option<Schedule>, freshId: string): (r: Option<ScheduleOp>)
    ensures r.Some? <==> CanSave(f)
    ensures r.Some? ==> (r.value.AddOp? <==> editing.None?) && !r.value.DeleteOp? && !r.value.ToggleOp?
    ensures r.Some? ==> r.value.s == Save(f, editing, freshId).value
  {
    match Save(f, editing, freshId)
    case None => None
    case Some(s) => if editing.Some? then Some(UpdateOp(s)) else Some(AddOp(s))
  }

  /** Saving an edit of a listed schedule puts the new version where the
      old one was. */
  lemma EditReplacesInPlace(b: Book, i: nat, f: Fields, canArm: bool)
    requires i < |b.schedules| && CanSave(f)
    requires IndexOfId(b.schedules, b.schedules[i].id) == Some(i)
    ensures var op := Submit(f, Some(b.schedules[i]), "").value;
      var r := Apply(b, op, canArm);
      |r.schedules| == |b.schedules| && r.schedules[i] == op.s
      && r.schedules[i].id == b.schedules[i].id
      && r.schedules[i].isEnabled == b.schedules[i].isEnabled
  {
  }
}

=== FILE: schedule_time.dfy ===
/** The clock texts of the focus schedules: the `HH:mm` strings the time
    picker writes, how the schedule receiver reads two of them back into a
    timer duration (wrapping past midnight), and the 12-hour text the
    schedule list shows. */
module ScheduleTime {
  import opened Wrappers
  import opened Numeric
  import opened Text
  import opened Focus
  import Timer

  const MINUTE_MS: int := 60_000
  const DAY_MS: int := 86_400_000

  /** The minutes past midnight of an hour and a minute. */
  function MinuteOfDay(hour: int, minute: int): int {
    hour * 60 + minute
  }

  /** The milliseconds past midnight of an hour and a minute. */
  function ClockMs(hour: int, minute: int): int {
    MinuteOfDay(hour, minute) * 60_000
  }

  /** The minutes from clock minute `a` forward to clock minute `b`,
      through midnight when `b` is earlier. */
  function ForwardMinutes(a: int, b: int): int {
    if b < a then b - a + 1440 else b - a
  }

  /** The longest prefix of `s` made of decimal digits. */
  function LeadingDigits(s: string): (r: string)
    ensures AllDigits(r)
    ensures r <= s
    ensures |r| < |s| ==> !IsDigit(s[|r|])
  {
    if s == [] || !IsDigit(s[0]) then [] else [s[0]] + LeadingDigits(s[1..])
  }

  /** `SimpleDateFormat("HH:mm").parse`: digits, a colon, digits; text after
      the minute digits is ignored and the fields are not range-checked
      (lenient parsing rolls 25:00 over into the next day, which is the
      same as adding the milliseconds).  `None` is a `ParseException`.
      The result is counted from midnight: both times of a schedule are
      parsed on the same day and in the same zone, so only their difference
      matters. */
  function ParseClock(s: string): (r: Option<int>)
    ensures ':' !in s ==> r.None?
    ensures r.Some? ==> exists h: nat, m: nat :: r.value == ClockMs(h, m)
  {
    match IndexOf(s, ':')
    case None => None
    case Some(i) =>
      var hourText := s[..i];
      var minuteText := LeadingDigits(s[i + 1..]);
      if hourText == [] || !AllDigits(hourText) || minuteText == [] then None
      else Some(ClockMs(NumeralValue(hourText), NumeralValue(minuteText)))
  }

  /** A parsed time that lies within one day. */
  predicate WithinDay(ms: int) {
    0 <= ms < DAY_MS
  }

  /** The whole minutes from `start` to `end`, an end before the start
      meaning the next day: the `Long` quotient truncates and is narrowed
      with `toInt()`. */
  function MinutesBetween(start: int, end: int): (r: Int32)
    ensures start <= end && end - start < 1440 * 60_000 ==>
      r * 60_000 <= end - start < (r + 1) * 60_000
    ensures WithinDay(start) && WithinDay(end) ==>
      var wrap := if end < start then DAY_MS else 0;
      0 <= r <= 1439 && r * 60_000 <= end - start + wrap < (r + 1) * 60_000
  {
    var diff := end - start;
    var wrapped := if diff < 0 then diff + DAY_MS else diff;
    ToInt(Quot(wrapped, MINUTE_MS))
  }

  /** `calculateDuration`: the minutes between the parsed start and end
      times, or 0 when either text does not parse (the caught exception). */
  function CalculateDuration(startTime: string, endTime: string): (r: Int32)
    ensures ParseClock(startTime).None? || ParseClock(endTime).None? ==> r == 0
    ensures ParseClock(startTime).Some? && ParseClock(endTime).Some? ==>
      r == MinutesBetween(ParseClock(startTime).value, ParseClock(endTime).value)
  {
    match (ParseClock(startTime), ParseClock(endTime))
    case (Some(start), Some(end)) => MinutesBetween(start, end)
    case _ => 0
  }

  /** Equal start and end times give a zero duration, so no timer starts. */
  lemma EqualTimesGiveZero(time: string)
    ensures CalculateDuration(time, time) == 0
  {
  }

  /** `String.padStart(2, '0')` of a picker field's `toString()`. */
  function PickerField(n: int): string {
    PadStart2(IntToString(n))
  }

  /** The text the time picker's OK button emits: `"$hour:$minute"`, both
      zero-padded to two digits.  The picker's hour lies in 0..23 and its
      minute in 0..59. */
  function PickerText(hour: int, minute: int): (text: string)
    requires 0 <= hour < 24 && 0 <= minute < 60
    ensures |text| == 5 && text[2] == ':'
    ensures AllDigits(text[..2]) && NumeralValue(text[..2]) == hour
    ensures AllDigits(text[3..]) && NumeralValue(text[3..]) == minute
  {
    Format02RoundTrip(hour);
    Format02RoundTrip(minute);
    var text := PickerField(hour) + ":" + PickerField(minute);
    assert text[..2] == Format02(hour);
    assert text[3..] == Format02(minute);
    text
  }

  /** The picker's text parses back to the time that was picked. */
  lemma PickerTextParses(hour: int, minute: int)
    requires 0 <= hour < 24 && 0 <= minute < 60
    ensures ParseClock(PickerText(hour, minute)) == Some(ClockMs(hour, minute))
    ensures WithinDay(ClockMs(hour, minute))
  {
    var text := PickerText(hour, minute);
    assert text[2] == ':';
    assert ':' !in text[..2] by { NoColonInDigits(text[..2]); }
    var i := IndexOf(text, ':');
    assert i == Some(2);
    var rest := text[3..];
    assert LeadingDigits(rest) == rest by { LeadingDigitsOfDigits(rest); }
  }

  lemma {:induction false} LeadingDigitsOfDigits(s: string)
    requires AllDigits(s)
    ensures LeadingDigits(s) == s
  {
    if s != [] {
      LeadingDigitsOfDigits(s[1..]);
    }
  }

  /** The duration of a schedule whose times came from the picker: the
      minutes from start to end around the 24-hour clock. */
  lemma PickedDuration(h1: int, m1: int, h2: int, m2: int)
    requires 0 <= h1 < 24 && 0 <= m1 < 60 && 0 <= h2 < 24 && 0 <= m2 < 60
    ensures CalculateDuration(PickerText(h1, m1), PickerText(h2, m2)) == ForwardMinutes(MinuteOfDay(h1, m1), MinuteOfDay(h2, m2))
  {
    var t1, t2 := PickerText(h1, m1), PickerText(h2, m2);
    PickerTextParses(h1, m1);
    PickerTextParses(h2, m2);
    ParsedDuration(t1, t2, h1, m1, h2, m2);
  }

  lemma ParsedDuration(t1: string, t2: string, h1: int, m1: int, h2: int, m2: int)
    requires 0 <= h1 < 24 && 0 <= m1 < 60 && 0 <= h2 < 24 && 0 <= m2 < 60
    requires ParseClock(t1) == Some(ClockMs(h1, m1)) && ParseClock(t2) == Some(ClockMs(h2, m2))
    ensures CalculateDuration(t1, t2) == ForwardMinutes(MinuteOfDay(h1, m1), MinuteOfDay(h2, m2))
  {
    var a, b := MinuteOfDay(h1, m1), MinuteOfDay(h2, m2);
    assert 0 <= a < 1440 && 0 <= b < 1440;
    WholeMinutesBetween(a, b);
  }

  /** Between two whole-minute times of one day, the duration is exact. */
  lemma WholeMinutesBetween(a: int, b: int)
    requires 0 <= a < 1440 && 0 <= b < 1440
    ensures MinutesBetween(a * 60_000, b * 60_000) == ForwardMinutes(a, b)
  {
    var d := ForwardMinutes(a, b);
    var r := MinutesBetween(a * 60_000, b * 60_000);
    assert r * 60_000 <= d * 60_000 < (r + 1) * 60_000;
    MinuteMultiples(r, d);
  }

  lemma MinuteMultiples(r: int, d: int)
    requires r * 60_000 <= d * 60_000 < (r + 1) * 60_000
    ensures r == d
  {
  }

  /** The time the picker opens at: the hour and minute read from the
      current text, 9 and 0 when a field does not parse.  `None` is the
      index error of a text without a colon. */
  function PickerInitial(initialTime: string): (r: Option<(int, int)>)
    ensures r.None? <==> ':' !in initialTime
    ensures r.Some? && ToIntOrNull(Split(initialTime, ':')[0]).None? ==> r.value.0 == 9
    ensures r.Some? && ToIntOrNull(Split(initialTime, ':')[1]).None? ==> r.value.1 == 0
  {
    var parts := Split(initialTime, ':');
    SplitHasSecondPart(initialTime, ':');
    if |parts| < 2 then None
    else Some((ToIntOrNull(parts[0]).GetOr(9), ToIntOrNull(parts[1]).GetOr(0)))
  }

  /** Re-opening the picker on the text it emitted shows the same time. */
  lemma PickerReopens(hour: int, minute: int)
    requires 0 <= hour < 24 && 0 <= minute < 60
    ensures PickerInitial(PickerText(hour, minute)) == Some((hour, minute))
  {
    PickerTextSplits(hour, minute);
  }

  /** The picker's text splits at its colon into the two padded fields,
      which read back as the hour and the minute. */
  lemma PickerTextSplits(hour: int, minute: int)
    requires 0 <= hour < 24 && 0 <= minute < 60
    ensures var text := PickerText(hour, minute);
      && Split(text, ':') == [text[..2], text[3..]]
      && ToIntOrNull(text[..2]) == Some(hour)
      && ToIntOrNull(text[3..]) == Some(minute)
  {
    var text := PickerText(hour, minute);
    NoColonInDigits(text[..2]);
    NoColonInDigits(text[3..]);
    assert text == text[..2] + [':'] + text[3..];
    SplitPair(text[..2], text[3..], ':');
  }

  /** The 12-hour reading of a 24-hour hour: `hour12` and whether it is PM. */
  function TwelveHour(hour: int): (r: (int, bool))
    ensures 0 <= hour < 24 ==> 1 <= r.0 <= 12 && r.0 % 12 + (if r.1 then 12 else 0) == hour
    ensures r.1 <==> hour >= 12
  {
    var pm := hour >= 12;
    var hour12 := if hour == 0 then 12 else if 1 <= hour <= 12 then hour else hour - 12;
    (hour12, pm)
  }

  /** `convertTo12HourFormat`: `"$hour12:$minute $period"`, the hour read
      with `toIntOrNull() ?: 0` and the minute text copied as it stands.
      `None` is the index error of a text without a colon. */
  function To12HourFormat(time24: string): (r: Option<string>)
    ensures r.None? <==> ':' !in time24
    ensures r.Some? ==> |r.value| >= 3 && r.value[|r.value| - 3..] in {" AM", " PM"}
    ensures r.Some? && ToIntOrNull(Split(time24, ':')[0]).None? ==> r.value == "12:" + Split(time24, ':')[1] + " AM"
  {
    var parts := Split(time24, ':');
    SplitHasSecondPart(time24, ':');
    if |parts| < 2 then None
    else Some(Show12(ToIntOrNull(parts[0]).GetOr(0), parts[1]))
  }

  /** `"$hour12:$minute $period"` for a 24-hour hour. */
  function Show12(hour: int, minuteText: string): (text: string)
    ensures |text| >= 3 && text[|text| - 3..] == if hour >= 12 then " PM" else " AM"
    ensures hour == 0 ==> text == "12:" + minuteText + " AM"
  {
    var (hour12, pm) := TwelveHour(hour);
    var period := if pm then " PM" else " AM";
    var text := IntToString(hour12) + ":" + minuteText + period;
    assert text[|text| - 3..] == period by { SuffixOf(IntToString(hour12) + ":" + minuteText, period); }
    assert hour == 0 ==> IntToString(hour12) == "12" by { TwelveText(); }
    text
  }

  lemma SuffixOf(a: string, b: string)
    ensures (a + b)[|a|..] == b
  {
  }

  lemma TwelveText()
    ensures IntToString(12) == "12"
  {
    assert Digits(1) == "1";
  }

  /** A picked time shows as its 12-hour hour, the padded minute and the
      period. */
  lemma PickerTextIn12Hours(hour: int, minute: int)
    requires 0 <= hour < 24 && 0 <= minute < 60
    ensures To12HourFormat(PickerText(hour, minute))
      == Some(IntToString(TwelveHour(hour).0) + ":" + PickerText(hour, minute)[3..] + (if hour >= 12 then " PM" else " AM"))
  {
    PickerTextSplits(hour, minute);
  }

  /** The intents the schedule alarms deliver to `ScheduleReceiver`, with
      their optional extras. */
  datatype ScheduleIntent =
    | StartScheduled(name: Option<string>, startTime: Option<string>, endTime: Option<string>)
    | StopScheduled
    | OtherIntent

  /** `onReceive`: the command sent to the timer service, if any.  A start
      with a positive duration starts a timer of that many minutes; a stop
      stops it; anything else does nothing. */
  function OnReceive(intent: ScheduleIntent): (r: Option<Timer.Command>)
    ensures intent.StopScheduled? ==> r == Some(Timer.StopCommand)
    ensures intent.OtherIntent? ==> r.None?
    ensures intent.StartScheduled? ==>
      var d := CalculateDuration(intent.startTime.GetOr(""), intent.endTime.GetOr(""));
      (r.Some? <==> d > 0) && (r.Some? ==> r.value == Timer.StartCommand(Some(d)))
    ensures intent.StartScheduled? && (intent.startTime.None? || intent.endTime.None?) ==> r.None?
  {
    match intent
    case StartScheduled(_, startTime, endTime) =>
      var d := CalculateDuration(startTime.GetOr(""), endTime.GetOr(""));
      if d > 0 then Some(Timer.StartCommand(Some(d))) else None
    case StopScheduled => Some(Timer.StopCommand)
    case OtherIntent => None
  }

  /** A schedule whose picked start and end differ starts, when its start
      alarm fires, a blocking timer running for the minutes between them. */
  lemma ScheduledStartRunsTimer(s: Timer.Service, h1: int, m1: int, h2: int, m2: int, nowMs: Int64)
    requires 0 <= h1 < 24 && 0 <= m1 < 60 && 0 <= h2 < 24 && 0 <= m2 < 60
    requires (h1, m1) != (h2, m2)
    ensures var cmd := OnReceive(StartScheduled(None, Some(PickerText(h1, m1)), Some(PickerText(h2, m2))));
      var minutes := ForwardMinutes(MinuteOfDay(h1, m1), MinuteOfDay(h2, m2));
      && 1 <= minutes <= 1439
      && cmd == Some(Timer.StartCommand(Some(minutes)))
      && Timer.OnStartCommandAsWritten(s, cmd.value, nowMs).service.fields == TimerFields(minutes, nowMs, true, true)
  {
    var t1, t2 := PickerText(h1, m1), PickerText(h2, m2);
    var minutes := ForwardMinutes(MinuteOfDay(h1, m1), MinuteOfDay(h2, m2));
    assert CalculateDuration(t1, t2) == minutes by {
      PickedDuration(h1, m1, h2, m2);
    }
    assert 1 <= minutes <= 1439 by {
      DistinctMinutes(h1, m1, h2, m2);
    }
    ReceivedStart(s, t1, t2, minutes, nowMs);
  }

  lemma DistinctMinutes(h1: int, m1: int, h2: int, m2: int)
    requires 0 <= m1 < 60 && 0 <= m2 < 60 && (h1, m1) != (h2, m2)
    ensures MinuteOfDay(h1, m1) != MinuteOfDay(h2, m2)
  {
    if h1 < h2 {
      assert MinuteOfDay(h1, m1) < (h1 + 1) * 60 <= MinuteOfDay(h2, m2);
    } else if h2 < h1 {
      assert MinuteOfDay(h2, m2) < (h2 + 1) * 60 <= MinuteOfDay(h1, m1);
    }
  }

  /** A start intent whose times are a positive duration apart starts the
      timer for that duration. */
  lemma ReceivedStart(s: Timer.Service, t1: string, t2: string, minutes: int, nowMs: Int64)
    requires CalculateDuration(t1, t2) == minutes && minutes > 0
    ensures var cmd := OnReceive(StartScheduled(None, Some(t1), Some(t2)));
      cmd == Some(Timer.StartCommand(Some(minutes)))
      && Timer.OnStartCommandAsWritten(s, cmd.value, nowMs).service.fields == TimerFields(minutes, nowMs, true, true)
  {
  }
}

=== FILE: schedules.dfy ===
/** Focus schedules (`Schedule`, `ScheduleViewModel`): the saved list of
    weekly time windows, its add / update / delete / toggle operations, and
    the repeating alarms each enabled schedule keeps armed, one start and
    one end alarm per chosen weekday. */
module Schedules {
  import opened Wrappers
  import opened Ordering

  /** A schedule; `daysOfWeek` counts 1 = Monday … 7 = Sunday and the two
      times are `HH:mm` texts. */
  datatype Schedule = Schedule(
    id: string,
    name: string,
    startTime: string,
    endTime: string,
    daysOfWeek: seq<int>,
    isEnabled: bool)

  /** A schedule built without naming `isEnabled` is enabled. */
  function NewSchedule(id: string, name: string, startTime: string, endTime: string, days: seq<int>): (s: Schedule)
    ensures s.isEnabled
    ensures s.id == id && s.name == name && s.daysOfWeek == days
    ensures s.startTime == startTime && s.endTime == endTime
  {
    Schedule(id, name, startTime, endTime, days, true)
  }

  predicate ValidDay(d: int) {
    1 <= d <= 7
  }

  predicate ValidDays(s: Schedule) {
    forall i :: 0 <= i < |s.daysOfWeek| ==> ValidDay(s.daysOfWeek[i])
  }

  // ---------------------------------------------------------------------
  // The list operations

  /** `indexOfFirst { it.id == id }`, `None` for -1. */
  function IndexOfId(list: seq<Schedule>, id: string): (r: Option<nat>)
    ensures r.Some? ==> (r.value < |list| && list[r.value].id == id
      && forall j :: 0 <= j < r.value ==> list[j].id != id)
    ensures r.None? <==> forall j :: 0 <= j < |list| ==> list[j].id != id
  {
    if list == [] then None
    else if list[0].id == id then Some(0)
    else match IndexOfId(list[1..], id)
      case None => None
      case Some(i) => Some(i + 1)
  }

  /** `addSchedule`: the schedule goes at the end. */
  function Added(list: seq<Schedule>, s: Schedule): (r: seq<Schedule>)
    ensures |r| == |list| + 1 && r[..|list|] == list && r[|list|] == s
  {
    list + [s]
  }

  /** `updateSchedule`: the first schedule with the same id is replaced;
      with none, the list stays as it was. */
  function Updated(list: seq<Schedule>, s: Schedule): (r: seq<Schedule>)
    ensures |r| == |list|
    ensures IndexOfId(list, s.id).None? ==> r == list
    ensures IndexOfId(list, s.id).Some? ==>
      r[IndexOfId(list, s.id).value] == s
      && forall j :: 0 <= j < |list| && j != IndexOfId(list, s.id).value ==> r[j] == list[j]
  {
    match IndexOfId(list, s.id)
    case None => list
    case Some(i) => list[i := s]
  }

  /** The test `it.id == id`. */
  function HasId(id: string): Schedule -> bool {
    (x: Schedule) => x.id == id
  }

  /** `deleteSchedule`: every schedule with the id goes; the rest stay in
      order. */
  function Deleted(list: seq<Schedule>, id: string): (r: seq<Schedule>)
    ensures forall j :: 0 <= j < |r| ==> r[j].id != id
  {
    FilterNot(list, HasId(id))
  }

  /** The schedules a deletion keeps are exactly those with another id,
      each as often as before. */
  lemma DeletedKeepsOthers(list: seq<Schedule>, id: string)
    ensures forall x :: x in Deleted(list, id) <==> x in list && x.id != id
    ensures multiset(Deleted(list, id)) + multiset(Filter(list, HasId(id))) == multiset(list)
  {
    FilterPartition(list, HasId(id));
    FilterRoutes(list, HasId(id));
    forall x | x in Deleted(list, id) ensures x in list {
      assert x in multiset(Deleted(list, id));
      assert x in multiset(list);
    }
  }

  /** A deletion keeps the order of what it keeps: it works schedule by
      schedule, dropping exactly those with the id. */
  lemma DeletedKeepsOrder(a: seq<Schedule>, b: seq<Schedule>, x: Schedule, id: string)
    ensures Deleted(a + b, id) == Deleted(a, id) + Deleted(b, id)
    ensures Deleted([x], id) == if x.id == id then [] else [x]
  {
    FilterNotConcat(a, b, HasId(id));
  }

  /** `toggleSchedule`: the first schedule with the id flips `isEnabled`
      and keeps every other field; the other schedules are untouched. */
  function Toggled(list: seq<Schedule>, id: string): (r: seq<Schedule>)
    ensures |r| == |list|
    ensures IndexOfId(list, id).None? ==> r == list
    ensures IndexOfId(list, id).Some? ==>
      var i := IndexOfId(list, id).value;
      r[i] == list[i].(isEnabled := !list[i].isEnabled)
      && forall j :: 0 <= j < |list| && j != i ==> r[j] == list[j]
  {
    match IndexOfId(list, id)
    case None => list
    case Some(i) => list[i := list[i].(isEnabled := !list[i].isEnabled)]
  }

  /** Toggling the same schedule twice restores the list. */
  lemma ToggleTwice(list: seq<Schedule>, id: string)
    ensures Toggled(Toggled(list, id), id) == list
  {
    match IndexOfId(list, id)
    case None =>
    case Some(i) =>
      var once := Toggled(list, id);
      assert IndexOfId(once, id) == Some(i) by { SameIds(list, once, id); }
  }

  /** Lists agreeing on every id agree on where an id first occurs. */
  lemma {:induction false} SameIds(a: seq<Schedule>, b: seq<Schedule>, id: string)
    requires |a| == |b| && forall j :: 0 <= j < |a| ==> a[j].id == b[j].id
    ensures IndexOfId(a, id) == IndexOfId(b, id)
  {
    if a != [] {
      SameIds(a[1..], b[1..], id);
    }
  }

  /** After an update, looking the id up finds the new schedule. */
  lemma UpdateThenFind(list: seq<Schedule>, s: Schedule)
    requires IndexOfId(list, s.id).Some?
    ensures IndexOfId(Updated(list, s), s.id) == IndexOfId(list, s.id)
    ensures Updated(list, s)[IndexOfId(list, s.id).value] == s
  {
    var i := IndexOfId(list, s.id).value;
    var r := Updated(list, s);
    assert forall j :: 0 <= j < i ==> r[j].id != s.id;
  }

  // ---------------------------------------------------------------------
  // Next occurrence of a weekday

  const SUNDAY: int := 1

  /** The schedule's day (1 = Monday … 7 = Sunday) as a `Calendar` weekday
      (1 = Sunday … 7 = Saturday). */
  function CalendarDay(day: int): (c: int)
    ensures ValidDay(day) ==> ValidDay(c)
    ensures day == 7 ==> c == SUNDAY
  {
    if day == 7 then SUNDAY else day + 1
  }

  /** The inverse reading: a `Calendar` weekday as a schedule day. */
  function ScheduleDay(c: int): int {
    if c == SUNDAY then 7 else c - 1
  }

  /** The two numberings correspond one to one. */
  lemma CalendarDayRoundTrip(day: int, c: int)
    requires ValidDay(day) && ValidDay(c)
    ensures ScheduleDay(CalendarDay(day)) == day
    ensures CalendarDay(ScheduleDay(c)) == c
  {
  }

  /** The `Calendar` weekday `k` days after `today`. */
  function WeekdayAfter(today: int, k: int): int {
    (today - 1 + k) % 7 + 1
  }

  /** The days `getNextOccurrence` adds to today for the schedule day
      `day`, `timeReached` saying whether the schedule's time today has
      already come. */
  function DaysToAdd(day: int, today: int, timeReached: bool): (r: int)
    requires ValidDay(day) && ValidDay(today)
    ensures 0 <= r <= 7
    ensures WeekdayAfter(today, r) == CalendarDay(day)
    ensures r == 0 <==> CalendarDay(day) == today && !timeReached
    ensures r == 7 <==> CalendarDay(day) == today && timeReached
    ensures forall k :: 0 < k < r ==> WeekdayAfter(today, k) != CalendarDay(day)
  {
    var target := CalendarDay(day);
    var d := target - today;
    if d < 0 then d + 7
    else if d == 0 && timeReached then 7
    else d
  }

  // ---------------------------------------------------------------------
  // Alarms

  datatype Edge = StartEdge | EndEdge

  const ACTION_START: string := "com.disciplinedminds.ACTION_START_SCHEDULED_TIMER"
  const ACTION_STOP: string := "com.disciplinedminds.ACTION_STOP_SCHEDULED_TIMER"

  function ActionOf(e: Edge): string {
    match e
    case StartEdge => ACTION_START
    case EndEdge => ACTION_STOP
  }

  /** An armed repeating alarm, identified as the platform identifies its
      pending intent: the request code (`"${id}_${day}_start"` or
      `"..._end"`) and the intent's action.  `action == None` is an intent
      built without one. */
  datatype Alarm = Alarm(scheduleId: string, day: int, edge: Edge, action: Option<string>)

  function Armed(id: string, day: int, e: Edge): Alarm {
    Alarm(id, day, e, Some(ActionOf(e)))
  }

  /** The alarms `scheduleAlarms` arms for a schedule: a start and an end
      alarm for each of its days. */
  function AlarmsOf(s: Schedule): (r: set<Alarm>)
    ensures forall a :: a in r <==> a.scheduleId == s.id && a.day in s.daysOfWeek && a.action == Some(ActionOf(a.edge))
  {
    var starts := set d | d in s.daysOfWeek :: Armed(s.id, d, StartEdge);
    var ends := set d | d in s.daysOfWeek :: Armed(s.id, d, EndEdge);
    assert forall a: Alarm :: a in starts + ends <== a.scheduleId == s.id && a.day in s.daysOfWeek && a.action == Some(ActionOf(a.edge)) by {
      forall a: Alarm | a.scheduleId == s.id && a.day in s.daysOfWeek && a.action == Some(ActionOf(a.edge))
        ensures a in starts + ends
      {
        if a.edge == StartEdge { assert a == Armed(s.id, a.day, StartEdge); }
        else { assert a == Armed(s.id, a.day, EndEdge); }
      }
    }
    starts + ends
  }

  /** `scheduleAlarms`; `canArm` is whether exact alarms may be set (always
      below Android 12).  Re-arming an alarm with the same identity
      replaces it. */
  function ScheduleAlarms(alarms: set<Alarm>, s: Schedule, canArm: bool): (r: set<Alarm>)
    ensures canArm ==> r == alarms + AlarmsOf(s)
    ensures !canArm ==> r == alarms
  {
    if canArm then alarms + AlarmsOf(s) else alarms
  }

  /** The pending intents `cancelScheduleAlarms` cancels: the start and
      end request codes of days 1 to 7, each with the action given. */
  function CancelTargets(id: string, startAction: Option<string>, endAction: Option<string>): (r: set<Alarm>)
    ensures forall a :: a in r <==> (a.scheduleId == id && ValidDay(a.day)
      && a.action == (if a.edge == StartEdge then startAction else endAction))
  {
    var starts := set d | 1 <= d <= 7 :: Alarm(id, d, StartEdge, startAction);
    var ends := set d | 1 <= d <= 7 :: Alarm(id, d, EndEdge, endAction);
    assert forall a: Alarm :: a in starts + ends <== a.scheduleId == id && ValidDay(a.day)
      && a.action == (if a.edge == StartEdge then startAction else endAction) by {
      forall a: Alarm | a.scheduleId == id && ValidDay(a.day) && a.action == (if a.edge == StartEdge then startAction else endAction)
        ensures a in starts + ends
      {
        if a.edge == StartEdge { assert a == Alarm(id, a.day, StartEdge, startAction); }
        else { assert a == Alarm(id, a.day, EndEdge, endAction); }
      }
    }
    starts + ends
  }

  /** `cancelScheduleAlarms` as written: its intents carry no action, so
      they do not match the armed ones. */
  function CancelAlarmsAsWritten(alarms: set<Alarm>, id: string): (r: set<Alarm>)
    ensures r <= alarms
  {
    alarms - CancelTargets(id, None, None)
  }

  /** Every alarm the schedule model arms carries its action, so the
      cancellation as written cancels nothing. */
  lemma CancelAsWrittenCancelsNothing(alarms: set<Alarm>, id: string)
    requires forall a :: a in alarms ==> a.action.Some?
    ensures CancelAlarmsAsWritten(alarms, id) == alarms
  {
  }

  /** `cancelScheduleAlarms` with intents carrying the actions the alarms
      were armed with. */
  function CancelAlarms(alarms: set<Alarm>, id: string): (r: set<Alarm>)
    ensures r <= alarms
    ensures forall a :: a in alarms && a.scheduleId != id ==> a in r
  {
    alarms - CancelTargets(id, Some(ACTION_START), Some(ACTION_STOP))
  }

  /** Alarms armed for valid days, with the actions of their edges. */
  predicate WellFormed(alarms: set<Alarm>) {
    forall a :: a in alarms ==> ValidDay(a.day) && a.action == Some(ActionOf(a.edge))
  }

  /** On well-formed alarms, the corrected cancellation leaves none of the
      schedule's alarms. */
  lemma CancelRemovesAll(alarms: set<Alarm>, id: string)
    requires WellFormed(alarms)
    ensures forall a :: a in CancelAlarms(alarms, id) ==> a.scheduleId != id
  {
  }

  // ---------------------------------------------------------------------
  // The view model

  /** The view model's list, the list saved in the `schedules`
      preferences (`None` before the first save; the JSON codec is taken to
      round-trip), and the armed alarms. */
  datatype Book = Book(schedules: seq<Schedule>, saved: Option<seq<Schedule>>, alarms: set<Alarm>)

  /** `loadSchedules`: the saved list, or an empty one. */
  function Load(saved: Option<seq<Schedule>>, alarms: set<Alarm>): (b: Book)
    ensures saved.None? ==> b.schedules == []
    ensures saved.Some? ==> b.schedules == saved.value
  {
    Book(saved.GetOr([]), saved, alarms)
  }

  /** The operations the schedule screen calls. */
  datatype ScheduleOp = AddOp(s: Schedule) | UpdateOp(s: Schedule) | DeleteOp(id: string) | ToggleOp(id: string)

  /** One operation on the book; `canArm` as in `ScheduleAlarms`.  Each
      changed list is saved before it is published. */
  function Apply(b: Book, op: ScheduleOp, canArm: bool): (r: Book)
    ensures op.AddOp? ==> r.schedules == Added(b.schedules, op.s)
    ensures op.UpdateOp? ==> r.schedules == Updated(b.schedules, op.s)
    ensures op.DeleteOp? ==> r.schedules == Deleted(b.schedules, op.id)
    ensures op.ToggleOp? ==> r.schedules == Toggled(b.schedules, op.id)
    ensures r.saved == b.saved || r.saved == Some(r.schedules)
    ensures r.schedules != b.schedules ==> r.saved == Some(r.schedules)
  {
    match op
    case AddOp(s) =>
      var list := Added(b.schedules, s);
      Book(list, Some(list), if s.isEnabled then ScheduleAlarms(b.alarms, s, canArm) else b.alarms)
    case UpdateOp(s) =>
      if IndexOfId(b.schedules, s.id).None? then b
      else
        var list := Updated(b.schedules, s);
        var cancelled := CancelAlarms(b.alarms, s.id);
        Book(list, Some(list), if s.isEnabled then ScheduleAlarms(cancelled, s, canArm) else cancelled)
    case DeleteOp(id) =>
      var list := Deleted(b.schedules, id);
      Book(list, Some(list), CancelAlarms(b.alarms, id))
    case ToggleOp(id) =>
      match IndexOfId(b.schedules, id)
      case None => b
      case Some(i) =>
        var list := Toggled(b.schedules, id);
        var updated := list[i];
        Book(list, Some(list), if updated.isEnabled then ScheduleAlarms(b.alarms, updated, canArm) else CancelAlarms(b.alarms, id))
  }

  /** One operation on the book as the view model is written: the same
      list changes and saves, with every cancellation done by
      `CancelAlarmsAsWritten`. */
  function ApplyAsWritten(b: Book, op: ScheduleOp, canArm: bool): (r: Book)
    ensures r.schedules == Apply(b, op, canArm).schedules && r.saved == Apply(b, op, canArm).saved
    ensures r.alarms <= b.alarms + Apply(b, op, canArm).alarms
  {
    match op
    case AddOp(s) => Apply(b, op, canArm)
    case UpdateOp(s) =>
      if IndexOfId(b.schedules, s.id).None? then b
      else
        var list := Updated(b.schedules, s);
        var cancelled := CancelAlarmsAsWritten(b.alarms, s.id);
        Book(list, Some(list), if s.isEnabled then ScheduleAlarms(cancelled, s, canArm) else cancelled)
    case DeleteOp(id) =>
      var list := Deleted(b.schedules, id);
      Book(list, Some(list), CancelAlarmsAsWritten(b.alarms, id))
    case ToggleOp(id) =>
      match IndexOfId(b.schedules, id)
      case None => b
      case Some(i) =>
        var list := Toggled(b.schedules, id);
        var updated := list[i];
        Book(list, Some(list), if updated.isEnabled then ScheduleAlarms(b.alarms, updated, canArm) else CancelAlarmsAsWritten(b.alarms, id))
  }

  /** As written, no operation ever disarms an alarm: the book keeps every
      alarm it had and gains exactly those the corrected operation arms. */
  lemma AsWrittenNeverDisarms(b: Book, op: ScheduleOp, canArm: bool)
    requires WellFormed(b.alarms)
    ensures ApplyAsWritten(b, op, canArm).alarms == b.alarms + Apply(b, op, canArm).alarms
  {
    match op
    case AddOp(_) =>
    case UpdateOp(s) => CancelAsWrittenCancelsNothing(b.alarms, s.id);
    case DeleteOp(id) => CancelAsWrittenCancelsNothing(b.alarms, id);
    case ToggleOp(id) => CancelAsWrittenCancelsNothing(b.alarms, id);
  }

  /** The book the view model keeps consistent: every schedule has valid
      days, the alarms are well formed, and each armed alarm belongs to an
      enabled schedule in the list. */
  predicate Consistent(b: Book) {
    && (forall i :: 0 <= i < |b.schedules| ==> ValidDays(b.schedules[i]))
    && WellFormed(b.alarms)
    && forall a :: a in b.alarms ==> exists i :: 0 <= i < |b.schedules| && b.schedules[i].isEnabled && a in AlarmsOf(b.schedules[i])
  }

  /** The empty book of a fresh install. */
  const EMPTY_BOOK: Book := Book([], None, {})

  /** Every operation keeps the book consistent, as long as the schedules
      it brings in have valid days. */
  lemma ApplyKeepsConsistent(b: Book, op: ScheduleOp, canArm: bool)
    requires Consistent(b)
    requires BringsValidDays(op)
    ensures Consistent(Apply(b, op, canArm))
  {
    match op
    case AddOp(s) => AddKeepsConsistent(b, s, canArm);
    case UpdateOp(s) => UpdateKeepsConsistent(b, s, canArm);
    case DeleteOp(id) => DeleteKeepsConsistent(b, id);
    case ToggleOp(id) => ToggleKeepsConsistent(b, id, canArm);
  }

  lemma AddKeepsConsistent(b: Book, s: Schedule, canArm: bool)
    requires Consistent(b) && ValidDays(s)
    ensures Consistent(Apply(b, AddOp(s), canArm))
  {
    var r := Apply(b, AddOp(s), canArm);
    var n := |b.schedules|;
    forall a | a in r.alarms
      ensures exists i :: 0 <= i < |r.schedules| && r.schedules[i].isEnabled && a in AlarmsOf(r.schedules[i])
    {
      if a in b.alarms {
        var i :| 0 <= i < n && b.schedules[i].isEnabled && a in AlarmsOf(b.schedules[i]);
        assert r.schedules[i] == b.schedules[i];
      } else {
        assert r.schedules[n] == s;
      }
    }
  }

  lemma UpdateKeepsConsistent(b: Book, s: Schedule, canArm: bool)
    requires Consistent(b) && ValidDays(s)
    ensures Consistent(Apply(b, UpdateOp(s), canArm))
  {
    if IndexOfId(b.schedules, s.id).Some? {
      var k := IndexOfId(b.schedules, s.id).value;
      var r := Apply(b, UpdateOp(s), canArm);
      forall a | a in r.alarms
        ensures exists i :: 0 <= i < |r.schedules| && r.schedules[i].isEnabled && a in AlarmsOf(r.schedules[i])
      {
        if a.scheduleId == s.id {
          assert r.schedules[k] == s;
        } else {
          var i :| 0 <= i < |b.schedules| && b.schedules[i].isEnabled && a in AlarmsOf(b.schedules[i]);
          assert b.schedules[i].id != s.id;
          assert r.schedules[i] == b.schedules[i];
        }
      }
    }
  }

  lemma DeleteKeepsConsistent(b: Book, id: string)
    requires Consistent(b)
    ensures Consistent(Apply(b, DeleteOp(id), false))
  {
    var r := Apply(b, DeleteOp(id), false);
    DeletedKeepsOthers(b.schedules, id);
    forall j | 0 <= j < |r.schedules| ensures ValidDays(r.schedules[j]) {
      assert r.schedules[j] in b.schedules;
    }
    CancelRemovesAll(b.alarms, id);
    forall a | a in r.alarms
      ensures exists i :: 0 <= i < |r.schedules| && r.schedules[i].isEnabled && a in AlarmsOf(r.schedules[i])
    {
      var i :| 0 <= i < |b.schedules| && b.schedules[i].isEnabled && a in AlarmsOf(b.schedules[i]);
      KeptScheduleWitness(b.schedules, id, b.schedules[i], a);
    }
  }

  lemma KeptScheduleWitness(list: seq<Schedule>, id: string, t: Schedule, a: Alarm)
    requires t in list && t.isEnabled && a in AlarmsOf(t) && a.scheduleId != id
    ensures exists j :: 0 <= j < |Deleted(list, id)| && Deleted(list, id)[j].isEnabled && a in AlarmsOf(Deleted(list, id)[j])
  {
    DeletedKeepsOthers(list, id);
    var kept := Deleted(list, id);
    assert t in kept;
    var j :| 0 <= j < |kept| && kept[j] == t;
  }

  lemma ToggleKeepsConsistent(b: Book, id: string, canArm: bool)
    requires Consistent(b)
    ensures Consistent(Apply(b, ToggleOp(id), canArm))
  {
    if IndexOfId(b.schedules, id).Some? {
      var k := IndexOfId(b.schedules, id).value;
      var r := Apply(b, ToggleOp(id), canArm);
      assert ValidDays(r.schedules[k]) by { assert r.schedules[k].daysOfWeek == b.schedules[k].daysOfWeek; }
      forall a | a in r.alarms
        ensures exists i :: 0 <= i < |r.schedules| && r.schedules[i].isEnabled && a in AlarmsOf(r.schedules[i])
      {
        if r.schedules[k].isEnabled && a in AlarmsOf(r.schedules[k]) {
        } else {
          var i :| 0 <= i < |b.schedules| && b.schedules[i].isEnabled && a in AlarmsOf(b.schedules[i]);
          assert i != k;
          assert r.schedules[i] == b.schedules[i];
        }
      }
    }
  }

  /** A run of operations from the screen, in order. */
  function ApplyAll(b: Book, ops: seq<ScheduleOp>, canArm: bool): Book
    decreases |ops|
  {
    if ops == [] then b else ApplyAll(Apply(b, ops[0], canArm), ops[1..], canArm)
  }

  /** The schedules an operation brings in have valid days. */
  predicate BringsValidDays(op: ScheduleOp) {
    (op.AddOp? || op.UpdateOp?) ==> ValidDays(op.s)
  }

  /** However the screen edits the schedules, every armed alarm still
      belongs to an enabled schedule in the list. */
  lemma {:induction false} ApplyAllKeepsConsistent(b: Book, ops: seq<ScheduleOp>, canArm: bool)
    requires Consistent(b)
    requires forall i :: 0 <= i < |ops| ==> BringsValidDays(ops[i])
    ensures Consistent(ApplyAll(b, ops, canArm))
    decreases |ops|
  {
    if ops != [] {
      ApplyKeepsConsistent(b, ops[0], canArm);
      ApplyAllKeepsConsistent(Apply(b, ops[0], canArm), ops[1..], canArm);
    }
  }

  /** After a deletion no alarm of the schedule is left armed, and every
      other schedule's alarms are. */
  lemma DeleteDisarms(b: Book, id: string, canArm: bool)
    requires Consistent(b)
    ensures forall a :: a in Apply(b, DeleteOp(id), canArm).alarms ==> a.scheduleId != id
    ensures forall a :: a in b.alarms && a.scheduleId != id ==> a in Apply(b, DeleteOp(id), canArm).alarms
  {
    CancelRemovesAll(b.alarms, id);
  }

  /** Switching a schedule off leaves none of its alarms armed. */
  lemma ToggleOffDisarms(b: Book, id: string, canArm: bool)
    requires Consistent(b)
    requires IndexOfId(b.schedules, id).Some? && b.schedules[IndexOfId(b.schedules, id).value].isEnabled
    ensures forall a :: a in Apply(b, ToggleOp(id), canArm).alarms ==> a.scheduleId != id
  {
    CancelRemovesAll(b.alarms, id);
  }

  /** The focus window used below: Mondays, 09:00 to 17:00. */
  const WORK: Schedule := Schedule("w", "Work", "09:00", "17:00", [1], true)

  /** As written, a deleted schedule keeps its alarms: after adding WORK
      and deleting it, the list is empty but Monday's start alarm is still
      armed, so the timer starts every Monday at nine. */
  lemma DeletedScheduleStillFires()
    ensures var added := Apply(EMPTY_BOOK, AddOp(WORK), true);
      var deleted := ApplyAsWritten(added, DeleteOp(WORK.id), true);
      && deleted.schedules == []
      && Armed(WORK.id, 1, StartEdge) in deleted.alarms
      && !Consistent(deleted)
  {
    var added := Apply(EMPTY_BOOK, AddOp(WORK), true);
    assert Armed(WORK.id, 1, StartEdge) in AlarmsOf(WORK);
    assert Armed(WORK.id, 1, StartEdge) in added.alarms;
    CancelAsWrittenCancelsNothing(added.alarms, WORK.id);
    assert Deleted(added.schedules, WORK.id) == [];
  }
}

=== FILE: text.dfy ===
/** Decimal text as the Kotlin and Java libraries write and read it:
    `Int.toString()`, `String.format("%02d")`, `padStart(2, '0')`,
    `toIntOrNull()`, `split(":")` and blank-string tests.  Digits are ASCII
    (the format locale is taken to use Latin digits). */
module Text {
  import opened Wrappers
  import opened Numeric

  predicate IsDigit(c: char) {
    '0' <= c <= '9'
  }

  predicate AllDigits(s: string) {
    forall i :: 0 <= i < |s| ==> IsDigit(s[i])
  }

  function DigitChar(d: nat): (c: char)
    requires d < 10
    ensures IsDigit(c)
  {
    ('0' as int + d) as char
  }

  function DigitValue(c: char): (d: nat)
    requires IsDigit(c)
    ensures d < 10
    ensures DigitChar(d) == c
  {
    c as int - '0' as int
  }

  /** The shortest decimal numeral of `n`, most significant digit first. */
  function Digits(n: nat): (s: string)
    ensures 1 <= |s|
    ensures AllDigits(s)
    ensures |s| == 1 <==> n < 10
    ensures s[0] == '0' ==> n == 0
  {
    if n < 10 then [DigitChar(n)] else Digits(n / 10) + [DigitChar(n % 10)]
  }

  /** The value a string of decimal digits denotes. */
  function NumeralValue(s: string): nat
    requires AllDigits(s)
  {
    if s == [] then 0 else NumeralValue(s[..|s| - 1]) * 10 + DigitValue(s[|s| - 1])
  }

  /** Reading back a numeral gives the number that was written. */
  lemma {:induction false} DigitsRoundTrip(n: nat)
    ensures NumeralValue(Digits(n)) == n
  {
    if n >= 10 {
      DigitsRoundTrip(n / 10);
      var s := Digits(n);
      assert s[..|s| - 1] == Digits(n / 10);
      assert DigitValue(s[|s| - 1]) == n % 10;
    }
  }

  /** Leading zeros do not change the value of a numeral. */
  lemma {:induction false} LeadingZeroValue(s: string)
    requires AllDigits(s)
    ensures AllDigits("0" + s)
    ensures NumeralValue("0" + s) == NumeralValue(s)
  {
    var t := "0" + s;
    if s != [] {
      assert t[..|t| - 1] == "0" + s[..|s| - 1];
      LeadingZeroValue(s[..|s| - 1]);
    } else {
      assert t[..|t| - 1] == [];
    }
  }

  /** `Int.toString()` and `Long.toString()`. */
  function IntToString(i: int): (s: string)
    ensures i >= 0 ==> s == Digits(i)
    ensures i < 0 ==> s == "-" + Digits(-i)
  {
    if i < 0 then "-" + Digits(-i) else Digits(i)
  }

  /** `padStart(2, '0')`: zeros are prepended until the length is two. */
  function PadStart2(s: string): (r: string)
    ensures |r| == if |s| < 2 then 2 else |s|
    ensures r[|r| - |s|..] == s
    ensures forall i :: 0 <= i < |r| - |s| ==> r[i] == '0'
  {
    if |s| == 0 then "00" else if |s| == 1 then "0" + s else s
  }

  /** `String.format("%02d", n)`: the numeral of `n` zero-padded to width
      two; the padding goes after the sign, so a negative value already has
      the width and is written as plain `toString()`. */
  function Format02(n: int): (r: string)
    ensures n >= 0 ==> r == PadStart2(Digits(n))
    ensures n < 0 ==> r == IntToString(n)
  {
    if 0 <= n < 10 then "0" + Digits(n) else IntToString(n)
  }

  /** A non-negative value formatted with `%02d` has at least two digits
      and reads back as itself. */
  lemma Format02RoundTrip(n: nat)
    ensures |Format02(n)| >= 2
    ensures n < 100 ==> |Format02(n)| == 2
    ensures AllDigits(Format02(n))
    ensures NumeralValue(Format02(n)) == n
    ensures |Format02(n)| == 2 || Format02(n)[0] != '0'
  {
    DigitsRoundTrip(n);
    if n < 10 {
      LeadingZeroValue(Digits(n));
    } else if n < 100 {
      assert |Digits(n / 10)| == 1;
    }
  }

  /** Kotlin `String.toIntOrNull()`: an optional `+` or `-` followed by at
      least one decimal digit, whose value fits in an `Int`.  Only the ASCII
      digits `0`-`9` are digits here. */
  function ToIntOrNull(s: string): (r: Option<Int32>)
    ensures r.Some? ==> s != []
    ensures r.Some? && s[0] != '-' && s[0] != '+' ==> AllDigits(s) && r.value == NumeralValue(s)
    ensures r.Some? && s[0] == '-' ==> AllDigits(s[1..]) && r.value == -(NumeralValue(s[1..]) as int)
    ensures r.Some? && s[0] == '+' ==> AllDigits(s[1..]) && r.value == NumeralValue(s[1..])
    ensures AllDigits(s) && s != [] && NumeralValue(s) <= INT_MAX ==> r == Some(NumeralValue(s))
    ensures s == [] ==> r.None?
  {
    if s == [] then None
    else if s[0] == '-' || s[0] == '+' then
      var body := s[1..];
      if body == [] || !AllDigits(body) then None
      else
        var v := if s[0] == '-' then -(NumeralValue(body) as int) else NumeralValue(body) as int;
        if INT_MIN <= v <= INT_MAX then Some(v) else None
    else if !AllDigits(s) then None
    else if NumeralValue(s) <= INT_MAX then Some(NumeralValue(s))
    else None
  }

  /** Every value of `Int`, written with `toString()`, is read back by
      `toIntOrNull()`. */
  lemma ToIntOrNullRoundTrip(i: Int32)
    ensures ToIntOrNull(IntToString(i)) == Some(i)
  {
    if i < 0 {
      NegativeReadsBack(-(i as int));
    } else {
      DigitsRoundTrip(i);
    }
  }

  /** A minus sign before the numeral of `n` reads back as `-n`. */
  lemma NegativeReadsBack(n: int)
    requires 0 < n <= -INT_MIN
    ensures ToIntOrNull("-" + Digits(n)) == Some(-n)
  {
    var s := "-" + Digits(n);
    assert s[0] == '-' && s[1..] == Digits(n);
    DigitsRoundTrip(n);
  }

  /** Index of the first occurrence of `c` in `s`, if any. */
  function IndexOf(s: string, c: char): (r: Option<nat>)
    ensures r.Some? ==> r.value < |s| && s[r.value] == c && c !in s[..r.value]
    ensures r.None? <==> c !in s
  {
    if s == [] then None
    else if s[0] == c then Some(0)
    else match IndexOf(s[1..], c)
      case None => None
      case Some(i) => (assert s[1..][..i] == s[1..i + 1]; Some(i + 1))
  }

  /** Kotlin `split(sep)` for a one-character separator: every part, in
      order, trailing empty parts included. */
  function Split(s: string, sep: char): (parts: seq<string>)
    ensures |parts| >= 1
    ensures forall i :: 0 <= i < |parts| ==> sep !in parts[i]
    ensures sep !in s ==> parts == [s]
    decreases |s|
  {
    match IndexOf(s, sep)
    case None => [s]
    case Some(i) => [s[..i]] + Split(s[i + 1..], sep)
  }

  /** Joining the parts with the separator gives back the original text. */
  function Join(parts: seq<string>, sep: char): string
    requires |parts| >= 1
  {
    if |parts| == 1 then parts[0] else parts[0] + [sep] + Join(parts[1..], sep)
  }

  lemma {:induction false} SplitJoin(s: string, sep: char)
    ensures Join(Split(s, sep), sep) == s
    decreases |s|
  {
    match IndexOf(s, sep)
    case None =>
    case Some(i) =>
      var rest := s[i + 1..];
      SplitJoin(rest, sep);
      var tail := Split(rest, sep);
      assert Split(s, sep) == [s[..i]] + tail;
      JoinCons(s[..i], tail, sep);
      AroundIndex(s, i);
  }

  /** A sequence is its prefix, the element at `i` and its suffix. */
  lemma AroundIndex(s: string, i: nat)
    requires i < |s|
    ensures s == s[..i] + [s[i]] + s[i + 1..]
  {
  }

  lemma JoinCons(first: string, parts: seq<string>, sep: char)
    requires |parts| >= 1
    ensures Join([first] + parts, sep) == first + [sep] + Join(parts, sep)
  {
    assert ([first] + parts)[1..] == parts;
  }

  /** A split has at least two parts exactly when the separator occurs. */
  lemma SplitHasSecondPart(s: string, sep: char)
    ensures |Split(s, sep)| >= 2 <==> sep in s
  {
  }

  /** `Char.isWhitespace()`: the controls U+0009 to U+000D and U+001C to
      U+001F, the space separators, and the line and paragraph separators. */
  predicate IsWhitespace(c: char) {
    || '\t' <= c <= '\r'
    || '\U{001C}' <= c <= '\U{001F}'
    || c == ' ' || c == '\U{00A0}' || c == '\U{1680}'
    || '\U{2000}' <= c <= '\U{200A}'
    || c == '\U{202F}' || c == '\U{205F}' || c == '\U{3000}'
    || c == '\U{2028}' || c == '\U{2029}'
  }

  /** `CharSequence.isBlank()`: empty or whitespace only. */
  predicate IsBlank(s: string) {
    forall i :: 0 <= i < |s| ==> IsWhitespace(s[i])
  }

  /** `Char.lowercaseChar()` on ASCII letters; every other character is
      left unchanged. */
  function LowerChar(c: char): char {
    if 'A' <= c <= 'Z' then (c as int - 'A' as int + 'a' as int) as char else c
  }

  /** `String.lowercase()` on ASCII letters only: one character for one,
      so the length never changes. */
  function Lowercase(s: string): (r: string)
    ensures |r| == |s|
    ensures forall i :: 0 <= i < |s| ==> r[i] == LowerChar(s[i])
  {
    if s == [] then [] else [LowerChar(s[0])] + Lowercase(s[1..])
  }

  /** The `"%02d:%02d"` clock text of a minute and a second count. */
  function ClockText(minutes: int, seconds: int): string {
    Format02(minutes) + ":" + Format02(seconds)
  }

  /** The separator found in `a + [sep] + b` is the one between the halves
      when `a` does not contain it. */
  lemma {:induction false} SplitPair(a: string, b: string, sep: char)
    requires sep !in a && sep !in b
    ensures Split(a + [sep] + b, sep) == [a, b]
  {
    var s := a + [sep] + b;
    assert s[|a|] == sep;
    var i := IndexOf(s, sep);
    assert forall j :: 0 <= j < |a| ==> s[j] == a[j];
    assert forall j :: 0 <= j < i.value ==> s[..i.value][j] == s[j];
    assert i.value == |a|;
    assert s[..|a|] == a;
    assert s[|a| + 1..] == b;
  }

  /** A clock text of non-negative counts splits at `:` into two numerals,
      each at least two digits wide, that read back as the minutes and the
      seconds. */
  lemma ClockTextRoundTrip(minutes: nat, seconds: nat)
    ensures |Split(ClockText(minutes, seconds), ':')| == 2
    ensures AllDigits(Split(ClockText(minutes, seconds), ':')[0])
    ensures AllDigits(Split(ClockText(minutes, seconds), ':')[1])
    ensures NumeralValue(Split(ClockText(minutes, seconds), ':')[0]) == minutes
    ensures NumeralValue(Split(ClockText(minutes, seconds), ':')[1]) == seconds
    ensures |Split(ClockText(minutes, seconds), ':')[0]| >= 2
    ensures |Split(ClockText(minutes, seconds), ':')[0]| == 2 || Split(ClockText(minutes, seconds), ':')[0][0] != '0'
    ensures seconds < 60 ==> |Split(ClockText(minutes, seconds), ':')[1]| == 2
  {
    Format02RoundTrip(minutes);
    Format02RoundTrip(seconds);
    NoColonInDigits(Format02(minutes));
    NoColonInDigits(Format02(seconds));
    SplitPair(Format02(minutes), Format02(seconds), ':');
  }

  lemma NoColonInDigits(s: string)
    requires AllDigits(s)
    ensures ':' !in s
  {
    assert forall i :: 0 <= i < |s| ==> s[i] != ':';
  }
}

=== FILE: timer.dfy ===
/** The focus-timer service (`TimerService`): commands start, stop and
    extend the timer; a countdown ticking once a second either reports the
    time left or, when none is left, completes the session.  Each step
    returns the broadcasts it sends. */
module Timer {
  import opened Wrappers
  import opened Numeric
  import opened Text
  import opened Focus

  const DEFAULT_DURATION_MINUTES: Int32 := 30
  const DEFAULT_EXTEND_MINUTES: Int32 := 15

  /** The intent actions `onStartCommand` reacts to, with their optional
      integer extras; `OtherCommand` is any other intent, or none. */
  datatype Command =
    | StartCommand(duration: Option<Int32>)
    | StopCommand
    | ExtendCommand(minutes: Option<Int32>)
    | OtherCommand

  /** The extras of a `TIMER_UPDATE` broadcast. */
  datatype Broadcast =
    | TimerStarted
    | TimerStopped
    | TimerCompleted
    | TimerExtended
    | RemainingTime(ms: Int64)

  /** The countdown tasks alive in the process: whether the service still
      holds a reference to one, and how many it has lost every reference
      to.  A lost countdown can no longer be cancelled. */
  datatype Countdowns = Countdowns(tracked: bool, orphans: nat)

  function Live(c: Countdowns): (n: nat)
    ensures n == 0 <==> !c.tracked && c.orphans == 0
  {
    c.orphans + if c.tracked then 1 else 0
  }

  datatype Service = Service(fields: TimerFields, countdowns: Countdowns)

  /** A service process that has never started a timer. */
  const FRESH: Service := Service(IDLE_TIMER, Countdowns(false, 0))

  datatype Step = Step(service: Service, broadcasts: seq<Broadcast>)

  /** `startTimer` as written: the fields are set and a new countdown is
      scheduled, but a countdown already running is not cancelled first, so
      it is orphaned. */
  function StartTimerAsWritten(s: Service, minutes: Int32, nowMs: Int64): (r: Step)
    ensures r.service.fields == TimerFields(minutes, nowMs, true, true)
    ensures r.service.countdowns.tracked
    ensures Live(r.service.countdowns) == Live(s.countdowns) + 1
    ensures r.broadcasts == [TimerStarted]
  {
    var orphaned := s.countdowns.orphans + if s.countdowns.tracked then 1 else 0;
    Step(Service(TimerFields(minutes, nowMs, true, true), Countdowns(true, orphaned)), [TimerStarted])
  }

  /** `startTimer` with the running countdown cancelled before the new one is
      scheduled: the service keeps exactly one countdown of its own. */
  function StartTimer(s: Service, minutes: Int32, nowMs: Int64): (r: Step)
    ensures r.service.fields == TimerFields(minutes, nowMs, true, true)
    ensures r.service.countdowns == Countdowns(true, s.countdowns.orphans)
    ensures r.broadcasts == [TimerStarted]
  {
    Step(Service(TimerFields(minutes, nowMs, true, true), Countdowns(true, s.countdowns.orphans)), [TimerStarted])
  }

  /** `stopTimer`: the tracked countdown is cancelled and the timer is
      neither active nor blocking; duration and start time stay. */
  function StopTimer(s: Service): (r: Step)
    ensures !r.service.fields.active && !r.service.fields.blockingEnabled
    ensures r.service.fields.durationMinutes == s.fields.durationMinutes
    ensures r.service.fields.startTimeMs == s.fields.startTimeMs
    ensures Live(r.service.countdowns) == s.countdowns.orphans
    ensures r.broadcasts == [TimerStopped]
  {
    Step(Service(s.fields.(active := false, blockingEnabled := false), s.countdowns.(tracked := false)), [TimerStopped])
  }

  /** `extendTimer`: only an active timer is extended; its duration grows by
      `minutes` with `Int` wrap-around.  An inactive timer is left alone and
      nothing is broadcast. */
  function ExtendTimer(s: Service, minutes: Int32): (r: Step)
    ensures !s.fields.active ==> r == Step(s, [])
    ensures s.fields.active ==> (r.broadcasts == [TimerExtended]
      && r.service == s.(fields := s.fields.(durationMinutes := r.service.fields.durationMinutes)))
    ensures s.fields.active && INT_MIN <= s.fields.durationMinutes + minutes <= INT_MAX ==>
      r.service.fields.durationMinutes == s.fields.durationMinutes + minutes
  {
    if s.fields.active then
      Step(s.(fields := s.fields.(durationMinutes := ToInt(s.fields.durationMinutes + minutes))), [TimerExtended])
    else Step(s, [])
  }

  /** One run of a live countdown task, `fromTracked` telling which one.
      With no time left the countdown cancels itself and the session completes;
      otherwise the time left is broadcast. */
  function Tick(s: Service, fromTracked: bool, remaining: Int64): (r: Step)
    requires if fromTracked then s.countdowns.tracked else s.countdowns.orphans > 0
    ensures remaining > 0 ==> r == Step(s, [RemainingTime(remaining)])
    ensures remaining <= 0 ==> (r.broadcasts == [TimerCompleted]
      && !r.service.fields.active && !r.service.fields.blockingEnabled
      && Live(r.service.countdowns) + 1 == Live(s.countdowns))
  {
    if remaining > 0 then Step(s, [RemainingTime(remaining)])
    else
      var c := if fromTracked then s.countdowns.(tracked := false) else s.countdowns.(orphans := s.countdowns.orphans - 1);
      Step(Service(s.fields.(active := false, blockingEnabled := false), c), [TimerCompleted])
  }

  /** `onStartCommand` as written: START goes to `startTimer` as written,
      which orphans a countdown already running. */
  function OnStartCommandAsWritten(s: Service, cmd: Command, nowMs: Int64): (r: Step)
    ensures cmd.StartCommand? ==>
      && r.service.fields == TimerFields(cmd.duration.GetOr(DEFAULT_DURATION_MINUTES), nowMs, true, true)
      && r.broadcasts == [TimerStarted] && Live(r.service.countdowns) == Live(s.countdowns) + 1
    ensures cmd.StopCommand? ==> !r.service.fields.active && !r.service.countdowns.tracked
    ensures cmd.ExtendCommand? && s.fields.active && cmd.minutes.None? ==>
      r.service.fields.durationMinutes == ToInt(s.fields.durationMinutes + DEFAULT_EXTEND_MINUTES)
    ensures cmd.OtherCommand? ==> r == Step(s, [])
    ensures !cmd.StartCommand? ==> r.service.countdowns.orphans == s.countdowns.orphans
  {
    match cmd
    case StartCommand(d) => StartTimerAsWritten(s, d.GetOr(DEFAULT_DURATION_MINUTES), nowMs)
    case StopCommand => StopTimer(s)
    case ExtendCommand(m) => ExtendTimer(s, m.GetOr(DEFAULT_EXTEND_MINUTES))
    case OtherCommand => Step(s, [])
  }

  /** `onStartCommand` with the countdown-cancelling start. */
  function OnStartCommand(s: Service, cmd: Command, nowMs: Int64): (r: Step)
    ensures cmd.StartCommand? ==> r.service.fields == TimerFields(cmd.duration.GetOr(DEFAULT_DURATION_MINUTES), nowMs, true, true)
    ensures cmd.StopCommand? ==> !r.service.fields.active && !r.service.countdowns.tracked
    ensures cmd.ExtendCommand? && s.fields.active && cmd.minutes.None? ==>
      r.service.fields.durationMinutes == ToInt(s.fields.durationMinutes + DEFAULT_EXTEND_MINUTES)
    ensures cmd.OtherCommand? ==> r == Step(s, [])
    ensures r.service.countdowns.orphans == s.countdowns.orphans
  {
    match cmd
    case StartCommand(d) => StartTimer(s, d.GetOr(DEFAULT_DURATION_MINUTES), nowMs)
    case StopCommand => StopTimer(s)
    case ExtendCommand(m) => ExtendTimer(s, m.GetOr(DEFAULT_EXTEND_MINUTES))
    case OtherCommand => Step(s, [])
  }

  /** The service as written and the corrected one announce the same and
      hold the same timer fields after every command; their countdowns
      differ exactly when a START arrives while a countdown is tracked. */
  lemma AsWrittenDiffersOnlyInOrphans(s: Service, cmd: Command, nowMs: Int64)
    ensures var a := OnStartCommandAsWritten(s, cmd, nowMs);
      var c := OnStartCommand(s, cmd, nowMs);
      a.broadcasts == c.broadcasts && a.service.fields == c.service.fields
      && (a.service.countdowns != c.service.countdowns <==> cmd.StartCommand? && s.countdowns.tracked)
  {
  }

  /** An event reaching the service: a command with the clock reading at its
      arrival, or a tick of the tracked countdown with the time left then. */
  datatype Event = Arrive(cmd: Command, nowMs: Int64) | TrackedTick(remaining: Int64)

  /** The service after a sequence of events; ticks when no countdown is
      tracked do not happen and are skipped. */
  function Run(s: Service, events: seq<Event>): Service
    decreases |events|
  {
    if events == [] then s
    else
      var next := match events[0]
        case Arrive(cmd, now) => OnStartCommand(s, cmd, now).service
        case TrackedTick(rem) => if s.countdowns.tracked then Tick(s, true, rem).service else s;
      Run(next, events[1..])
  }

  /** No event sequence ever orphans a countdown of the corrected service;
      in particular, after a stop nothing is left counting down. */
  lemma {:induction false} RunKeepsOrphans(s: Service, events: seq<Event>)
    ensures Run(s, events).countdowns.orphans == s.countdowns.orphans
    decreases |events|
  {
    if events != [] {
      var next := match events[0]
        case Arrive(cmd, now) => OnStartCommand(s, cmd, now).service
        case TrackedTick(rem) => if s.countdowns.tracked then Tick(s, true, rem).service else s;
      RunKeepsOrphans(next, events[1..]);
    }
  }

  /** From a fresh service, whatever happened before, a stop leaves no
      countdown alive. */
  lemma StopAfterAnyHistory(events: seq<Event>, nowMs: Int64)
    ensures Live(OnStartCommand(Run(FRESH, events), StopCommand, nowMs).service.countdowns) == 0
  {
    RunKeepsOrphans(FRESH, events);
  }

  /** Stopping twice leaves the service as stopping once did; the second
      stop only announces itself again. */
  lemma StopTwice(s: Service)
    ensures StopTimer(StopTimer(s).service) == Step(StopTimer(s).service, [TimerStopped])
  {
  }

  /** As written, two starts and a stop leave the first countdown alive; its
      next run announces a completed session (or a time left) to a timer the
      user stopped. */
  lemma OrphanOutlivesStop(now1: Int64, now2: Int64, later: Int64)
    ensures var s1 := StartTimerAsWritten(FRESH, DEFAULT_DURATION_MINUTES, now1).service;
            var s2 := StartTimerAsWritten(s1, DEFAULT_DURATION_MINUTES, now2).service;
            var s3 := StopTimer(s2).service;
            && !s3.fields.active
            && Live(s3.countdowns) == 1
            && s3.countdowns.orphans == 1
            && Tick(s3, false, 0).broadcasts == [TimerCompleted]
            && (later > 0 ==> Tick(s3, false, later).broadcasts == [RemainingTime(later)])
  {
  }

  /** The minutes and seconds the ongoing notification shows: each
      truncated, narrowed to `Int` and clamped at zero. */
  function NotificationClock(remaining: Int64): (r: (int, int))
    ensures r.0 >= 0 && 0 <= r.1 < 60
    ensures INT_MIN * 60000 <= remaining <= 0 ==> r == (0, 0)
    ensures 0 <= remaining && remaining / 60000 <= INT_MAX ==>
      r.0 * 60000 + r.1 * 1000 <= remaining < r.0 * 60000 + r.1 * 1000 + 1000
  {
    var minutes := Quot(remaining, 60000);
    var seconds := Quot(Rem(remaining, 60000), 1000);
    var shown := (Max(0, ToInt(minutes)), Max(0, ToInt(seconds)));
    if 0 <= remaining then ClockSplit(remaining); shown else shown
  }

  /** Splitting a non-negative millisecond count into whole minutes, whole
      seconds of the last minute and a sub-second rest. */
  lemma ClockSplit(remaining: int)
    requires 0 <= remaining
    ensures var m := Quot(remaining, 60000);
      var sec := Quot(Rem(remaining, 60000), 1000);
      m == remaining / 60000 && 0 <= sec < 60
      && m * 60000 + sec * 1000 <= remaining < m * 60000 + sec * 1000 + 1000
  {
    var m := Quot(remaining, 60000);
    var rest := Rem(remaining, 60000);
    assert remaining == 60000 * m + rest && 0 <= rest < 60000;
    var sec := Quot(rest, 1000);
    assert 0 <= rest - 1000 * sec < 1000;
  }

  /** The `MM:SS` text of the ongoing notification. */
  function NotificationText(remaining: Int64): (text: string)
    ensures var (m, sec) := NotificationClock(remaining);
      |Split(text, ':')| == 2
      && AllDigits(Split(text, ':')[0]) && AllDigits(Split(text, ':')[1])
      && NumeralValue(Split(text, ':')[0]) == m && NumeralValue(Split(text, ':')[1]) == sec
      && |Split(text, ':')[0]| >= 2 && |Split(text, ':')[1]| == 2
      && (|Split(text, ':')[0]| == 2 || Split(text, ':')[0][0] != '0')
  {
    var (m, sec) := NotificationClock(remaining);
    ClockTextRoundTrip(m, sec);
    ClockText(m, sec)
  }
}

=== FILE: wrappers.dfy ===
/** Option and Result: the nullable references and thrown exceptions of the
    Kotlin sources become explicit values. */
module Wrappers {

  /** A Kotlin nullable value: `None` is `null`. */
  datatype Option<+T> = None | Some(value: T) {

    /** The `?:` (elvis) operator. */
    function GetOr(default: T): T {
      match this
      case Some(v) => v
      case None => default
    }
  }

  /** A computation that either produces a value or throws. */
  datatype Result<+R, +E> = Ok(value: R) | Err(error: E) {

    predicate IsFailure() {
      Err?
    }
  }
}
